=== FILE: README.md ===
# f1tenth-scoreapp timing core in Dafny

This project models the scoring application of the F1TENTH races: an optical barrier
records a crossing each time a car passes, and the application keeps the crossings,
computes lap and checkpoint statistics from them and shows them live. The model covers:

- **The timing engines of the web client.**
  - `computeTeamStatsAndMutateCrossings` and `computeRaceStatsAndMutateCrossings` (races.ts) and the older single-barrier `computeStats` (trials.ts).
  - Each is a left-to-right fold that writes `start`, `excluded`, `lap` and `checkpoint` on the crossings and returns start time, stop time, lap count, best lap and the current lap's start.
  - The in-place mutation becomes a returned, annotated sequence.
  - Every output field is proved equal to an independent definition by position in the crossing list (RaceEngine/TrialEngine "expected" functions). The README rows below state the consequences in the source's own words.
- **Snapshot/push reconciliation.**
  - The `setState` reducers of `useRaceDataExperimental`/`useTrialDataExperimental`, `staleDeps`, and the older `useRaceData`/`useTrialData` preferences (Freshness).
- **Listener infrastructure.**
  - `SmartMap`, the listener registries built on it, the key-value `Store` with change notification, the `WebSocketManager` client slot and message routing, and the retry policies.
- **Small decision functions of the client.**
  - The crossing list: diffs, filters, keyboard shortcuts and buttons.
  - The new-race form, the breadcrumb trail, the settings page's url and token handling, the `ConfirmButton` click counter, and `doRequest`'s header construction and error classification.
- **Backend rules.**
  - The race lifecycle (`setRaceState`, `CurrentRace.MarshalJSON`, `createRace`, `updateCrossing`, current race on start-up) over an abstract database.
  - The hub's register/unregister/broadcast step.
  - The millisecond `Duration` JSON codec.
- **The barrier firmware.**
  - `convert_time`, `us2str` and `usec_between`, and the reset/detect step of the lap counter in `main.c`.
  - Written for the Raspberry Pi it runs on, where `int`, `long` and `unsigned long` are 32 bits wide.

Shared modules: `Common` (Option, minimum, first index, C/Go truncating division), `Decimal` (decimal text of integers: JavaScript `toString`/`parseInt`, Go `strconv.FormatInt`/`ParseInt`, C `%02d`), `Types` (the enumerations and records of types.ts and the Go enums), `Laps` (best-lap bookkeeping shared by both engines).

Integer widths are written out where the source depends on them: Go int64 wrap-around (`JsonDuration.Wrap64`), C's 32-bit `unsigned long` and `(int)` cast (`OpticBarrier.ULong`, `OpticBarrier.IntCast`), and truncating division (`Common.TruncDiv`).

## Model

| member | source | states |
|---|---|---|
| RaceFacts.AnnotatesOnly | frontend/app/helpers/races.ts:105-114 | the output has the input's length and order; only derived fields are written, and an ignored or other-team crossing is returned untouched |
| RaceFacts.SkippedCrossingChangesNothing | frontend/app/helpers/races.ts:112-114 | inserting an ignored or other-team crossing anywhere changes no statistic and no other annotation, and the crossing gets no annotation |
| RaceFacts.PassSeesOnlyCounted | frontend/app/helpers/races.ts:107-202 | two lists that agree on the team's counted crossings give the same statistics and the same annotations on them |
| RaceFacts.StartIsFirstHomeCrossing | frontend/app/helpers/races.ts:116-124 | exactly the first counted lap-barrier crossing is marked start; startTime is its time, or -1 when there is none |
| RaceFacts.ExcludedAfterStopTime | frontend/app/helpers/races.ts:125-136 | in a fixed-time trial the stop time is start + timeDuration; a counted crossing is excluded iff it is at or after the start crossing and later than the stop time; an excluded crossing gets neither lap nor checkpoint |
| RaceFacts.NothingExcludedWithoutDuration | frontend/app/helpers/races.ts:126-136 | without a fixed duration nothing is excluded |
| RaceFacts.NotStartedExcludesNothing | frontend/app/helpers/races.ts:117-133 | before the team's first lap-barrier crossing no stop time exists, so nothing is excluded |
| RaceFacts.LapsNumberedFromOne | frontend/app/helpers/races.ts:140-161 | the lap numbers on the output are exactly 1, 2, ..., numLaps in order |
| RaceFacts.LapTimeSinceLatestHome | frontend/app/helpers/races.ts:140-161 | a crossing carries a lap iff it is a timed lap-barrier crossing with an earlier one; its lap time is the difference from the latest earlier one (negative values kept) |
| RaceFacts.BestLapIsFirstFastest | frontend/app/helpers/races.ts:163-166 | bestLapTime is the least lap time and bestLapCrossingId the id of the first lap attaining it; both -1 without laps |
| RaceFacts.CheckpointOnlyWithinLap | frontend/app/helpers/races.ts:168-191 | a crossing carries a checkpoint iff it is counted, not excluded, away from the lap barrier and after some timed lap-barrier crossing |
| RaceFacts.CheckpointNumbering | frontend/app/helpers/races.ts:180-190 | a checkpoint's lap number is one past the laps closed before it, its number counts the checkpoints since the latest lap-barrier crossing (restarting at 1 each lap), its time is measured from that crossing |
| RaceFacts.CurrentLapAndStopTime | frontend/app/helpers/races.ts:194-208 | currentLapStartTime is the latest timed lap-barrier crossing's time (-1 if none); without a fixed duration the stop time is that time for a finished or unfinished race and -1 otherwise |
| RaceFacts.HeadToHeadRunsIndependent | frontend/app/helpers/races.ts:63-81 | a head-to-head race is team A's run on its barrier and team B's on its barrier; team B's run over team A's annotated list equals its run over the list as received, and each crossing carries its own team's annotations |
| RaceFacts.OutputMatches | frontend/app/helpers/races.ts:107-202 | every output crossing is the annotation its position calls for, and timed lap-barrier crossings on the output are exactly the active ones |
| RaceFacts.OpenCheckpointsCount | frontend/app/helpers/races.ts:150-180 | the checkpoint counter equals the number of checkpoints written since the latest timed lap-barrier crossing |
| RaceFacts.PassPrefix | frontend/app/helpers/races.ts:107 | the fold over a prefix is the prefix of the fold |
| RaceEngine.PassMatches | frontend/app/helpers/races.ts:96-202 | after every prefix the fold's variables and annotations equal the definitions by position (start index, last home crossing, lap durations and ids, open checkpoints) |
| RaceEngine.ComputeRaceStats | frontend/app/helpers/races.ts:63-81 | a time trial yields time-trial statistics, a head-to-head race per-team statistics; the crossing list keeps its length |
| RaceEngine.StartAndLastHome | frontend/app/helpers/races.ts:117-124 | the start crossing and the first remembered lap-barrier time appear together; before them there is no lap and no open checkpoint |
| RaceEngine.CloseLapKeepsBest | frontend/app/helpers/races.ts:149-166 | closing a lap keeps bestLapTime/bestLapCrossingId the best of all lap durations so far |
| Laps.BestLapStep | frontend/app/helpers/races.ts:163-166 | one more lap lowers the best time (and takes its id) exactly when strictly faster |
| Laps.BestIsFirstFastest | frontend/app/helpers/races.ts:210-213 | the best of a non-empty lap list is its first fastest entry, below the MAX_SAFE_INTEGER sentinel |
| TrialEngine.AnnotatesOnly | frontend/app/helpers/trials.ts:50-56 | enhancedCrossings is the input list with its length and order, only derived fields added, ignored crossings untouched |
| TrialEngine.StartIsFirstCounted | frontend/app/helpers/trials.ts:58-61 | only the first non-ignored crossing is marked start; startTime is its time, -1 if all are ignored |
| TrialEngine.LapsNumberedFromOne | frontend/app/helpers/trials.ts:63-76 | numLaps is the number of non-ignored crossings minus one (0 without any) and laps are numbered 1..numLaps in order |
| TrialEngine.LapTimeSincePrevious | frontend/app/helpers/trials.ts:63-87 | a crossing carries a lap iff it and some earlier crossing are not ignored; its lap time is the difference from the latest earlier non-ignored one |
| TrialEngine.BestLapIsFirstFastest | frontend/app/helpers/trials.ts:80-98 | bestLapTime is the least lap time and bestLapCrossingId the first crossing attaining it; both -1 without laps |
| TrialEngine.CurrentLapAndStopTime | frontend/app/helpers/trials.ts:78-94 | currentLapStartTime stays -1 until the first lap and is then the latest lap crossing's time; stopTime is the last non-ignored crossing's time iff the trial is finished or unfinished, else -1 |
| TrialEngine.LapCountIsCountedLessOne | frontend/app/helpers/trials.ts:63-87 | every non-ignored crossing after the first closes a lap |
| TrialEngine.PassMatches | frontend/app/helpers/trials.ts:41-89 | after every prefix the fold's variables and annotations equal the definitions by position |
| TrialEngine.LapListsPrefix | frontend/app/helpers/trials.ts:71-83 | the lap numbers, times and ids read off a prefix of the output are 1..k, the lap durations and the lap crossing ids |
| Freshness.StaleDepsIffDifferent | frontend/app/helpers/trials-experimental.ts:18-28 | deps are stale iff the lists differ; never stale against themselves; symmetric |
| Freshness.Render | frontend/app/helpers/races-experimental.ts:50-65 | under changed deps the state restarts loading with no data and loading is returned; otherwise the held operation is returned |
| Freshness.LateResultsIgnored | frontend/app/helpers/races-experimental.ts:98-107 | after cleanup or under stale deps a REST or push result changes nothing |
| Freshness.FailuresOverwrite | frontend/app/helpers/races-experimental.ts:109-115 | a REST error or a missing result overwrites the operation even when data is held |
| Freshness.TakenIffNewer | frontend/app/helpers/races-experimental.ts:117-164 | a REST or pushed copy is taken iff no data is held or it is strictly newer by updatedAt; an equally old copy leaves the state as it is |
| Freshness.TakenRaceCarriesItsStats | frontend/app/helpers/races-experimental.ts:119-161 | a taken race is held with the statistics computed from exactly that race |
| Freshness.TakenTrialCarriesItsStats | frontend/app/helpers/trials-experimental.ts:118-163 | a taken trial is held with the statistics computed from exactly that trial, and the held trial is the received one with its crossings annotated in place by computeStats (same id, stamp, state and crossing count, each crossing keeping its recorded fields) |
| Freshness.PushNeverOlder | frontend/app/helpers/races-experimental.ts:145-167 | a push never makes the held data older |
| Freshness.PushesKeepLatest | frontend/app/helpers/races-experimental.ts:139-167 | after any sequence of pushes the held copy has the largest stamp seen, its own included |
| Freshness.UseRaceDataShowsNewest | frontend/app/helpers/races.ts:21-40 | once a race is loaded the hook shows whichever of the fetched and the pushed race is newer (the fetched one on a tie), so the shown stamp is at least both; before loading or after an error the query state is shown and pushes are ignored |
| Freshness.UseRaceDataNeverOlder | frontend/app/helpers/races.ts:28-35 | the shown race is never older than the fetched one |
| Freshness.UseTrialDataIgnoresPushes | frontend/app/helpers/trials.ts:14-25 | as written the hook returns the fetched operation even when a different trial was pushed (see Findings) |
| Freshness.UseTrialDataShowsPushed | frontend/app/helpers/trials.ts:10-27 | as intended: once loaded, a pushed trial is shown whatever was fetched, the fetched one only while nothing was pushed; loading and failed queries pass through |
| RetryPolicy.ZeroRetriesIsNoRetry | frontend/app/helpers/retry-policy.ts:13-33 | maxRetries = 0 aborts every retry, like noRetryPolicy |
| RetryPolicy.UnlimitedNeverAborts | frontend/app/helpers/retry-policy.ts:20-33 | with maxRetries = -1 the constant policy always waits delay and the linear one attempt times delay |
| RetryPolicy.AbortIsFinal | frontend/app/helpers/retry-policy.ts:21-31 | once a policy aborts at attempt n it aborts at every later attempt |
| RetryPolicy.DelaysNonNegative | frontend/app/helpers/retry-policy.ts:8-32 | with delay >= 0 every delay given for a retry (attempt >= 1) is >= 0 |
| RetryPolicy.LinearNonDecreasing | frontend/app/helpers/retry-policy.ts:30-33 | linear delays do not decrease with the attempt number |
| RetryPolicy.RetryBudget | frontend/app/helpers/retry-policy.ts:15-33 | of the first n retries a policy with maxRetries = k >= 0 allows min(n, k), an unlimited one all, noRetryPolicy none |
| SmartMap.GetPresent | frontend/app/helpers/maps.ts:29-34 | get on a present key returns the stored value and changes nothing |
| SmartMap.GetMissing | frontend/app/helpers/maps.ts:36-40 | get on a missing key stores and returns the created value, the per-call creator overriding the fallback, and adds no other key |
| SmartMap.GetIdempotent | frontend/app/helpers/maps.ts:29-41 | a second get of the same key returns the same value and changes nothing |
| SmartMap.SafeDeleteSpec | frontend/app/helpers/maps.ts:43-58 | safeDelete removes the key iff present and allowed by the predicate, returns whether it did, and leaves other entries alone |
| SmartMap.GetThenSafeDelete | frontend/app/helpers/maps.ts:29-58 | creating an entry with get and deleting it when allowed gives the map back |
| Listeners.SubscribeAdds | frontend/app/store/Store.ts:117-121 | subscribing adds the listener under its key and nowhere else |
| Listeners.UnsubscribeRemoves | frontend/app/store/Store.ts:123-127 | unsubscribing removes the listener and drops the key's entry iff no listener is left |
| Listeners.SubscribeThenUnsubscribe | frontend/app/ws/WebSocketManager.ts:173-180 | subscribing a new listener and unsubscribing it gives the registry back |
| Store.LoadData | frontend/app/store/Store.ts:47-75 | data loads iff the entry exists, parses, has a `d` member and a version equal to the store's |
| Store.SaveLoadRoundTrip | frontend/app/store/Store.ts:64-93 | what saveData writes loads back under the same key and version |
| Store.CreateLoadsOrInitialises | frontend/app/store/Store.ts:27-45 | the store starts from saved data with its version, otherwise from onInitData, which is then saved |
| Store.UpdateSpec | frontend/app/store/Store.ts:131-148 | after update the path holds the next value and other paths are unchanged; a change is saved and announced to that path's listeners only; an equal value does nothing |
| Store.UpdateIdempotent | frontend/app/store/Store.ts:142 | updating twice with the same value changes nothing the second time |
| Store.ListenRoundTrip | frontend/app/store/Store.ts:117-129 | listening and then unsubscribing gives the listener registry back |
| WebSocketManager.GetConnectionState | frontend/app/ws/WebSocketManager.ts:71-76 | the url is always reported; the state is -1 without a client |
| WebSocketManager.Disconnect | frontend/app/ws/WebSocketManager.ts:129-144 | without a client nothing happens; otherwise the client is closed with 1000 unless already closed, forgotten, and listeners see -1 |
| WebSocketManager.ConnectReplacesClient | frontend/app/ws/WebSocketManager.ts:78-127 | connecting with a url leaves a brand-new client current, making every earlier client stale; without a url no client is left |
| WebSocketManager.ConnectEffects | frontend/app/ws/WebSocketManager.ts:78-125 | connecting first disconnects the old client, then opens the new one and notifies CONNECTING |
| WebSocketManager.StaleCallbacksIgnored | frontend/app/ws/WebSocketManager.ts:17-24 | open, close, message and error callbacks of a client that is no longer current change nothing |
| WebSocketManager.MessageRouting | frontend/app/ws/WebSocketManager.ts:146-196 | a message reaches exactly the listeners of the trial it carries; unparsable, trial-less or unlistened messages reach nobody |
| WebSocketManager.TrialListenRoundTrip | frontend/app/ws/WebSocketManager.ts:173-180 | listening for a trial and unsubscribing prunes the registry back |
| WebSocketManager.SetUrlReconnects | frontend/app/ws/WebSocketManager.ts:62-69 | setting the url reconnects a connected manager and only records it otherwise |
| WebSocketManager.OperationsKeepValid | frontend/app/ws/WebSocketManager.ts:38-196 | every operation keeps the current client, if any, among those created |
| CrossingsView.TeamClass | frontend/app/components/crossings.tsx:28-29 | A maps to 'a', B to 'b', unset to 'unset', and only those |
| CrossingsView.OtherTeam | frontend/app/components/crossings.tsx:31-34 | an unset crossing takes the fallback team; an assigned one switches team |
| CrossingsView.OtherTeamInvolutive | frontend/app/components/crossings.tsx:31-34 | switching an assigned crossing twice gives its team back |
| CrossingsView.CrossingsDiffs | frontend/app/components/crossings.tsx:183-205 | one entry per crossing: none for the first, then each time minus the previous one |
| CrossingsView.DiffsRebuildTimes | frontend/app/components/crossings.tsx:183-205 | summing the diffs from the first time gives back every crossing's time |
| CrossingsView.FilterSelectsInOrder | frontend/app/components/crossings.tsx:309-338 | the visible list is the order-preserving selection of exactly the crossings passing every enabled filter |
| CrossingsView.VisibleIsFiltered | frontend/app/components/crossings.tsx:313-338 | skipping filtering when none is enabled changes nothing; hiding ignored hides excluded too; hiding checkpoints hides every crossing with one |
| CrossingsView.FilterAllPass | frontend/app/components/crossings.tsx:333-338 | with no filter enabled the list is shown whole |
| CrossingsView.FilterIdempotent | frontend/app/components/crossings.tsx:333-337 | filtering the visible list again changes nothing |
| CrossingsView.Shortcut | frontend/app/components/crossings.tsx:239-276 | a shortcut acts only on the last visible crossing, never on key repeat, an empty list or without an updater |
| CrossingsView.ShortcutActions | frontend/app/components/crossings.tsx:258-274 | 'i' flips ignored keeping team and interrupted; 'a' sets team A; 'b' and 's' set team B; each only when that shortcut is enabled |
| CrossingsView.ShortcutIgnoresCase | frontend/app/components/crossings.tsx:241 | upper-case keys act as lower-case ones |
| CrossingsView.ButtonActsOnItsRow | frontend/app/components/crossings.tsx:524-584 | each button, reading its row's data attributes, changes exactly the field it names on that crossing and keeps every other |
| CrossingsView.InterruptLabelMismatch | frontend/app/components/crossings.tsx:153-163 | as written the interrupt button's label names its action iff ignored equals interrupted (see Findings) |
| CrossingsView.LabelsNameTheAction | frontend/app/components/crossings.tsx:153-175 | with the label chosen as intended, each label names its button's action and pressing it flips that field |
| CrossingsView.BarrierOptionRoundTrip | frontend/app/components/crossings.tsx:483-494 | the rendered option "0" and each barrier id read back as what they stand for |
| NewRaceForm.Validate | frontend/app/views/NewRaceForm.tsx:27-59 | error keys are within {type, round, teamAId, teamBId}; type and teamAId are required; round is required and must be positive; teamBId is required only for head-to-head |
| NewRaceForm.InitialNeedsTeamA | frontend/app/views/NewRaceForm.tsx:68-85 | the initial form lacks only team A |
| NewRaceForm.Submit | frontend/app/views/NewRaceForm.tsx:87-107 | a form in error is not sent and ends with every field touched |
| NewRaceForm.SubmitSends | frontend/app/views/NewRaceForm.tsx:87-128 | a form is sent iff valid and of a known type; a time trial without teamBId, a head-to-head with it; submitting never changes values |
| NewRaceForm.SubmitInErrorSettles | frontend/app/views/NewRaceForm.tsx:92-106 | submitting a form in error again changes nothing more |
| NewRaceForm.InputChange | frontend/app/views/NewRaceForm.tsx:130-142 | a number field ignores text that does not parse as an integer |
| NewRaceForm.InputChangeSetsField | frontend/app/views/NewRaceForm.tsx:130-158 | an empty input clears the field, a number is parsed, the field is touched, other fields are kept; repeating the change does nothing |
| NewRaceForm.TypedNumberStored | frontend/app/views/NewRaceForm.tsx:137-158 | typing a number's decimal text into a number field stores that number |
| Breadcrumbs.Links | frontend/app/components/breadcrumbs.tsx:25-116 | 1 to 3 links, the first the home page, the last named after the page |
| Breadcrumbs.TrailExtendsParent | frontend/app/components/breadcrumbs.tsx:25-116 | a page's trail is its parent's trail plus its own link |
| Breadcrumbs.TrailLength | frontend/app/components/breadcrumbs.tsx:34-112 | home yields one link; settings exactly [home, settings]; team pages put teams second, race pages races second; new/detail pages add a third |
| Breadcrumbs.LastLinkIsThePage | frontend/app/components/breadcrumbs.tsx:65-107 | the last link leads back to the page, id included, and a team or race link's label is the id's decimal text |
| Settings.NormalizeRestUrl | frontend/app/views/SettingsPage.tsx:47-52 | a url ending in '/' loses exactly that character; any other is unchanged |
| Settings.NormalizeRestUrlPrefix | frontend/app/views/SettingsPage.tsx:52 | the result is a prefix of the url, at most one character shorter, ending in '/' only when the url ended in two |
| Settings.NormalizeExamples | frontend/app/views/SettingsPage.tsx:48-49 | 'http://localhost:4110/' normalises to 'http://localhost:4110'; the presets are already normal |
| Settings.AuthTokenRoundTrip | frontend/app/views/SettingsPage.tsx:80-86 | the token field, shown as `authToken ?? ''` (line 143), reads back what was typed; an empty token is never stored; a stored token survives being shown and entered again |
| Settings.SavingAgainKeepsUrls | frontend/app/views/SettingsPage.tsx:88-91 | saving saved urls again changes nothing unless the REST url ends in two slashes |
| ConfirmButton.CountdownShown | frontend/app/components/common.tsx:44-89 | after k clicks from a fresh button the number shown is num - k while above one, then stays at one; it never reaches zero, with or without onClick |
| ConfirmButton.ClicksUntilConfirmed | frontend/app/components/common.tsx:38-59 | from a fresh button, after k clicks the count is min(k, num - 1) and onClick ran max(0, k - num + 1) times |
| ConfirmButton.DefaultFiresOnThirdClick | frontend/app/components/common.tsx:38-54 | with the default num = 3, onClick first runs on the third click |
| ConfirmButton.NoHandlerNeverFires | frontend/app/components/common.tsx:46-53 | without onClick nothing fires and the count stops at num - 1 |
| Api.BuildRequest | frontend/app/helpers/api.ts:44-50 | Accept is always JSON; Authorization is "Bearer token" iff a token is given; Content-Type JSON and the serialised body iff a body is given; other headers kept |
| Api.Classify | frontend/app/helpers/api.ts:53-108 | an error without status is thrown exactly for a failed fetch; any other error carries the response status |
| Api.ReturnsDataOnlyWhenOk | frontend/app/helpers/api.ts:64-108 | data comes back iff the response is ok with a parsed body (and not an accepted 404); undefined iff an ok empty response or an accepted 404 |
| Api.ParseErrorBeforeNotFound | frontend/app/helpers/api.ts:80-95 | an unparsable body is a parse_error with the status, even for an accepted 404 |
| Api.ServerErrorReported | frontend/app/helpers/api.ts:97-104 | an error status reports body.code or unknown_error, body.message or the status message, and the status |
| Api.FetchAndEmptyBodyErrors | frontend/app/helpers/api.ts:53-76 | a failed fetch throws fetch_failed without a status; an error status with an empty body throws unknown_error with the status message and the status; an ok empty response returns undefined |
| RaceLifecycle.CurrentRaceJsonRoundTrip | backend/main.go:95-108 | the current-race message is `{"currentRace":null}` or `{"currentRace":{"id":ID}}`, and reading it gives the current race back |
| RaceLifecycle.SetRaceStateRules | backend/main.go:110-179 | start succeeds iff no race is current and the race is before start; stop/cancel iff it is running; nothing else; on success only that race's state and update time change (the time becomes now, as gorm's Updates stamps UpdatedAt), the current race is set or cleared, and it and then the race are broadcast |
| RaceLifecycle.SetRaceState | backend/main.go:110-179 | a successful change concerns an existing race and keeps the set of races |
| RaceLifecycle.SetRaceStateKeepsValid | backend/main.go:155-162 | the current-race record names exactly the running race after every change |
| RaceLifecycle.OneRaceAtATime | backend/main.go:124-150 | while a race runs no race can start and no other race can be stopped |
| RaceLifecycle.LoadCurrentValid | backend/main.go:372-385 | on start-up with at most one running race, the current-race record names it |
| RaceLifecycle.CreateRaceRules | backend/main.go:219-294 | a race is created iff it has a type and an existing team A, a time trial names no lap count, a head-to-head names no time and an existing non-zero team B, and the request names no id already taken; it is stored under the sent id or else the next one, with the sent updatedAt or else now; state is always before-start; defaults 300 s and 10 laps; a failed check is a 400, a taken id a 500 |
| RaceLifecycle.CreateRace | backend/main.go:219-294 | creating a race keeps the current race and broadcasts nothing |
| RaceLifecycle.CreateRaceKeepsValid | backend/main.go:288-289 | a created race has not started, so the current-race invariant is kept |
| RaceLifecycle.UpdateCrossingRules | backend/main.go:304-349 | team > 2 is refused before lookup; a missing crossing is an error; otherwise only the crossing's ignored and team change, its race's update time is set, and the race is broadcast |
| RaceLifecycle.UpdateCrossing | backend/main.go:304-349 | a crossing change keeps the races and the current race |
| RaceLifecycle.UpdateCrossingKeepsValid | backend/main.go:325-342 | a crossing change never touches race states |
| Hub.Run | backend/hub.go:48-80 | queued-to and closed clients are registered clients; only barrier registration is answered |
| Hub.BarrierRegistration | backend/hub.go:58-68 | a taken id is answered false and changes nothing; a free id is stored and answered true; unregistering frees the id |
| Hub.SecondBarrierRefused | backend/hub.go:58-65 | a second barrier with the same id is refused while the first is registered |
| Hub.ClientRegistration | backend/hub.go:51-57 | registering adds a client; unregistering removes it and closes its queue only if it was registered |
| Hub.BroadcastPartition | backend/hub.go:69-77 | each registered client either gets the message or, when its queue is full, is closed and dropped, never both |
| Hub.RunKeepsValid | backend/hub.go:25-80 | barriers stay under their own ids and no queue is closed twice |
| JsonDuration.Marshal | backend/jsonduration.go:11-14 | the text is canonical decimal |
| JsonDuration.MarshalWholeMilliseconds | backend/jsonduration.go:11-14 | the text reads back as the duration's whole milliseconds truncated toward zero |
| JsonDuration.UnmarshalMarshal | backend/jsonduration.go:11-25 | a whole number of milliseconds survives marshal then unmarshal |
| JsonDuration.UnmarshalErrors | backend/jsonduration.go:16-25 | non-int64 text is an error and leaves the duration unchanged |
| JsonDuration.UnmarshalAsWrittenWraps | backend/jsonduration.go:23 | as written a large millisecond count wraps to a negative duration (see Findings) |
| JsonDuration.Unmarshal | backend/jsonduration.go:16-25 | as intended: success gives an int64 whole number of milliseconds; an error keeps the duration |
| JsonDuration.MarshalUnmarshal | backend/jsonduration.go:11-25 | canonical text that unmarshals is written back as it was |
| JsonDuration.ScanValue | backend/jsonduration.go:29-38 | what Value stores Scan reads back |
| JsonDuration.Wrap64 | backend/jsonduration.go:23 | the int64 result is congruent to the exact one modulo 2^64 and equal to it in range |
| Common.TruncDiv | backend/jsonduration.go:13 | Go's division truncates toward zero: the quotient's multiple brackets the dividend on its side of zero |
| Decimal.ParseFormatInt64 | backend/jsonduration.go:13-19 | strconv.ParseInt reads back every int64 strconv.FormatInt writes |
| Decimal.FormatParseInt64 | backend/jsonduration.go:13-19 | canonical text that parses is written back as it was |
| Decimal.JsParseIntFormat | frontend/app/views/NewRaceForm.tsx:138 | parseInt reads back the decimal text of an integer (exact in JavaScript up to 2^53; see Left out) |
| Decimal.JsParseIntSkipsSpace | frontend/app/views/NewRaceForm.tsx:138 | leading white space, including Unicode space separators such as U+3000, is skipped before the number |
| Decimal.Pad2Value | optic_barrier_sw/main.c:122 | %02d of a non-negative field is at least two digits reading back as the field |
| OpticBarrier.IntCast | optic_barrier_sw/main.c:108 | the (int) cast keeps values below 2^31 and turns larger ones negative |
| OpticBarrier.ConvertTime | optic_barrier_sw/main.c:104-116 | as intended: minutes, seconds < 60 and milliseconds < 1000 show the time to the millisecond below it |
| OpticBarrier.ConvertTimeInIntRange | optic_barrier_sw/main.c:104-116 | below 2^31 microseconds the code as written shows the intended fields |
| OpticBarrier.ConvertTimeAsWrittenNegative | optic_barrier_sw/main.c:108-114 | as written 2^31 microseconds shows as -35:-47:-483 (see Findings) |
| OpticBarrier.Us2StrReadsBack | optic_barrier_sw/main.c:118-124 | as intended (on the corrected convert_time): the text is the prefix then three colon-separated fields of at least two digits reading back as minutes, seconds and milliseconds |
| OpticBarrier.Us2StrAsWrittenAgrees | optic_barrier_sw/main.c:104-124 | below 2^31 microseconds us2str as written writes the intended text; at 2^31 it writes -35:-47:-483 where 35:47:483 is meant |
| OpticBarrier.UsecBetweenElapsed | optic_barrier_sw/main.c:160-163 | the result is the elapsed microseconds modulo 2^32 |
| OpticBarrier.ResetRestores | optic_barrier_sw/main.c:228-250 | the reset button restores the power-up state |
| OpticBarrier.FirstDetectionStarts | optic_barrier_sw/main.c:257-277 | the first detection after a reset is always taken, restarts the lap timer and leaves lap and best times alone |
| OpticBarrier.LaterDetection | optic_barrier_sw/main.c:257-281 | a later detection is a lap iff more than MIN_TIME_US elapsed: then the lap time is the elapsed time and best the smaller; otherwise start, lap and best stay |
| OpticBarrier.BestIsLeastLap | optic_barrier_sw/main.c:229-276 | without reset, best is the least recorded lap (LONG_MAX while none) and the lap time the last recorded |
| OpticBarrier.BestBoundsEveryLap | optic_barrier_sw/main.c:229-276 | from power-up the best time is at most LONG_MAX and at most every recorded lap |

## Left out

- Input and output: rendering, `fetch`, `JSON.parse`/`stringify`, localStorage, WebSocket transport, console logging, gorm/SQLite, echo handlers, the key-auth middleware, the OLED display, GPIO, the interrupt handler, `gettimeofday` and `system("shutdown")`. Their results are parameters or outcome values.
- Concurrency: the hub's channels and goroutines, the client write pumps and React's scheduling. Each `select` case and each `setState` updater is one step function.
- RaceFacts.OutputMatches, RaceFacts.LapsNumberedFromOne, RaceFacts.LapTimeSinceLatestHome, RaceFacts.BestLapIsFirstFastest, RaceFacts.CheckpointOnlyWithinLap, RaceFacts.CheckpointNumbering and RaceFacts.CurrentLapAndStopTime: proved for crossing times in [0, MAX_SAFE_INTEGER) and for crossings as received (no derived field yet). The source uses -1 as "none" and MAX_SAFE_INTEGER as "no lap yet", so other times make the sentinels ambiguous.
- TrialEngine.LapsNumberedFromOne, TrialEngine.LapTimeSincePrevious, TrialEngine.BestLapIsFirstFastest and TrialEngine.LapListsPrefix: same restriction on times and on crossings as received.
- Times are integers (epoch milliseconds). Non-integer JavaScript numbers are not modelled.
- NewRaceForm.Validate: a round that is a non-integer number cannot be represented (fields hold integers), so the `!Number.isInteger` half of the round check is not modelled.
- The `console.error` on negative lap or checkpoint differences is logging only. Negative differences are kept, as in the source.
- `isDefined` (frontend/app/helpers/common.ts) is not part of this model; it is read as "not undefined".
- `staleDeps` as imported by races-experimental.ts comes from `./common`, which is not part of this model; the definition in trials-experimental.ts is used for both hooks.
- `createSmartMapOfSets` (imported by Store.ts) is not part of this model; it is modelled as a SmartMap of sets that prunes empty sets, like WebSocketManager's trial registry.
- `saveData` failures are not modelled: saving always succeeds.
- The connection-state listener set of WebSocketManager is a plain set, and `readyState` is an input. Reconnection logic does not appear in WebSocketManager.ts and is not invented.
- `String.toLowerCase` is modelled on ASCII letters only.
- Error messages are values of a `Reason` enumeration, not formatted text. The formatted "no team with id %d" for team B (main.go:279) prints an address, and that is not modelled.
- `CrossingTeam` in backend/main.go is not part of this model; the team of a crossing update is a natural number.
- In `createRace` an unknown non-empty race type passes validation and is stored without defaults, as the code does.
- RaceLifecycle.CreateRace: the request's crossings (the `Crossings` field, which `Create` does not omit) would be inserted with the race. The model's request has none. `CreatedAt` and soft deletion (`DeletedAt`) are not modelled. The id counter moves past the inserted id, as SQLite's integer primary key does.
- gorm's row order and broadcast or marshal failures are not modelled. The first running race found on start-up is the only one when at most one runs, and that is the case proved.
- Websocket upgrades (main.go:460-463 for barriers, client.go:101 for clients), the ping/pong handling and the barrier simulator are outside the core. A barrier is registered with the hub (main.go:454-458) before its upgrade. If the upgrade fails, `barrier.reader` (main.go:465) never runs, so nothing unregisters it, and its id is refused as "barrier already connected" until the server restarts. Hub.BarrierRegistration's "unregistering frees the id" holds of the hub, but no code path unregisters such a barrier.
- backend/jsontime.go (float seconds) is not modelled.
- main.c: the value of `start` before the first detection is uninitialised in C; here it is a parameter of power-up. The display strings other than `us2str` are not modelled.
- main.c is modelled for a 32-bit `unsigned long` and `int`, the Raspberry Pi's widths. In `usec_between` (main.c:162) the product `(stop->tv_sec - start->tv_sec) * 1000000` is signed 32-bit `long` arithmetic, which overflows after about 2147 s; C leaves that overflow undefined, and the model takes it to wrap modulo 2^32, as a wrapping build does.
- Decimal.JsParseIntFormat: numbers are unbounded integers here. A JavaScript number is a double: parseInt is exact only up to 2^53 in magnitude, and toString writes exponent form from 10^21 on. The round trip is stated for every integer, which holds in JavaScript only within 2^53. Ids and barrier numbers stay far below that.
- OpticBarrier.Us2StrReadsBack: stated for us2str on the corrected convert_time. As written, us2str agrees with it only below 2^31 microseconds (OpticBarrier.Us2StrAsWrittenAgrees); from 2^31 on the fields are negative (see Findings).
- RaceLifecycle.UpdateCrossing: for a crossing with no race (raceId 0), the source commits the change and then fails in broadcastRace, because no race 0 can be loaded (main.go:395), so the handler answers with an error. The model answers Ok with a message for race 0.
- RaceLifecycle.CurrentRaceJsonRoundTrip: race ids are read back only up to the int64 maximum, which is the range of the decimal reader used.

## Findings

| source | as written | input that shows it | evidently intended | confidence | as-written member | corrected member |
|---|---|---|---|---|---|---|
| frontend/app/components/crossings.tsx:161 | the interrupt button's screen-reader label is chosen by `ignored` | a counted crossing (`ignored` false) that is interrupted: the button is `setUninterrupted` but its label says "setInterrupted" | choose the label by `interrupted`, like the button name on line 155 (proved in CrossingsView.LabelsNameTheAction) | high; not executed | CrossingsView.InterruptLabelMismatch | CrossingsView.InterruptLabel |
| frontend/app/helpers/trials.ts:15-22 | `op` is bound to useQuery's whole return value `{op, updateOp}`, so `op.loading`, `op.hasError` and `op.data` are undefined and the record itself is returned | a loaded trial and a different pushed trial: the pushed trial is never shown | destructure `{ op }` as races.ts:26 does, so pushed data is preferred once loaded | high; not executed | Freshness.UseTrialDataIgnoresPushes | Freshness.UseTrialData |
| backend/jsonduration.go:23 | `q * 1e6` in int64 wraps silently | the text 9223372036855 becomes -9223372036854551616 ns, written back as -9223372036854 | a millisecond count whose nanoseconds exceed int64 is a range error (round trip proved in JsonDuration.MarshalUnmarshal) | medium; not executed | JsonDuration.UnmarshalAsWrittenWraps | JsonDuration.Unmarshal |
| optic_barrier_sw/main.c:108-114 | `(int)time_us` turns times of 2^31 µs and more negative before dividing | 2^31 µs (35 min 47.483648 s) shows as -35:-47:-483 | divide the unsigned value: 35:47:483 (proved in OpticBarrier.ConvertTime and OpticBarrier.Us2StrReadsBack) | medium; not executed | OpticBarrier.ConvertTimeAsWrittenNegative | OpticBarrier.ConvertTime |

=== FILE: api.dfy ===
/** `doRequest` of frontend/app/helpers/api.ts: the request headers and body it sends,
    and how the outcome of `fetch` becomes either the returned data or a thrown
    DoRequestError.

    `fetch`, the response and `response.json()` are abstracted to their outcomes. The
    parsed body is read both as the expected data and as an ApiError with optional
    `code` and `message`. A defined value (`isDefined`) is `Some`. */
module Api {
  import opened Common
  import opened Decimal

  const CONTENT_TYPE_JSON := "application/json"

  /** A body value serialised with JSON.stringify. */
  datatype Serialised<B> = Stringified(value: B)

  datatype Request<B> = Request(headers: map<string, string>, body: Option<Serialised<B>>)

  /** The request `fetch` is given: the caller's headers, then Accept, then
      Authorization when there is a token, then Content-Type when there is a body;
      later entries win. */
  function BuildRequest<B>(headers: map<string, string>, token: Option<string>, body: Option<B>): (r: Request<B>)
    ensures "Accept" in r.headers && r.headers["Accept"] == CONTENT_TYPE_JSON
    ensures "Authorization" in r.headers <==> token.Some? || "Authorization" in headers
    ensures token.Some? ==> r.headers["Authorization"] == "Bearer " + token.value
    ensures "Content-Type" in r.headers <==> body.Some? || "Content-Type" in headers
    ensures body.Some? ==> r.headers["Content-Type"] == CONTENT_TYPE_JSON
    ensures r.body.Some? <==> body.Some?
    ensures body.Some? ==> r.body.value == Stringified(body.value)
    ensures forall h :: h in headers && h !in {"Accept", "Authorization", "Content-Type"} ==> h in r.headers && r.headers[h] == headers[h]
  {
    var h1 := headers["Accept" := CONTENT_TYPE_JSON];
    var h2 := if token.Some? then h1["Authorization" := "Bearer " + token.value] else h1;
    var h3 := if body.Some? then h2["Content-Type" := CONTENT_TYPE_JSON] else h2;
    Request(h3, if body.Some? then Some(Stringified(body.value)) else None)
  }

  /** The parsed JSON body: the expected data, and its `code` and `message` members
      when it is read as an ApiError. */
  datatype Body<D> = Body(code: Option<string>, message: Option<string>, data: D)

  /** What `response.json()` settles to. */
  datatype Parsed<D> = Unparsable(reason: string) | ParsedBody(body: Body<D>)

  datatype Response<D> = Response(status: int, ok: bool, hasBody: bool, contentType: Option<string>, json: Parsed<D>)

  datatype FetchOutcome<D> = FetchFailed | Responded(response: Response<D>)

  /** DoRequestError. */
  datatype RequestError = RequestError(code: string, message: string, status: Option<int>)

  /** What doRequest settles to: the data (None for `undefined`), or a thrown error. */
  datatype Outcome<D> = Returned(data: Option<D>) | Thrown(error: RequestError)

  function StatusMessage(status: int): string {
    "Response status is " + FormatInt(status)
  }

  /** doRequest after `fetch`: a failed fetch, a response without a body, a body that
      does not parse, a 404 the caller accepts as "none", another error status, or
      the data. */
  function Classify<D>(outcome: FetchOutcome<D>, returnUndefinedForNotFoundError: bool): (r: Outcome<D>)
    ensures r.Thrown? && r.error.status.None? <==> outcome.FetchFailed?
    ensures r.Thrown? && r.error.status.Some? ==> r.error.status.value == outcome.response.status
  {
    match outcome
    case FetchFailed =>
      Thrown(RequestError("fetch_failed", "The request failed. Possibly due to a network error.", None))
    case Responded(response) =>
      if !response.hasBody then
        if !response.ok then Thrown(RequestError("unknown_error", StatusMessage(response.status), Some(response.status)))
        else Returned(None)
      else match response.json
        case Unparsable(reason) =>
          Thrown(RequestError("parse_error",
            "An error occurred while parsing JSON: " + reason + ". Content-Type: " + response.contentType.GetOr("null"),
            Some(response.status)))
        case ParsedBody(body) =>
          if returnUndefinedForNotFoundError && response.status == 404 then Returned(None)
          else if !response.ok then
            Thrown(RequestError(body.code.GetOr("unknown_error"), body.message.GetOr(StatusMessage(response.status)), Some(response.status)))
          else Returned(Some(body.data))
  }

  /** Data comes back exactly from an ok response with a body that parses (and is not
      a 404 the caller turns into "none"); `undefined` comes back for an ok response
      without a body and for an accepted 404. */
  lemma ReturnsDataOnlyWhenOk<D>(outcome: FetchOutcome<D>, notFoundIsNone: bool)
    ensures var r := Classify(outcome, notFoundIsNone);
      (r.Returned? && r.data.Some?) <==>
        (outcome.Responded? && outcome.response.hasBody && outcome.response.ok
         && outcome.response.json.ParsedBody? && !(notFoundIsNone && outcome.response.status == 404))
    ensures var r := Classify(outcome, notFoundIsNone);
      r.Returned? && r.data.Some? ==> r.data.value == outcome.response.json.body.data
    ensures var r := Classify(outcome, notFoundIsNone);
      (r.Returned? && r.data.None?) <==>
        (outcome.Responded? &&
          ((!outcome.response.hasBody && outcome.response.ok)
           || (outcome.response.hasBody && outcome.response.json.ParsedBody? && notFoundIsNone && outcome.response.status == 404)))
  {
  }

  /** A body that does not parse is a parse error even for a 404 the caller would
      accept as "none": parsing comes first. */
  lemma ParseErrorBeforeNotFound<D>(response: Response<D>, notFoundIsNone: bool)
    requires response.hasBody && response.json.Unparsable?
    ensures Classify(Responded(response), notFoundIsNone).Thrown?
    ensures Classify(Responded(response), notFoundIsNone).error.code == "parse_error"
    ensures Classify(Responded(response), notFoundIsNone).error.status == Some(response.status)
  {
  }

  /** A failed fetch is thrown as "fetch_failed" without a status; an error status
      with an empty body is thrown as "unknown_error" with the status message and the
      status; an ok status with an empty body returns `undefined`. */
  lemma FetchAndEmptyBodyErrors<D>(response: Response<D>, notFoundIsNone: bool)
    ensures var r := Classify<D>(FetchFailed, notFoundIsNone);
      r.Thrown? && r.error.code == "fetch_failed" && r.error.status.None?
    ensures !response.hasBody && !response.ok ==>
      Classify(Responded(response), notFoundIsNone)
        == Thrown(RequestError("unknown_error", StatusMessage(response.status), Some(response.status)))
    ensures !response.hasBody && response.ok ==> Classify(Responded(response), notFoundIsNone) == Returned(None)
  {
  }

  /** An error status with a parsed body reports the server's code and message, with
      "unknown_error" and the status message when the body has none. */
  lemma ServerErrorReported<D>(response: Response<D>, notFoundIsNone: bool)
    requires response.hasBody && response.json.ParsedBody? && !response.ok
    requires !(notFoundIsNone && response.status == 404)
    ensures Classify(Responded(response), notFoundIsNone)
         == Thrown(RequestError(
              response.json.body.code.GetOr("unknown_error"),
              response.json.body.message.GetOr(StatusMessage(response.status)),
              Some(response.status)))
  {
  }
}

=== FILE: breadcrumbs.dfy ===
/** The breadcrumb trail of frontend/app/components/breadcrumbs.tsx
    (`breadcrumbsPropsToLinks`): the links from the home page down to the current
    page. The translation function `t` is a parameter and is never interpreted. */
module Breadcrumbs {
  import opened Common
  import opened Decimal

  /** The pages with a breadcrumb trail (BreadcrumbsProps) and their route names. */
  datatype Page =
    | Root | Settings
    | Teams | TeamNew | TeamPage(teamId: int)
    | Races | RaceNew | RacePage(raceId: int)

  function RouteName(p: Page): string {
    match p
    case Root => "R_ROOT"
    case Settings => "R_SETTINGS"
    case Teams => "R_TEAMS"
    case TeamNew => "R_TEAM_NEW"
    case TeamPage(_) => "R_TEAM"
    case Races => "R_RACES"
    case RaceNew => "R_RACE_NEW"
    case RacePage(_) => "R_RACE"
  }

  datatype Payload = TeamPayload(teamId: int) | RacePayload(raceId: int)

  datatype Link = Link(name: string, payload: Option<Payload>, caption: string)

  /** breadcrumbsPropsToLinks. */
  function Links(t: string -> string, p: Page): (links: seq<Link>)
    ensures 1 <= |links| <= 3
    ensures links[0] == Link("R_ROOT", None, t("titles.home"))
    ensures links[|links| - 1].name == RouteName(p)
  {
    var home := [Link("R_ROOT", None, t("titles.home"))];
    if p.Root? then home
    else if p.Settings? then home + [Link("R_SETTINGS", None, t("titles.settings"))]
    else if p.Teams? || p.TeamNew? || p.TeamPage? then
      var teams := home + [Link("R_TEAMS", None, t("titles.teams"))];
      if p.Teams? then teams
      else if p.TeamNew? then teams + [Link("R_TEAM_NEW", None, t("titles.newTeam"))]
      else teams + [Link("R_TEAM", Some(TeamPayload(p.teamId)), FormatInt(p.teamId))]
    else
      var races := home + [Link("R_RACES", None, t("titles.races"))];
      if p.Races? then races
      else if p.RaceNew? then races + [Link("R_RACE_NEW", None, t("titles.newRace"))]
      else races + [Link("R_RACE", Some(RacePayload(p.raceId)), FormatInt(p.raceId))]
  }

  /** The page one level up; the home page has none. */
  function Parent(p: Page): Option<Page> {
    match p
    case Root => None
    case Settings | Teams | Races => Some(Root)
    case TeamNew | TeamPage(_) => Some(Teams)
    case RaceNew | RacePage(_) => Some(Races)
  }

  /** The link that stands for a page in a trail. */
  function LinkTo(t: string -> string, p: Page): Link {
    match p
    case Root => Link("R_ROOT", None, t("titles.home"))
    case Settings => Link("R_SETTINGS", None, t("titles.settings"))
    case Teams => Link("R_TEAMS", None, t("titles.teams"))
    case TeamNew => Link("R_TEAM_NEW", None, t("titles.newTeam"))
    case TeamPage(id) => Link("R_TEAM", Some(TeamPayload(id)), FormatInt(id))
    case Races => Link("R_RACES", None, t("titles.races"))
    case RaceNew => Link("R_RACE_NEW", None, t("titles.newRace"))
    case RacePage(id) => Link("R_RACE", Some(RacePayload(id)), FormatInt(id))
  }

  /** The trail of a page is its parent's trail followed by its own link, and the
      home page's trail is its link alone. */
  lemma TrailExtendsParent(t: string -> string, p: Page)
    ensures Parent(p).None? ==> Links(t, p) == [LinkTo(t, p)]
    ensures Parent(p).Some? ==> Links(t, p) == Links(t, Parent(p).value) + [LinkTo(t, p)]
  {
  }

  /** The page a link leads to, read off its name and payload. */
  function PageOf(l: Link): Option<Page> {
    if l.name == "R_ROOT" then Some(Root)
    else if l.name == "R_SETTINGS" then Some(Settings)
    else if l.name == "R_TEAMS" then Some(Teams)
    else if l.name == "R_TEAM_NEW" then Some(TeamNew)
    else if l.name == "R_TEAM" && l.payload.Some? && l.payload.value.TeamPayload? then Some(TeamPage(l.payload.value.teamId))
    else if l.name == "R_RACES" then Some(Races)
    else if l.name == "R_RACE_NEW" then Some(RaceNew)
    else if l.name == "R_RACE" && l.payload.Some? && l.payload.value.RacePayload? then Some(RacePage(l.payload.value.raceId))
    else None
  }

  /** The last link leads back to the page itself, the team or race id included, and
      its caption (label) for a team or race page is the id's decimal text. */
  lemma LastLinkIsThePage(t: string -> string, p: Page)
    ensures PageOf(Links(t, p)[|Links(t, p)| - 1]) == Some(p)
    ensures p.TeamPage? ==> Links(t, p)[2].caption == FormatInt(p.teamId) && JsParseInt(Links(t, p)[2].caption) == Some(p.teamId)
    ensures p.RacePage? ==> Links(t, p)[2].caption == FormatInt(p.raceId) && JsParseInt(Links(t, p)[2].caption) == Some(p.raceId)
  {
    TrailExtendsParent(t, p);
    assert Links(t, p)[|Links(t, p)| - 1] == LinkTo(t, p);
    PageOfLinkTo(t, p);
    if p.TeamPage? { JsParseIntFormat(p.teamId); }
    if p.RacePage? { JsParseIntFormat(p.raceId); }
  }

  /** Every page's link leads back to it. */
  lemma PageOfLinkTo(t: string -> string, p: Page)
    ensures PageOf(LinkTo(t, p)) == Some(p)
  {
    var names := ["R_ROOT", "R_SETTINGS", "R_TEAMS", "R_TEAM_NEW", "R_TEAM", "R_RACES", "R_RACE_NEW", "R_RACE"];
    assert forall i, j :: 0 <= i < j < |names| ==> |names[i]| != |names[j]| || names[i][2] != names[j][2] || names[i][3] != names[j][3];
    assert forall i, j :: 0 <= i < j < |names| ==> names[i] != names[j];
  }

  /** The trail's length is the page's depth: the home page 1, settings and the team
      and race lists 2, the pages below those 3. */
  lemma TrailLength(t: string -> string, p: Page)
    ensures |Links(t, p)| == 1 <==> p.Root?
    ensures |Links(t, p)| == 2 <==> p.Settings? || p.Teams? || p.Races?
    ensures |Links(t, p)| == 3 <==> p.TeamNew? || p.TeamPage? || p.RaceNew? || p.RacePage?
    ensures p.Settings? ==> Links(t, p) == [Link("R_ROOT", None, t("titles.home")), Link("R_SETTINGS", None, t("titles.settings"))]
    ensures |Links(t, p)| >= 2 && (p.Teams? || p.TeamNew? || p.TeamPage?) ==> Links(t, p)[1].name == "R_TEAMS"
    ensures |Links(t, p)| >= 2 && (p.Races? || p.RaceNew? || p.RacePage?) ==> Links(t, p)[1].name == "R_RACES"
  {
  }
}

=== FILE: common.dfy ===
/** Small value types and sequence helpers shared by every module of the model. */
module Common {

  /** A value that may be absent: JavaScript's `undefined`, Go's nil pointer. */
  datatype Option<+T> = None | Some(value: T) {

    /** The value if present, `default` otherwise (JavaScript's `??`). */
    function GetOr(default: T): T {
      match this
      case Some(v) => v
      case None => default
    }
  }

  /** Minimum of a non-empty sequence of integers (see MinIsLeast). */
  function Min(s: seq<int>): int
    requires |s| > 0
  {
    if |s| == 1 then s[0]
    else
      var rest := Min(s[..|s| - 1]);
      if s[|s| - 1] < rest then s[|s| - 1] else rest
  }

  /** Min returns an element of the sequence that no element is below. */
  lemma {:induction false} MinIsLeast(s: seq<int>)
    requires |s| > 0
    ensures Min(s) in s
    ensures forall i :: 0 <= i < |s| ==> Min(s) <= s[i]
  {
    if |s| > 1 {
      var p := s[..|s| - 1];
      MinIsLeast(p);
      assert forall i :: 0 <= i < |s| - 1 ==> p[i] == s[i];
    }
  }

  /** The sequence 1, 2, ..., n. */
  function OneTo(n: nat): (r: seq<int>)
    ensures |r| == n
    ensures forall k :: 0 <= k < n ==> r[k] == k + 1
  {
    seq(n, k => k + 1)
  }

  /** Counting one further extends the count. */
  lemma OneToSnoc(k: nat)
    ensures OneTo(k) + [k + 1] == OneTo(k + 1)
  {
    var a, b := OneTo(k) + [k + 1], OneTo(k + 1);
    forall i | 0 <= i < k + 1
      ensures a[i] == b[i]
    {
      if i < k {
        assert a[i] == OneTo(k)[i];
      }
    }
  }

  /** Index of the first element of `s` equal to `x`, or |s| when there is none
      (see FirstIndexOfFinds). */
  function FirstIndexOf(s: seq<int>, x: int): nat
  {
    if |s| == 0 then 0 else if s[0] == x then 0 else 1 + FirstIndexOf(s[1..], x)
  }

  /** FirstIndexOf finds the first occurrence, and finds one exactly when there is one. */
  lemma {:induction false} FirstIndexOfFinds(s: seq<int>, x: int)
    ensures FirstIndexOf(s, x) <= |s|
    ensures (FirstIndexOf(s, x) < |s|) == (x in s)
    ensures FirstIndexOf(s, x) < |s| ==> s[FirstIndexOf(s, x)] == x
    ensures forall j :: 0 <= j < FirstIndexOf(s, x) ==> s[j] != x
  {
    if |s| > 0 && s[0] != x {
      FirstIndexOfFinds(s[1..], x);
      assert forall j :: 1 <= j < |s| ==> s[1..][j - 1] == s[j];
      assert x in s ==> x in s[1..] by {
        if x in s {
          var k :| 0 <= k < |s| && s[k] == x;
          assert s[1..][k - 1] == x;
        }
      }
    }
  }

  /** Appending `x` lowers the minimum exactly when `x` is below it. */
  lemma MinAppend(s: seq<int>, x: int)
    requires |s| > 0
    ensures Min(s + [x]) == if x < Min(s) then x else Min(s)
  {
    assert (s + [x])[..|s|] == s;
  }

  /** An element already present keeps its first index when the sequence grows. */
  lemma {:induction false} FirstIndexOfAppend(s: seq<int>, y: int, x: int)
    requires x in s
    ensures FirstIndexOf(s + [y], x) == FirstIndexOf(s, x)
  {
    if s[0] != x {
      assert x in s[1..] by {
        var k :| 0 <= k < |s| && s[k] == x;
        assert s[1..][k - 1] == x;
      }
      assert (s + [y])[1..] == s[1..] + [y];
      FirstIndexOfAppend(s[1..], y, x);
    }
  }

  /** An element not yet present is found where it is appended. */
  lemma {:induction false} FirstIndexOfNew(s: seq<int>, x: int)
    requires x !in s
    ensures FirstIndexOf(s + [x], x) == |s|
  {
    if |s| > 0 {
      assert (s + [x])[1..] == s[1..] + [x];
      assert x !in s[1..];
      FirstIndexOfNew(s[1..], x);
    }
  }

  /** Euclidean division of a non-negative number brackets it between multiples. */
  lemma DivBrackets(a: int, b: int)
    requires a >= 0 && b > 0
    ensures 0 <= (a / b) * b <= a < (a / b) * b + b
  {
    assert a == (a / b) * b + a % b;
  }

  /** Integer division as C and Go define it: the quotient is truncated toward zero
      (Dafny's own `/` is Euclidean). */
  function TruncDiv(a: int, b: int): (q: int)
    requires b > 0
    ensures a >= 0 ==> 0 <= q * b <= a < q * b + b
    ensures a < 0 ==> q * b - b < a <= q * b <= 0
  {
    if a >= 0 then
      DivBrackets(a, b);
      a / b
    else
      var q := (-a) / b;
      DivBrackets(-a, b);
      assert (-q) * b == -(q * b);
      -q
  }

  /** The remainder that goes with TruncDiv: it has the sign of the dividend. */
  function TruncMod(a: int, b: int): (m: int)
    requires b > 0
    ensures a == TruncDiv(a, b) * b + m
    ensures a >= 0 ==> 0 <= m < b
    ensures a < 0 ==> -b < m <= 0
  {
    a - TruncDiv(a, b) * b
  }
}

=== FILE: confirm_button.dfy ===
/** The ConfirmButton of frontend/app/components/common.tsx: an action that runs only
    after the button has been clicked `num` times (3 by default), with a cancel button
    that starts over. The click count is the component's state; a click yields the
    next count and whether `onClick` was called. */
module ConfirmButton {

  const DEFAULT_NUM := 3

  datatype Clicked = Clicked(numClicks: int, fired: bool)

  /** increaseNumClicks: a click that reaches `num` calls `onClick`, when there is
      one, and leaves the count as it is; an earlier click only counts. */
  function Click(numClicks: int, num: int, hasOnClick: bool): (r: Clicked)
    ensures r.fired ==> hasOnClick && numClicks + 1 >= num && r.numClicks == numClicks
    ensures numClicks + 1 < num ==> r == Clicked(numClicks + 1, false)
    ensures numClicks + 1 >= num ==> r == Clicked(numClicks, hasOnClick)
  {
    if numClicks + 1 >= num then
      if hasOnClick then Clicked(numClicks, true) else Clicked(numClicks, false)
    else Clicked(numClicks + 1, false)
  }

  /** resetNumClicks. */
  function Cancel(numClicks: int): (r: int)
    ensures r == 0
  {
    0
  }

  /** The number shown on the confirming button: the clicks still missing. */
  function Remaining(numClicks: int, num: int): (r: int)
    ensures numClicks + r == num
  {
    num - numClicks
  }

  /** The confirmation view (cancel and confirm buttons) shows once counting began. */
  predicate Confirming(numClicks: int) {
    numClicks != 0
  }

  /** The count and the number of `onClick` calls after `k` clicks from the start. */
  datatype Run = Run(numClicks: int, fires: nat)

  function Clicks(num: int, hasOnClick: bool, k: nat): Run {
    if k == 0 then Run(0, 0)
    else
      var r := Clicks(num, hasOnClick, k - 1);
      var c := Click(r.numClicks, num, hasOnClick);
      Run(c.numClicks, r.fires + if c.fired then 1 else 0)
  }

  /** From a fresh button, the first `num` − 1 clicks only count and every click from
      the `num`-th on calls `onClick`: after `k` clicks the count is min(k, num − 1)
      and `onClick` ran max(0, k − num + 1) times (for num >= 1). */
  lemma {:induction false} ClicksUntilConfirmed(num: int, k: nat)
    requires num >= 1
    ensures Clicks(num, true, k).numClicks == if k < num then k else num - 1
    ensures Clicks(num, true, k).fires == if k < num then 0 else k - num + 1
  {
    if k > 0 {
      ClicksUntilConfirmed(num, k - 1);
    }
  }

  /** The confirming button counts down: after `k` clicks from a fresh button it
      shows num − k while that is above one, then stays at one; it never shows zero
      or less, with or without `onClick`. */
  lemma CountdownShown(num: int, hasOnClick: bool, k: nat)
    requires num >= 1
    ensures var shown := Remaining(Clicks(num, hasOnClick, k).numClicks, num);
      && shown >= 1
      && shown == if k < num then num - k else 1
  {
    if hasOnClick {
      ClicksUntilConfirmed(num, k);
    } else {
      NoHandlerNeverFires(num, k);
    }
  }

  /** With the default of three, `onClick` first runs on the third click. */
  lemma DefaultFiresOnThirdClick()
    ensures Clicks(DEFAULT_NUM, true, 2).fires == 0
    ensures Clicks(DEFAULT_NUM, true, 3).fires == 1
  {
    ClicksUntilConfirmed(DEFAULT_NUM, 2);
    ClicksUntilConfirmed(DEFAULT_NUM, 3);
  }

  /** Without `onClick`, clicks never fire and stop changing the count at `num` − 1. */
  lemma {:induction false} NoHandlerNeverFires(num: int, k: nat)
    requires num >= 1
    ensures Clicks(num, false, k) == Run(if k < num then k else num - 1, 0)
  {
    if k > 0 {
      NoHandlerNeverFires(num, k - 1);
    }
  }
}

=== FILE: crossings_view.dfy ===
/** The decisions of the crossings list of frontend/app/components/crossings.tsx:
    team helpers, the time differences between visible crossings, the filters, the
    keyboard shortcuts, the per-crossing buttons and the barrier option.

    Rendering is left out; a button's or a row's observable choice (its name, its
    label key, its data attributes) is a function of the crossing. A request to change
    a crossing (the CrossingUpdater call) is an `UpdateCall` value. */
module CrossingsView {
  import opened Common
  import opened Types
  import opened Decimal

  /** crossingTeamToClass: the CSS suffix of a crossing's team. */
  function TeamClass(team: Team): (r: string)
    ensures r == "a" <==> team == TeamA
    ensures r == "b" <==> team == TeamB
    ensures r == "unset" <==> team == Unset
  {
    assert |"unset"| != |"a"| && "a"[0] != "b"[0];
    match team
    case TeamA => "a"
    case TeamB => "b"
    case Unset => "unset"
  }

  /** otherTeam: an unassigned crossing takes the fallback team; an assigned one
      switches to the other team. */
  function OtherTeam(current: Team, fallback: Team): (r: Team)
    requires fallback != Unset
    ensures r != Unset
    ensures current == Unset ==> r == fallback
    ensures current != Unset ==> r != current
  {
    if current == Unset then fallback else if current == TeamA then TeamB else TeamA
  }

  /** Switching an assigned crossing twice gives its team back. */
  lemma OtherTeamInvolutive(current: Team, fallback: Team)
    requires current != Unset && fallback != Unset
    ensures OtherTeam(OtherTeam(current, fallback), fallback) == current
  {
  }

  // ---------------------------------------------------------------------------
  // Differences
  // ---------------------------------------------------------------------------

  /** calculateFilteredCrossingsDiffs: nothing for the first crossing, then each
      crossing's time minus the previous one's. */
  method CrossingsDiffs(cs: seq<Crossing>) returns (diffs: seq<Option<int>>)
    ensures |diffs| == |cs|
    ensures |cs| > 0 ==> diffs[0].None?
    ensures forall i :: 0 < i < |cs| ==> diffs[i] == Some(cs[i].time - cs[i - 1].time)
  {
    diffs := [];
    var prev := 0;
    var index := 0;
    while index < |cs|
      invariant 0 <= index <= |cs|
      invariant |diffs| == index
      invariant index > 0 ==> diffs[0].None? && prev == cs[index - 1].time
      invariant forall i :: 0 < i < index ==> diffs[i] == Some(cs[i].time - cs[i - 1].time)
    {
      var c := cs[index];
      if index == 0 {
        diffs := diffs + [None];
        prev := c.time;
      } else {
        diffs := diffs + [Some(c.time - prev)];
        prev := c.time;
      }
      index := index + 1;
    }
  }

  /** The time of crossing `n` rebuilt from the first time and the differences up to
      it. */
  function Rebuild(first: int, diffs: seq<Option<int>>, n: nat): int
    requires n < |diffs|
  {
    if n == 0 then first
    else Rebuild(first, diffs, n - 1) + (if diffs[n].Some? then diffs[n].value else 0)
  }

  /** The differences lose nothing but the first time: adding them up from it gives
      every crossing's time back. */
  lemma {:induction false} DiffsRebuildTimes(cs: seq<Crossing>, diffs: seq<Option<int>>, n: nat)
    requires |diffs| == |cs| && n < |cs|
    requires forall i :: 0 < i < |cs| ==> diffs[i] == Some(cs[i].time - cs[i - 1].time)
    ensures Rebuild(cs[0].time, diffs, n) == cs[n].time
  {
    if n > 0 {
      DiffsRebuildTimes(cs, diffs, n - 1);
    }
  }

  // ---------------------------------------------------------------------------
  // Filters
  // ---------------------------------------------------------------------------

  /** The list's filter options; a missing barrier or team shows all of them. */
  datatype Filters = Filters(showIgnored: bool, barrierId: Option<int>, showCheckpoints: bool, team: Option<Team>)

  /** No filter is enabled, so the list is shown as it is. */
  predicate NoFilter(f: Filters) {
    f.showIgnored && f.barrierId.None? && f.showCheckpoints && f.team.None?
  }

  /** A crossing passes every enabled filter. */
  predicate Passes(f: Filters, c: Crossing) {
    && (!f.showIgnored ==> !c.ignored && !c.excluded)
    && (f.barrierId.Some? ==> c.barrierId == f.barrierId.value)
    && (!f.showCheckpoints ==> c.checkpoint.None?)
    && (f.team.Some? ==> c.team == f.team.value)
  }

  /** The crossings among the first `n` that pass, in order. */
  function Filter(f: Filters, cs: seq<Crossing>, n: nat): seq<Crossing>
    requires n <= |cs|
  {
    if n == 0 then []
    else Filter(f, cs, n - 1) + (if Passes(f, cs[n - 1]) then [cs[n - 1]] else [])
  }

  /** The visible crossings: filtered only when some filter is enabled. */
  function Visible(f: Filters, cs: seq<Crossing>): seq<Crossing> {
    if NoFilter(f) then cs else Filter(f, cs, |cs|)
  }

  /** The positions among the first `n` whose crossings pass, in increasing order. */
  function Positions(f: Filters, cs: seq<Crossing>, n: nat): (ps: seq<nat>)
    requires n <= |cs|
    ensures forall k :: 0 <= k < |ps| ==> ps[k] < n
  {
    if n == 0 then []
    else Positions(f, cs, n - 1) + (if Passes(f, cs[n - 1]) then [n - 1] else [])
  }

  /** The filtered list is the order-preserving selection of the passing positions:
      its `k`-th crossing is the one at the `k`-th passing position, the positions
      increase, and a position is selected exactly when its crossing passes. */
  lemma {:induction false} FilterSelectsInOrder(f: Filters, cs: seq<Crossing>, n: nat)
    requires n <= |cs|
    ensures var ps := Positions(f, cs, n);
      && |ps| == |Filter(f, cs, n)|
      && (forall k :: 0 <= k < |ps| ==> Filter(f, cs, n)[k] == cs[ps[k]])
      && (forall k, l :: 0 <= k < l < |ps| ==> ps[k] < ps[l])
      && (forall i :: 0 <= i < n ==> (i in ps <==> Passes(f, cs[i])))
  {
    if n > 0 {
      FilterSelectsInOrder(f, cs, n - 1);
    }
  }

  /** Filtering keeps exactly the passing crossings. */
  lemma {:induction false} FilterKeepsPassing(f: Filters, cs: seq<Crossing>, n: nat)
    requires n <= |cs|
    ensures forall c :: c in Filter(f, cs, n) <==> c in cs[..n] && Passes(f, c)
    ensures |Filter(f, cs, n)| <= n
  {
    if n > 0 {
      FilterKeepsPassing(f, cs, n - 1);
      assert cs[..n] == cs[..n - 1] + [cs[n - 1]];
    }
  }

  /** Filtering with every filter off keeps everything. */
  lemma {:induction false} FilterAllPass(f: Filters, cs: seq<Crossing>, n: nat)
    requires n <= |cs| && NoFilter(f)
    ensures Filter(f, cs, n) == cs[..n]
  {
    if n > 0 {
      FilterAllPass(f, cs, n - 1);
      assert cs[..n] == cs[..n - 1] + [cs[n - 1]];
    }
  }

  /** Skipping the filtering when no filter is enabled changes nothing, so the visible
      list is always exactly the passing crossings; hiding ignored crossings hides the
      excluded ones too, and hiding checkpoints hides every crossing with one. */
  lemma VisibleIsFiltered(f: Filters, cs: seq<Crossing>)
    ensures Visible(f, cs) == Filter(f, cs, |cs|)
    ensures forall c :: c in Visible(f, cs) <==> c in cs && Passes(f, c)
    ensures !f.showIgnored ==> forall c :: c in Visible(f, cs) ==> !c.ignored && !c.excluded
    ensures !f.showCheckpoints ==> forall c :: c in Visible(f, cs) ==> c.checkpoint.None?
  {
    assert cs[..|cs|] == cs;
    if NoFilter(f) {
      FilterAllPass(f, cs, |cs|);
    }
    FilterKeepsPassing(f, cs, |cs|);
  }

  /** Filtering what is already visible changes nothing. */
  lemma {:induction false} FilterIdempotent(f: Filters, cs: seq<Crossing>, n: nat)
    requires n <= |cs|
    ensures Filter(f, Filter(f, cs, n), |Filter(f, cs, n)|) == Filter(f, cs, n)
  {
    var r := Filter(f, cs, n);
    FilterKeepsPassing(f, cs, n);
    FilterAllPassing(f, r, |r|);
  }

  /** A list whose crossings all pass is kept whole. */
  lemma {:induction false} FilterAllPassing(f: Filters, cs: seq<Crossing>, n: nat)
    requires n <= |cs| && forall c :: c in cs ==> Passes(f, c)
    ensures Filter(f, cs, n) == cs[..n]
  {
    if n > 0 {
      FilterAllPassing(f, cs, n - 1);
      assert cs[n - 1] in cs;
      assert cs[..n] == cs[..n - 1] + [cs[n - 1]];
    }
  }

  // ---------------------------------------------------------------------------
  // Changing a crossing
  // ---------------------------------------------------------------------------

  /** A CrossingUpdater call: id, ignored, team code, interrupted. The values read
      back from a row's data attributes may be NaN, modelled as None. */
  datatype UpdateCall = UpdateCall(id: Option<int>, ignored: bool, team: Option<int>, interrupted: bool)

  /** The lower-case form of the ASCII letters of a key name (String.toLowerCase). */
  function LowerAscii(s: string): (r: string)
    ensures |r| == |s|
  {
    if |s| == 0 then []
    else
      var c := s[0];
      [if 'A' <= c <= 'Z' then (c as int + 32) as char else c] + LowerAscii(s[1..])
  }

  /** The keyboard shortcuts on the visible list: 'i' toggles the last visible
      crossing's `ignored` when ignoring is offered, 'a' sets its team A and 'b' or 's'
      its team B when setting the team is offered; other keys, key repeats, an empty
      list, no offered action or no updater do nothing. */
  function Shortcut(cs: seq<Crossing>, key: string, repeat: bool, toggleIgnore: bool, setTeam: bool,
                    hasUpdater: bool): (r: Option<UpdateCall>)
    ensures r.Some? ==> |cs| > 0 && !repeat && hasUpdater && r.value.id == Some(cs[|cs| - 1].id)
  {
    var k := LowerAscii(key);
    if k != "i" && k != "a" && k != "b" && k != "s" then None
    else if |cs| == 0 || (!toggleIgnore && !setTeam) || !hasUpdater then None
    else if repeat then None
    else
      var lc := cs[|cs| - 1];
      if toggleIgnore && k == "i" then Some(UpdateCall(Some(lc.id), !lc.ignored, Some(TeamCode(lc.team)), lc.interrupted))
      else if setTeam && k == "a" then Some(UpdateCall(Some(lc.id), lc.ignored, Some(TeamCode(TeamA)), lc.interrupted))
      else if setTeam && (k == "b" || k == "s") then Some(UpdateCall(Some(lc.id), lc.ignored, Some(TeamCode(TeamB)), lc.interrupted))
      else None
  }

  /** What each shortcut asks for, on the last visible crossing: 'i' flips `ignored`
      and keeps the rest; 'a', 'b' and 's' set the team and keep the rest. */
  lemma ShortcutActions(cs: seq<Crossing>, repeat: bool, toggleIgnore: bool, setTeam: bool)
    requires |cs| > 0 && !repeat
    ensures var lc := cs[|cs| - 1];
      Shortcut(cs, "i", repeat, toggleIgnore, setTeam, true)
        == if toggleIgnore then Some(UpdateCall(Some(lc.id), !lc.ignored, Some(TeamCode(lc.team)), lc.interrupted)) else None
    ensures var lc := cs[|cs| - 1];
      Shortcut(cs, "a", repeat, toggleIgnore, setTeam, true)
        == if setTeam then Some(UpdateCall(Some(lc.id), lc.ignored, Some(1), lc.interrupted)) else None
    ensures var lc := cs[|cs| - 1];
      && Shortcut(cs, "b", repeat, toggleIgnore, setTeam, true)
           == (if setTeam then Some(UpdateCall(Some(lc.id), lc.ignored, Some(2), lc.interrupted)) else None)
      && Shortcut(cs, "s", repeat, toggleIgnore, setTeam, true) == Shortcut(cs, "b", repeat, toggleIgnore, setTeam, true)
  {
    assert LowerAscii("i") == "i" && LowerAscii("a") == "a";
    assert LowerAscii("b") == "b" && LowerAscii("s") == "s";
  }

  /** Letter case does not matter. */
  lemma ShortcutIgnoresCase(cs: seq<Crossing>, repeat: bool, toggleIgnore: bool, setTeam: bool, hasUpdater: bool)
    ensures Shortcut(cs, "I", repeat, toggleIgnore, setTeam, hasUpdater) == Shortcut(cs, "i", repeat, toggleIgnore, setTeam, hasUpdater)
    ensures Shortcut(cs, "A", repeat, toggleIgnore, setTeam, hasUpdater) == Shortcut(cs, "a", repeat, toggleIgnore, setTeam, hasUpdater)
  {
    assert LowerAscii("I") == "i" && LowerAscii("i") == "i";
    assert LowerAscii("A") == "a" && LowerAscii("a") == "a";
  }

  /** The data attributes a row writes for its crossing. */
  datatype Dataset = Dataset(id: Option<string>, ignored: Option<string>, team: Option<string>, interrupted: Option<string>)

  function BoolText(b: bool): string {
    if b then "true" else "false"
  }

  function RowDataset(c: Crossing): Dataset {
    Dataset(Some(FormatInt(c.id)), Some(BoolText(c.ignored)), Some(FormatInt(TeamCode(c.team))), Some(BoolText(c.interrupted)))
  }

  /** otherTeam on a team code read back from the page: code 0 takes the fallback, code
      1 becomes B and anything else becomes A. */
  function OtherTeamCode(current: Option<int>, fallback: Team): int {
    if current == Some(TeamCode(Unset)) then TeamCode(fallback)
    else if current == Some(TeamCode(TeamA)) then TeamCode(TeamB)
    else TeamCode(TeamA)
  }

  /** handleUpdateCrossing: the clicked button's name and its row's data attributes
      decide the change; without an updater, a row or any data attribute nothing
      happens, and unknown button names do nothing. */
  function ButtonAction(name: string, row: Option<Dataset>, hasUpdater: bool): Option<UpdateCall> {
    if !hasUpdater || row.None? then None
    else
      var ds := row.value;
      if ds.id.None? || ds.ignored.None? || ds.team.None? || ds.interrupted.None? then None
      else
        var id := JsParseInt(ds.id.value);
        var ignored := ds.ignored.value == "true";
        var team := JsParseInt(ds.team.value);
        var interrupted := ds.interrupted.value == "true";
        if name == "setTeamA" then Some(UpdateCall(id, ignored, Some(OtherTeamCode(team, TeamA)), interrupted))
        else if name == "setTeamB" then Some(UpdateCall(id, ignored, Some(OtherTeamCode(team, TeamB)), interrupted))
        else if name == "ignore" then Some(UpdateCall(id, true, team, interrupted))
        else if name == "unignore" then Some(UpdateCall(id, false, team, interrupted))
        else if name == "setInterrupted" then Some(UpdateCall(id, ignored, team, true))
        else if name == "setUninterrupted" then Some(UpdateCall(id, ignored, team, false))
        else None
  }

  /** The change a button asks for, stated on the crossing itself. */
  function Intended(name: string, c: Crossing): Option<UpdateCall> {
    var keep := UpdateCall(Some(c.id), c.ignored, Some(TeamCode(c.team)), c.interrupted);
    if name == "setTeamA" then Some(keep.(team := Some(TeamCode(OtherTeam(c.team, TeamA)))))
    else if name == "setTeamB" then Some(keep.(team := Some(TeamCode(OtherTeam(c.team, TeamB)))))
    else if name == "ignore" then Some(keep.(ignored := true))
    else if name == "unignore" then Some(keep.(ignored := false))
    else if name == "setInterrupted" then Some(keep.(interrupted := true))
    else if name == "setUninterrupted" then Some(keep.(interrupted := false))
    else None
  }

  /** Reading a row's data attributes back gives the crossing's own fields, so each
      button changes exactly the field it names and keeps every other one. */
  lemma ButtonActsOnItsRow(name: string, c: Crossing)
    ensures ButtonAction(name, Some(RowDataset(c)), true) == Intended(name, c)
  {
    JsParseIntFormat(c.id);
    JsParseIntFormat(TeamCode(c.team));
  }

  /** The name of the interrupt button: the action it performs. */
  function InterruptButtonName(c: Crossing): string {
    if !c.interrupted then "setInterrupted" else "setUninterrupted"
  }

  function IgnoreButtonName(c: Crossing): string {
    if !c.ignored then "ignore" else "unignore"
  }

  /** The screen-reader label key of the interrupt button as written: chosen by
      `ignored` instead of `interrupted`. */
  function InterruptLabelAsWritten(c: Crossing): string {
    if !c.ignored then "setInterrupted" else "setUninterrupted"
  }

  /** The label key as evidently intended: the button's own action. */
  function InterruptLabel(c: Crossing): (r: string)
    ensures r == InterruptButtonName(c)
  {
    if !c.interrupted then "setInterrupted" else "setUninterrupted"
  }

  function IgnoreLabel(c: Crossing): (r: string)
    ensures r == IgnoreButtonName(c)
  {
    if !c.ignored then "ignore" else "unignore"
  }

  /** As written, the label of the interrupt button disagrees with its action whenever
      `ignored` and `interrupted` differ, e.g. on a counted, interrupted crossing. */
  lemma InterruptLabelMismatch(c: Crossing)
    ensures InterruptLabelAsWritten(c) == InterruptButtonName(c) <==> c.ignored == c.interrupted
  {
  }

  /** The labels as intended always name the action of their button, and pressing it
      flips the field it names. */
  lemma LabelsNameTheAction(c: Crossing)
    ensures ButtonAction(InterruptLabel(c), Some(RowDataset(c)), true).Some?
    ensures ButtonAction(InterruptLabel(c), Some(RowDataset(c)), true).value.interrupted == !c.interrupted
    ensures ButtonAction(IgnoreLabel(c), Some(RowDataset(c)), true).Some?
    ensures ButtonAction(IgnoreLabel(c), Some(RowDataset(c)), true).value.ignored == !c.ignored
  {
    ButtonActsOnItsRow(InterruptLabel(c), c);
    ButtonActsOnItsRow(IgnoreLabel(c), c);
  }

  // ---------------------------------------------------------------------------
  // Barrier option
  // ---------------------------------------------------------------------------

  /** handleOptionChange for the barrier radio buttons: the option's value is parsed;
      a non-number is ignored (None: keep the state), 0 selects all barriers. */
  function BarrierOption(value: string): (r: Option<Option<int>>)
    ensures r.Some? <==> JsParseInt(value).Some?
    ensures r.Some? ==> (r.value.None? <==> JsParseInt(value) == Some(0))
    ensures r.Some? && r.value.Some? ==> r.value == JsParseInt(value)
  {
    match JsParseInt(value)
    case None => None
    case Some(b) => Some(if b == 0 then None else Some(b))
  }

  /** The options the list renders read back as what they stand for: "0" for all
      barriers, a barrier's id for that barrier. */
  lemma BarrierOptionRoundTrip(barrierId: int)
    ensures BarrierOption("0") == Some(None)
    ensures barrierId != 0 ==> BarrierOption(FormatInt(barrierId)) == Some(Some(barrierId))
  {
    JsParseIntFormat(0);
    JsParseIntFormat(barrierId);
    assert FormatInt(0) == "0";
  }
}

=== FILE: decimal.dfy ===
/** Decimal text for integers: Go's strconv.FormatInt/ParseInt (base 10), JavaScript's
    integer `toString()` and `parseInt`, and C's `%02d`. Shared by the JSON codecs,
    the breadcrumb labels, the form inputs and the barrier display. */
module Decimal {
  import opened Common

  predicate IsDigit(c: char) { '0' <= c <= '9' }

  predicate AllDigits(s: string) { forall i :: 0 <= i < |s| ==> IsDigit(s[i]) }

  function DigitChar(d: nat): (c: char)
    requires d < 10
    ensures IsDigit(c)
  {
    ['0', '1', '2', '3', '4', '5', '6', '7', '8', '9'][d]
  }

  function DigitValue(c: char): (d: nat)
    requires IsDigit(c)
    ensures d < 10
  {
    (c as int) - ('0' as int)
  }

  lemma DigitRoundTrip(d: nat)
    requires d < 10
    ensures DigitValue(DigitChar(d)) == d
  {
  }

  /** Digits of `n` without leading zeros ("0" for zero). */
  function DigitsOf(n: nat): (s: string)
    ensures |s| > 0 && AllDigits(s)
    ensures |s| > 1 ==> s[0] != '0'
    decreases n
  {
    if n < 10 then [DigitChar(n)] else DigitsOf(n / 10) + [DigitChar(n % 10)]
  }

  /** Value of a string of decimal digits, read most significant first. */
  function ValueOf(s: string): nat
    requires AllDigits(s)
    decreases |s|
  {
    if |s| == 0 then 0 else ValueOf(s[..|s| - 1]) * 10 + DigitValue(s[|s| - 1])
  }

  /** Reading back the digits of `n` gives `n`. */
  lemma {:induction false} ValueOfDigitsOf(n: nat)
    ensures ValueOf(DigitsOf(n)) == n
    decreases n
  {
    if n < 10 {
      DigitRoundTrip(n);
    } else {
      var s := DigitsOf(n);
      ValueOfDigitsOf(n / 10);
      assert s[..|s| - 1] == DigitsOf(n / 10);
      DigitRoundTrip(n % 10);
    }
  }

  /** A digit string without superfluous leading zeros. */
  predicate CanonicalDigits(s: string) {
    |s| > 0 && AllDigits(s) && (|s| > 1 ==> s[0] != '0')
  }

  lemma {:induction false} LeadingZeroValue(s: string)
    requires AllDigits(s) && |s| > 0 && s[0] != '0'
    ensures ValueOf(s) > 0
    decreases |s|
  {
    if |s| > 1 {
      LeadingZeroValue(s[..|s| - 1]);
    }
  }

  /** A canonical digit string is the digit string of its value. */
  lemma {:induction false} DigitsOfValueOf(s: string)
    requires CanonicalDigits(s)
    ensures DigitsOf(ValueOf(s)) == s
    decreases |s|
  {
    if |s| > 1 {
      var p := s[..|s| - 1];
      LeadingZeroValue(p);
      DigitsOfValueOf(p);
      var v := ValueOf(s);
      assert v / 10 == ValueOf(p) && v % 10 == DigitValue(s[|s| - 1]);
      assert DigitChar(DigitValue(s[|s| - 1])) == s[|s| - 1];
      assert s == p + [s[|s| - 1]];
    } else {
      assert DigitChar(DigitValue(s[0])) == s[0];
    }
  }

  /** Decimal text of an integer: a minus sign for negatives, then the digits
      (strconv.FormatInt(n, 10); JavaScript's `toString()` of an integer). */
  function FormatInt(n: int): string {
    if n < 0 then "-" + DigitsOf(-n) else DigitsOf(n)
  }

  /** The texts FormatInt produces. */
  predicate CanonicalInt(s: string) {
    CanonicalDigits(s) || (|s| > 1 && s[0] == '-' && s[1] != '0' && CanonicalDigits(s[1..]))
  }

  /** FormatInt writes canonical text: no leading zeros and no "-0". */
  lemma FormatIntCanonical(n: int)
    ensures CanonicalInt(FormatInt(n))
  {
    if n < 0 {
      var d := DigitsOf(-n);
      assert FormatInt(n)[1..] == d;
      assert d != "0" by { ValueOfDigitsOf(-n); assert ValueOf("0") == 0 by { assert "0"[..0] == ""; } }
    }
  }

  // --- Go strconv.ParseInt(s, 10, 64) ---------------------------------------

  const MIN_INT64: int := -0x8000_0000_0000_0000
  const MAX_INT64: int := 0x7FFF_FFFF_FFFF_FFFF

  predicate InInt64(n: int) { MIN_INT64 <= n <= MAX_INT64 }

  datatype ParseError = ErrSyntax | ErrRange

  datatype ParseResult = Parsed(value: int) | ParseFailed(err: ParseError)

  /** strconv.ParseInt(s, 10, 64): an optional '+' or '-' sign, then one or more
      decimal digits; a value outside int64 is a range error. */
  function ParseInt64(s: string): (r: ParseResult)
    ensures r.Parsed? ==> InInt64(r.value)
  {
    if |s| == 0 then ParseFailed(ErrSyntax)
    else
      var neg := s[0] == '-';
      var body := if s[0] == '+' || s[0] == '-' then s[1..] else s;
      if |body| == 0 || !AllDigits(body) then ParseFailed(ErrSyntax)
      else
        var v: int := if neg then 0 - ValueOf(body) else ValueOf(body);
        if InInt64(v) then Parsed(v) else ParseFailed(ErrRange)
  }

  /** Formatting then parsing gives back every int64. */
  lemma ParseFormatInt64(n: int)
    requires InInt64(n)
    ensures ParseInt64(FormatInt(n)) == Parsed(n)
  {
    var s := FormatInt(n);
    if n < 0 {
      var d := DigitsOf(-n);
      assert s[0] == '-' && s[1..] == d;
      ValueOfDigitsOf(-n);
      assert ParseInt64(s) == Parsed(0 - ValueOf(d));
    } else {
      var d := DigitsOf(n);
      assert IsDigit(d[0]);
      ValueOfDigitsOf(n);
      assert ParseInt64(s) == Parsed(ValueOf(d));
    }
  }

  /** Parsing canonical text then formatting reproduces the text. */
  lemma FormatParseInt64(s: string)
    requires CanonicalInt(s)
    requires ParseInt64(s).Parsed?
    ensures FormatInt(ParseInt64(s).value) == s
  {
    if s[0] == '-' {
      var body := s[1..];
      DigitsOfValueOf(body);
      LeadingZeroValue(body);
      assert s == "-" + body;
    } else {
      DigitsOfValueOf(s);
    }
  }

  // --- JavaScript parseInt(s) with no radix ---------------------------------

  /** The white space parseInt skips: ECMAScript's WhiteSpace (tab, vertical tab,
      form feed, the byte order mark and every space separator of Unicode category Zs)
      and LineTerminator (line feed, carriage return, U+2028 and U+2029). */
  predicate IsJsSpace(c: char) {
    || c == '\t' || c == '\U{000B}' || c == '\U{000C}' || c == '\U{FEFF}'
    || c == ' ' || c == '\U{00A0}' || c == '\U{1680}' || '\U{2000}' <= c <= '\U{200A}'
    || c == '\U{202F}' || c == '\U{205F}' || c == '\U{3000}'
    || c == '\n' || c == '\r' || c == '\U{2028}' || c == '\U{2029}'
  }

  predicate IsHexDigit(c: char) { IsDigit(c) || 'a' <= c <= 'f' || 'A' <= c <= 'F' }

  function HexValue(c: char): nat
    requires IsHexDigit(c)
  {
    if IsDigit(c) then DigitValue(c)
    else if 'a' <= c <= 'f' then (c as int) - ('a' as int) + 10
    else (c as int) - ('A' as int) + 10
  }

  /** Length of the longest prefix of `s` whose characters satisfy `p`. */
  function PrefixLength(s: string, p: char -> bool): (n: nat)
    ensures n <= |s|
  {
    if |s| == 0 || !p(s[0]) then 0 else 1 + PrefixLength(s[1..], p)
  }

  /** The prefix is the longest one: all its characters satisfy `p`, the next does not. */
  lemma {:induction false} PrefixLengthMaximal(s: string, p: char -> bool)
    ensures forall i :: 0 <= i < PrefixLength(s, p) ==> p(s[i])
    ensures PrefixLength(s, p) < |s| ==> !p(s[PrefixLength(s, p)])
  {
    if |s| > 0 && p(s[0]) {
      PrefixLengthMaximal(s[1..], p);
      assert forall i :: 1 <= i < |s| ==> s[1..][i - 1] == s[i];
    }
  }

  /** A string whose characters all satisfy `p` is its own longest prefix. */
  lemma {:induction false} PrefixLengthAll(s: string, p: char -> bool)
    requires forall i :: 0 <= i < |s| ==> p(s[i])
    ensures PrefixLength(s, p) == |s|
  {
    if |s| > 0 {
      assert forall i :: 0 <= i < |s| - 1 ==> s[1..][i] == s[i + 1];
      PrefixLengthAll(s[1..], p);
    }
  }

  function HexValueOf(s: string): nat
    requires forall i :: 0 <= i < |s| ==> IsHexDigit(s[i])
    decreases |s|
  {
    if |s| == 0 then 0 else HexValueOf(s[..|s| - 1]) * 16 + HexValue(s[|s| - 1])
  }

  /** The magnitude parseInt reads after the sign: the longest run of digits,
      hexadecimal after a "0x"/"0X" prefix; None when there is no digit. */
  function JsMagnitude(u: string): Option<nat> {
    if |u| >= 2 && u[0] == '0' && (u[1] == 'x' || u[1] == 'X') then
      var h := u[2..];
      var n := PrefixLength(h, IsHexDigit);
      PrefixLengthMaximal(h, IsHexDigit);
      if n == 0 then None else Some(HexValueOf(h[..n]))
    else
      var n := PrefixLength(u, IsDigit);
      PrefixLengthMaximal(u, IsDigit);
      if n == 0 then None else Some(ValueOf(u[..n]))
  }

  /** parseInt(s): skip leading white space, read an optional sign, then the
      magnitude; no digit at all gives NaN, modelled as None. */
  function JsParseInt(s: string): Option<int>
  {
    var t := s[PrefixLength(s, IsJsSpace)..];
    var neg := |t| > 0 && t[0] == '-';
    var u := if |t| > 0 && (t[0] == '+' || t[0] == '-') then t[1..] else t;
    match JsMagnitude(u)
    case None => None
    case Some(m) => Some(if neg then -(m as int) else m)
  }

  /** A run of decimal digits that is the whole string is read entirely. */
  lemma JsMagnitudeDigits(n: nat)
    ensures JsMagnitude(DigitsOf(n)) == Some(n)
  {
    var d := DigitsOf(n);
    PrefixLengthAll(d, IsDigit);
    assert d[..|d|] == d;
    ValueOfDigitsOf(n);
    assert !(|d| >= 2 && d[0] == '0');
  }

  /** A minus sign then digits: the negated magnitude. */
  lemma JsParseIntMinus(d: string, m: nat)
    requires |d| > 0 && IsDigit(d[0]) && JsMagnitude(d) == Some(m)
    ensures JsParseInt("-" + d) == Some(-(m as int))
  {
    var s := "-" + d;
    assert !IsJsSpace(s[0]);
    assert PrefixLength(s, IsJsSpace) == 0;
    assert s[0..] == s;
    assert s[1..] == d;
  }

  /** Digits alone: the magnitude. */
  lemma JsParseIntDigits(d: string, m: nat)
    requires |d| > 0 && IsDigit(d[0]) && JsMagnitude(d) == Some(m)
    ensures JsParseInt(d) == Some(m)
  {
    assert !IsJsSpace(d[0]);
    assert PrefixLength(d, IsJsSpace) == 0;
    assert d[0..] == d;
  }

  /** parseInt reads back the decimal text of any integer. */
  lemma JsParseIntFormat(n: int)
    ensures JsParseInt(FormatInt(n)) == Some(n)
  {
    if n < 0 {
      JsMagnitudeDigits(-n);
      JsParseIntMinus(DigitsOf(-n), -n);
    } else {
      JsMagnitudeDigits(n);
      JsParseIntDigits(DigitsOf(n), n);
    }
  }

  /** An empty or blank input is NaN. */
  lemma JsParseIntEmpty()
    ensures JsParseInt("") == None
  {
  }

  /** Leading white space of any kind, the ideographic space included, is skipped. */
  lemma JsParseIntSkipsSpace(n: nat)
    ensures JsParseInt("\U{3000}" + FormatInt(n)) == Some(n)
    ensures JsParseInt(" \t" + FormatInt(n)) == Some(n)
  {
    JsParseIntFormat(n);
    var d := FormatInt(n);
    assert !IsJsSpace(d[0]) by { FormatIntCanonical(n); }
    var a, b := "\U{3000}" + d, " \t" + d;
    assert PrefixLength(a[1..], IsJsSpace) == 0 && a[1..] == d;
    assert PrefixLength(b[2..], IsJsSpace) == 0 && b[2..] == d;
    assert PrefixLength(b[1..], IsJsSpace) == 1 && b[1..][1..] == d;
  }

  // --- C printf "%02d" ------------------------------------------------------

  /** printf("%02d", n): the decimal text of `n`, padded with zeros after the sign
      to a width of at least two characters. */
  function Pad2(n: int): (s: string)
    ensures |s| >= 2
  {
    if n < 0 then "-" + DigitsOf(-n)
    else if n < 10 then "0" + DigitsOf(n)
    else DigitsOf(n)
  }

  /** For a non-negative field, the padded text is all digits and reads back as `n`. */
  lemma Pad2Value(n: nat)
    ensures AllDigits(Pad2(n)) && ValueOf(Pad2(n)) == n
  {
    ValueOfDigitsOf(n);
    if n < 10 {
      var d := DigitsOf(n);
      var s := "0" + d;
      assert s[..|s| - 1] == "0";
      assert ValueOf("0") == 0 by { assert "0"[..0] == ""; }
    }
  }
}

=== FILE: freshness.dfy ===
/** How the race and trial pages decide which copy of a race or trial to show: the
    experimental hooks of frontend/app/helpers/races-experimental.ts and
    frontend/app/helpers/trials-experimental.ts, which reconcile a REST snapshot with
    pushed updates, and the older hooks `useRaceData` (frontend/app/helpers/races.ts)
    and `useTrialData` (frontend/app/helpers/trials.ts).

    The React state of a hook is a value `HookState`; each `setState` updater becomes a
    function from the previous state to the next. The hook's dependencies are compared
    by identity, so each is an opaque number here. An `await`ed fetch is its outcome,
    and the effect's cleanup flag `didUnsubscribe` is an input. */
module Freshness {
  import opened Common
  import opened Types
  import RaceEngine
  import TrialEngine

  /** QueryOperation of frontend/app/helpers/data.ts: loading, loaded (the data may be
      undefined, e.g. not found) or failed with an error value. */
  datatype QueryOp<T> = Loading | Loaded(data: Option<T>) | Failed(error: int)

  /** What a REST query settles to: its data, or the error it threw. */
  datatype Fetched<T> = Fetched(data: Option<T>) | Threw(error: int)

  /** What a hook holds: a race or a trial together with its statistics. */
  datatype Data =
    | RaceData(race: Race, raceStats: RaceEngine.RaceStats)
    | TrialData(trial: Trial, trialStats: TrialEngine.TrialStats)

  function Stamp(d: Data): int {
    if d.RaceData? then d.race.updatedAt else d.trial.updatedAt
  }

  /** A race with its statistics; computing them annotates the race's crossings in
      place, so the held race carries the annotated crossings. */
  function RaceDataOf(race: Race): (d: Data)
    ensures d.RaceData? && Stamp(d) == race.updatedAt
    ensures d.race == race.(crossings := RaceEngine.ComputeRaceStats(race).crossings)
    ensures d.raceStats == RaceEngine.ComputeRaceStats(race).stats
  {
    var r := RaceEngine.ComputeRaceStats(race);
    RaceData(race.(crossings := r.crossings), r.stats)
  }

  /** A trial with its statistics; computeStats annotates the trial's crossings in
      place, so the held trial carries `enhancedCrossings` as its crossings. */
  function TrialDataOf(trial: Trial): (d: Data)
    ensures d.TrialData? && Stamp(d) == trial.updatedAt
    ensures d.trial == trial.(crossings := TrialEngine.ComputeStats(trial).enhancedCrossings)
    ensures d.trialStats == TrialEngine.ComputeStats(trial)
  {
    var st := TrialEngine.ComputeStats(trial);
    TrialData(trial.(crossings := st.enhancedCrossings), st)
  }

  datatype HookState = HookState(deps: seq<int>, op: QueryOp<Data>)

  /** staleDeps: the dependency lists differ in length or at some position. */
  predicate StaleDeps(prev: seq<int>, cur: seq<int>) {
    |prev| != |cur| || !(forall i :: 0 <= i < |prev| ==> prev[i] == cur[i])
  }

  /** Deps are stale exactly when the lists differ; so a list is never stale against
      itself, and staleness is symmetric. */
  lemma StaleDepsIffDifferent(a: seq<int>, b: seq<int>)
    ensures StaleDeps(a, b) <==> a != b
    ensures !StaleDeps(a, a)
    ensures StaleDeps(a, b) == StaleDeps(b, a)
  {
    if !StaleDeps(a, b) {
      assert a == b;
    }
  }

  /** The state a hook starts with. */
  function Initial(deps: seq<int>): HookState {
    HookState(deps, Loading)
  }

  datatype Rendered = Rendered(state: HookState, returned: QueryOp<Data>)

  /** The render body: under new deps the state restarts loading and loading is what
      the hook returns; otherwise it returns the held operation. */
  function Render(s: HookState, deps: seq<int>): (r: Rendered)
    ensures s.deps != deps ==> r == Rendered(HookState(deps, Loading), Loading)
    ensures s.deps == deps ==> r == Rendered(s, s.op)
  {
    StaleDepsIffDifferent(s.deps, deps);
    if StaleDeps(s.deps, deps) then Rendered(HookState(deps, Loading), Loading)
    else Rendered(s, s.op)
  }

  /** The held data, if any. */
  function Held(op: QueryOp<Data>): Option<Data> {
    if op.Loaded? then op.data else None
  }

  /** An incoming copy replaces the held data when none is held or it is strictly
      newer. */
  predicate Replaces(op: QueryOp<Data>, incoming: Data) {
    Held(op).None? || Stamp(Held(op).value) < Stamp(incoming)
  }

  /** The REST result's updater, applied by an effect still subscribed under `deps`:
      an error or a missing result always becomes the operation; a result replaces
      the held data only when it is newer. */
  function RestResult(s: HookState, deps: seq<int>, subscribed: bool, fetched: Fetched<Data>): (r: HookState)
    ensures r.deps == s.deps
  {
    if !subscribed then s
    else if StaleDeps(s.deps, deps) then s
    else match fetched
      case Threw(e) => s.(op := Failed(e))
      case Fetched(None) => s.(op := Loaded(None))
      case Fetched(Some(d)) => if Replaces(s.op, d) then s.(op := Loaded(Some(d))) else s
  }

  /** The push listener's updater: a pushed copy replaces the held data only when it is
      newer. */
  function PushResult(s: HookState, deps: seq<int>, subscribed: bool, pushed: Data): (r: HookState)
    ensures r.deps == s.deps
  {
    if !subscribed then s
    else if StaleDeps(s.deps, deps) then s
    else if Replaces(s.op, pushed) then s.(op := Loaded(Some(pushed)))
    else s
  }

  /** The REST continuation of useRaceDataExperimental: the race's statistics are
      computed when it is taken. */
  function RaceRestResult(s: HookState, deps: seq<int>, subscribed: bool, fetched: Fetched<Race>): HookState {
    RestResult(s, deps, subscribed,
      match fetched
      case Threw(e) => Threw(e)
      case Fetched(data) => Fetched(if data.Some? then Some(RaceDataOf(data.value)) else None))
  }

  function RacePushResult(s: HookState, deps: seq<int>, subscribed: bool, race: Race): HookState {
    PushResult(s, deps, subscribed, RaceDataOf(race))
  }

  function TrialRestResult(s: HookState, deps: seq<int>, subscribed: bool, fetched: Fetched<Trial>): HookState {
    RestResult(s, deps, subscribed,
      match fetched
      case Threw(e) => Threw(e)
      case Fetched(data) => Fetched(if data.Some? then Some(TrialDataOf(data.value)) else None))
  }

  function TrialPushResult(s: HookState, deps: seq<int>, subscribed: bool, trial: Trial): HookState {
    PushResult(s, deps, subscribed, TrialDataOf(trial))
  }

  /** After cleanup and under stale deps, results change nothing. */
  lemma LateResultsIgnored(s: HookState, deps: seq<int>, subscribed: bool, fetched: Fetched<Data>, pushed: Data)
    requires !subscribed || s.deps != deps
    ensures RestResult(s, deps, subscribed, fetched) == s
    ensures PushResult(s, deps, subscribed, pushed) == s
  {
    StaleDepsIffDifferent(s.deps, deps);
  }

  /** Under current deps, an error or a missing result overwrites the operation even
      when data is held. */
  lemma FailuresOverwrite(s: HookState, deps: seq<int>, e: int)
    requires s.deps == deps
    ensures RestResult(s, deps, true, Threw(e)) == s.(op := Failed(e))
    ensures RestResult(s, deps, true, Fetched(None)) == s.(op := Loaded(None))
  {
    StaleDepsIffDifferent(s.deps, deps);
  }

  /** Under current deps, a REST result or a pushed copy is taken exactly when no data
      is held or it is strictly newer, and otherwise the state is left as it is; in
      particular a copy as old as the held one is not taken. */
  lemma TakenIffNewer(s: HookState, deps: seq<int>, d: Data)
    requires s.deps == deps
    ensures var r := RestResult(s, deps, true, Fetched(Some(d)));
      (Held(s.op).None? || Stamp(Held(s.op).value) < Stamp(d)) ==> r == s.(op := Loaded(Some(d)))
    ensures var r := RestResult(s, deps, true, Fetched(Some(d)));
      (Held(s.op).Some? && Stamp(d) <= Stamp(Held(s.op).value)) ==> r == s
    ensures var r := PushResult(s, deps, true, d);
      (Held(s.op).None? || Stamp(Held(s.op).value) < Stamp(d)) ==> r == s.(op := Loaded(Some(d)))
    ensures var r := PushResult(s, deps, true, d);
      (Held(s.op).Some? && Stamp(d) <= Stamp(Held(s.op).value)) ==> r == s
  {
    StaleDepsIffDifferent(s.deps, deps);
  }

  /** A taken race is held with the statistics of exactly that race. */
  lemma TakenRaceCarriesItsStats(s: HookState, deps: seq<int>, race: Race)
    requires s.deps == deps && Replaces(s.op, RaceDataOf(race))
    ensures var r := RacePushResult(s, deps, true, race);
      && Held(r.op).Some?
      && Held(r.op).value.race.id == race.id && Stamp(Held(r.op).value) == race.updatedAt
      && Held(r.op).value.raceStats == RaceEngine.ComputeRaceStats(race).stats
    ensures var r := RaceRestResult(s, deps, true, Fetched(Some(race)));
      && Held(r.op).Some?
      && Held(r.op).value.raceStats == RaceEngine.ComputeRaceStats(race).stats
  {
    StaleDepsIffDifferent(s.deps, deps);
  }

  /** A taken trial is held with the statistics of exactly that trial, and the held
      trial is the one received with its crossings annotated in place: every other
      field as received, the crossings those of the statistics. */
  lemma TakenTrialCarriesItsStats(s: HookState, deps: seq<int>, trial: Trial)
    requires s.deps == deps && Replaces(s.op, TrialDataOf(trial))
    ensures var st := TrialEngine.ComputeStats(trial);
      Held(TrialPushResult(s, deps, true, trial).op)
        == Some(TrialData(trial.(crossings := st.enhancedCrossings), st))
    ensures var st := TrialEngine.ComputeStats(trial);
      Held(TrialRestResult(s, deps, true, Fetched(Some(trial))).op)
        == Some(TrialData(trial.(crossings := st.enhancedCrossings), st))
    ensures var h := Held(TrialPushResult(s, deps, true, trial).op);
      && h.Some? && h.value.TrialData?
      && h.value.trial.id == trial.id && h.value.trial.updatedAt == trial.updatedAt
      && h.value.trial.state == trial.state
      && |h.value.trial.crossings| == |trial.crossings|
      && (forall i :: 0 <= i < |trial.crossings| ==> SameRecorded(h.value.trial.crossings[i], trial.crossings[i]))
  {
    StaleDepsIffDifferent(s.deps, deps);
    TrialEngine.AnnotatesOnly(trial);
  }

  /** Pushes never make the held data older. */
  lemma PushNeverOlder(s: HookState, deps: seq<int>, subscribed: bool, pushed: Data)
    requires Held(s.op).Some?
    ensures Held(PushResult(s, deps, subscribed, pushed).op).Some?
    ensures Stamp(Held(s.op).value) <= Stamp(Held(PushResult(s, deps, subscribed, pushed).op).value)
  {
  }

  /** The state after the first `n` pushes. */
  function PushAll(s: HookState, deps: seq<int>, pushes: seq<Data>, n: nat): HookState
    requires n <= |pushes|
  {
    if n == 0 then s else PushResult(PushAll(s, deps, pushes, n - 1), deps, true, pushes[n - 1])
  }

  /** The largest stamp among the held data and the first `n` pushes. */
  function LatestStamp(held: Option<Data>, pushes: seq<Data>, n: nat): Option<int>
    requires n <= |pushes|
  {
    if n == 0 then (if held.Some? then Some(Stamp(held.value)) else None)
    else
      var m := LatestStamp(held, pushes, n - 1);
      var t := Stamp(pushes[n - 1]);
      Some(if m.Some? && t <= m.value then m.value else t)
  }

  /** Under current deps, after any sequence of pushes the hook holds a copy with the
      largest stamp seen so far (its own included), and the deps are unchanged. */
  lemma {:induction false} PushesKeepLatest(s: HookState, deps: seq<int>, pushes: seq<Data>, n: nat)
    requires n <= |pushes| && s.deps == deps
    ensures PushAll(s, deps, pushes, n).deps == deps
    ensures var h := Held(PushAll(s, deps, pushes, n).op);
            var m := LatestStamp(Held(s.op), pushes, n);
            (h.Some? <==> m.Some?) && (h.Some? ==> Stamp(h.value) == m.value)
  {
    StaleDepsIffDifferent(deps, deps);
    if n > 0 {
      PushesKeepLatest(s, deps, pushes, n - 1);
    }
  }

  // ---------------------------------------------------------------------------
  // The older hooks
  // ---------------------------------------------------------------------------

  /** useRaceData: once the REST query has loaded a race, a pushed race strictly newer
      than it is shown instead. */
  function UseRaceData(op: QueryOp<Race>, latest: Option<Race>): (r: QueryOp<Race>)
    ensures r.Loaded? <==> op.Loaded?
    ensures op.Loaded? && op.data.Some? && latest.Some? && latest.value.updatedAt > op.data.value.updatedAt
            ==> r == Loaded(latest)
    ensures !(op.Loaded? && op.data.Some? && latest.Some? && latest.value.updatedAt > op.data.value.updatedAt)
            ==> r == op
  {
    if op.Loaded? && op.data.Some? then
      if latest.Some? && latest.value.updatedAt > op.data.value.updatedAt then Loaded(latest) else op
    else op
  }

  /** The shown race is never older than the fetched one. */
  lemma UseRaceDataNeverOlder(op: QueryOp<Race>, latest: Option<Race>)
    requires op.Loaded? && op.data.Some?
    ensures UseRaceData(op, latest).data.Some?
    ensures UseRaceData(op, latest).data.value.updatedAt >= op.data.value.updatedAt
  {
  }

  /** Once a race is loaded, the hook shows whichever of the fetched and the pushed
      race is newer, the fetched one on a tie; before that, or after an error, the
      query's own state is shown and pushes are not looked at. */
  lemma UseRaceDataShowsNewest(fetched: Race, latest: Option<Race>, op: QueryOp<Race>)
    ensures var r := UseRaceData(Loaded(Some(fetched)), latest);
      && r.Loaded? && r.data.Some?
      && (r.data.value == fetched || Some(r.data.value) == latest)
      && r.data.value.updatedAt >= fetched.updatedAt
      && (latest.Some? ==> r.data.value.updatedAt >= latest.value.updatedAt)
      && (latest.Some? && latest.value.updatedAt <= fetched.updatedAt ==> r.data.value == fetched)
    ensures !op.Loaded? || op.data.None? ==> UseRaceData(op, latest) == op
  {
  }

  /** useTrialData as intended: once the REST query has loaded a trial, a pushed trial,
      when there is one, is shown instead, whatever its stamp. */
  function UseTrialData(op: QueryOp<Trial>, latest: Option<Trial>): (r: QueryOp<Trial>)
    ensures op.Loaded? && op.data.Some? ==> r == Loaded(if latest.Some? then latest else op.data)
    ensures !(op.Loaded? && op.data.Some?) ==> r == op
  {
    if op.Loaded? && op.data.Some? then Loaded(Some(latest.GetOr(op.data.value))) else op
  }

  /** As intended, once a trial is loaded a pushed trial is shown whatever was
      fetched, and the fetched one only while nothing has been pushed; loading and
      failed queries are shown as they are. */
  lemma UseTrialDataShowsPushed(fetched: Trial, other: Trial, latest: Option<Trial>, op: QueryOp<Trial>)
    ensures latest.Some? ==>
      UseTrialData(Loaded(Some(fetched)), latest) == UseTrialData(Loaded(Some(other)), latest) == Loaded(latest)
    ensures latest.None? ==> UseTrialData(Loaded(Some(fetched)), latest) == Loaded(Some(fetched))
    ensures !op.Loaded? || op.data.None? ==> UseTrialData(op, latest) == op
  {
  }

  /** What useQuery returns: a record holding the operation (and an updater). */
  datatype QueryHookReturn<T> = QueryHookReturn(op: QueryOp<T>)

  /** useTrialData as written: `op` is bound to useQuery's whole return record, which has
      no `loading`, `hasError` or `data` field; each reads as undefined, so the test
      for loaded data fails and the record itself is returned. */
  function UseTrialDataAsWritten(ret: QueryHookReturn<Trial>, latest: Option<Trial>): QueryHookReturn<Trial> {
    var loading: Option<bool> := None;
    var hasError: Option<bool> := None;
    var data: Option<Trial> := None;
    var loadedData := loading != Some(true) && hasError != Some(true) && data.Some?;
    if loadedData then QueryHookReturn(Loaded(Some(latest.GetOr(data.value)))) else ret
  }

  /** As written, a pushed trial is never shown: the fetched operation comes back
      unchanged even when a newer trial has been pushed, where the intended hook shows
      the pushed one. */
  lemma UseTrialDataIgnoresPushes(fetched: Trial, pushed: Trial)
    requires fetched != pushed
    ensures UseTrialDataAsWritten(QueryHookReturn(Loaded(Some(fetched))), Some(pushed)).op == Loaded(Some(fetched))
    ensures UseTrialData(Loaded(Some(fetched)), Some(pushed)) == Loaded(Some(pushed))
    ensures UseTrialDataAsWritten(QueryHookReturn(Loaded(Some(fetched))), Some(pushed)).op
         != UseTrialData(Loaded(Some(fetched)), Some(pushed))
  {
  }
}

=== FILE: hub.dfy ===
/** The event loop of backend/hub.go (`Hub.run`): registering and unregistering
    websocket clients and optic barriers, and broadcasting a message to every client.

    Each `select` case becomes one step over the hub's maps. Clients and barriers
    are opaque numbers; a client's queue being full is an input of the broadcast
    step. Channels, goroutines and logging are not modelled. */
module Hub {
  import opened Common

  /** A connected barrier: its identity and the id it announced. */
  datatype Barrier = Barrier(token: nat, id: nat)

  /** The registered clients and barriers, plus the clients whose send queue has
      been closed (the model's record of `close(client.send)`). */
  datatype Hub = Hub(clients: set<nat>, barriers: map<nat, Barrier>, closedQueues: set<nat>)

  datatype Event =
    | RegisterClient(client: nat)
    | UnregisterClient(client: nat)
    | RegisterBarrier(barrier: Barrier)
    | UnregisterBarrier(barrier: Barrier)
    | Broadcast(message: string, full: set<nat>)

  /** The next hub; the answer on the barrier's RegistrationOk channel, if any; the
      clients the message was queued for and the clients whose queues were closed. */
  datatype Step = Step(h: Hub, answer: Option<bool>, delivered: set<nat>, closed: set<nat>)

  /** Every barrier sits under its own id, and no registered client's queue is
      closed. */
  ghost predicate Valid(h: Hub) {
    && (forall id :: id in h.barriers ==> h.barriers[id].id == id)
    && h.clients !! h.closedQueues
  }

  function Run(h: Hub, e: Event): (r: Step)
    ensures r.delivered <= h.clients && r.closed <= h.clients
    ensures r.answer.Some? <==> e.RegisterBarrier?
  {
    match e
    case RegisterClient(c) => Step(h.(clients := h.clients + {c}), None, {}, {})
    case UnregisterClient(c) =>
      if c in h.clients then Step(h.(clients := h.clients - {c}, closedQueues := h.closedQueues + {c}), None, {}, {c})
      else Step(h, None, {}, {})
    case RegisterBarrier(b) =>
      if b.id in h.barriers then Step(h, Some(false), {}, {})
      else Step(h.(barriers := h.barriers[b.id := b]), Some(true), {}, {})
    case UnregisterBarrier(b) => Step(h.(barriers := h.barriers - {b.id}), None, {}, {})
    case Broadcast(_, full) =>
      var closed := h.clients * full;
      Step(h.(clients := h.clients - full, closedQueues := h.closedQueues + closed), None, h.clients - full, closed)
  }

  /** A barrier whose id is taken is refused and changes nothing; one with a free id
      is stored under that id and accepted; unregistering frees the id. */
  lemma BarrierRegistration(h: Hub, b: Barrier)
    ensures b.id in h.barriers ==> Run(h, RegisterBarrier(b)) == Step(h, Some(false), {}, {})
    ensures b.id !in h.barriers ==>
      Run(h, RegisterBarrier(b)).answer == Some(true) && Run(h, RegisterBarrier(b)).h.barriers == h.barriers[b.id := b]
    ensures Run(h, UnregisterBarrier(b)).h.barriers.Keys == h.barriers.Keys - {b.id}
    ensures b.id !in h.barriers ==> Run(Run(h, RegisterBarrier(b)).h, UnregisterBarrier(b)).h == h
  {
    if b.id !in h.barriers {
      assert h.barriers[b.id := b] - {b.id} == h.barriers;
    }
  }

  /** A second barrier with the same id is refused while the first is connected. */
  lemma SecondBarrierRefused(h: Hub, first: Barrier, second: Barrier)
    requires first.id == second.id && first.id !in h.barriers
    ensures Run(Run(h, RegisterBarrier(first)).h, RegisterBarrier(second)).answer == Some(false)
    ensures Run(Run(h, RegisterBarrier(first)).h, RegisterBarrier(second)).h.barriers[first.id] == first
  {
  }

  /** A client is added on registration; on unregistration its queue is closed only
      when it was registered, and it is removed. */
  lemma ClientRegistration(h: Hub, c: nat)
    ensures Run(h, RegisterClient(c)).h.clients == h.clients + {c}
    ensures Run(h, UnregisterClient(c)).h.clients == h.clients - {c}
    ensures Run(h, UnregisterClient(c)).closed == (if c in h.clients then {c} else {})
  {
  }

  /** A broadcast reaches every registered client with queue space; each client
      with a full queue is closed and dropped instead, and nobody gets both. */
  lemma BroadcastPartition(h: Hub, message: string, full: set<nat>)
    ensures var r := Run(h, Broadcast(message, full));
      && r.delivered + r.closed == h.clients
      && r.delivered !! r.closed
      && (forall c :: c in h.clients ==> (c in r.delivered <==> c !in full))
      && r.h.clients == r.delivered
      && r.h.barriers == h.barriers
  {
  }

  /** Every step keeps barriers under their own ids and never closes a queue twice,
      as long as each registering client is new (its queue was never closed). */
  lemma RunKeepsValid(h: Hub, e: Event)
    requires Valid(h)
    requires e.RegisterClient? ==> e.client !in h.closedQueues
    ensures Valid(Run(h, e).h)
    ensures Run(h, e).closed !! h.closedQueues
  {
  }
}

=== FILE: json_duration.dfy ===
/** The Duration codec of backend/jsonduration.go: a duration is held in
    nanoseconds (a Go int64) and travels in JSON as a whole number of milliseconds;
    the database stores the nanoseconds as they are (`Scan`/`Value`).

    Go's int64 arithmetic wraps around modulo 2^64 and its division truncates toward
    zero; both are written out. */
module JsonDuration {
  import opened Common
  import opened Decimal

  const NS_PER_MS := 1_000_000
  const TWO_TO_64 := 0x1_0000_0000_0000_0000

  /** The int64 a Go computation wraps `x` to: the one congruent to it modulo 2^64. */
  function Wrap64(x: int): (r: int)
    ensures InInt64(r)
    ensures InInt64(x) ==> r == x
    ensures (x - r) % TWO_TO_64 == 0
  {
    var m := x % TWO_TO_64;
    if m > MAX_INT64 then m - TWO_TO_64 else m
  }

  /** MarshalJSON: the decimal text of `time.Duration(d).Milliseconds()`, the whole
      milliseconds truncated toward zero. */
  function Marshal(d: int): (text: string)
    requires InInt64(d)
    ensures CanonicalInt(text)
  {
    FormatIntCanonical(TruncDiv(d, NS_PER_MS));
    FormatInt(TruncDiv(d, NS_PER_MS))
  }

  /** The outcome of UnmarshalJSON: the duration afterwards, and the error returned. */
  datatype Unmarshalled = Unmarshalled(d: int, err: Option<ParseError>)

  /** UnmarshalJSON as written: text that strconv.ParseInt refuses is an error and
      leaves the duration alone; otherwise the duration becomes `q * 1e6` in int64
      arithmetic, which wraps silently for |q| above about 9.2 * 10^12. */
  function UnmarshalAsWritten(text: string, d: int): (r: Unmarshalled)
    ensures InInt64(r.d) || r.d == d
  {
    match ParseInt64(text)
    case ParseFailed(e) => Unmarshalled(d, Some(e))
    case Parsed(q) => Unmarshalled(Wrap64(q * NS_PER_MS), None)
  }

  /** UnmarshalJSON as intended: a millisecond count whose nanoseconds do not fit in
      an int64 is a range error, like a count that does not fit itself. */
  function Unmarshal(text: string, d: int): (r: Unmarshalled)
    ensures r.err.None? ==> InInt64(r.d) && r.d % NS_PER_MS == 0
    ensures r.err.Some? ==> r.d == d
  {
    match ParseInt64(text)
    case ParseFailed(e) => Unmarshalled(d, Some(e))
    case Parsed(q) =>
      if InInt64(q * NS_PER_MS) then Unmarshalled(q * NS_PER_MS, None)
      else Unmarshalled(d, Some(ErrRange))
  }

  /** The text Marshal writes reads back as the whole milliseconds of the duration:
      the largest count not beyond it on its side of zero. */
  lemma MarshalWholeMilliseconds(d: int)
    requires InInt64(d)
    ensures var ms := TruncDiv(d, NS_PER_MS);
      && ParseInt64(Marshal(d)) == Parsed(ms)
      && (d >= 0 ==> ms * NS_PER_MS <= d < ms * NS_PER_MS + NS_PER_MS)
      && (d < 0 ==> ms * NS_PER_MS - NS_PER_MS < d <= ms * NS_PER_MS)
  {
    var ms := TruncDiv(d, NS_PER_MS);
    assert InInt64(ms);
    ParseFormatInt64(ms);
  }

  /** A whole number of milliseconds survives marshalling and unmarshalling, over any
      previous value. */
  lemma UnmarshalMarshal(d: int, previous: int)
    requires InInt64(d) && d % NS_PER_MS == 0
    ensures Unmarshal(Marshal(d), previous) == Unmarshalled(d, None)
    ensures UnmarshalAsWritten(Marshal(d), previous) == Unmarshalled(d, None)
  {
    MarshalWholeMilliseconds(d);
    var ms := TruncDiv(d, NS_PER_MS);
    assert ms * NS_PER_MS == d;
  }

  /** Canonical text that unmarshals without error is written back as it was. */
  lemma MarshalUnmarshal(text: string, previous: int)
    requires CanonicalInt(text) && Unmarshal(text, previous).err.None?
    ensures Marshal(Unmarshal(text, previous).d) == text
  {
    var q := ParseInt64(text).value;
    var d := q * NS_PER_MS;
    assert TruncDiv(d, NS_PER_MS) == q;
    FormatParseInt64(text);
  }

  /** Text that is not an int64 is refused and the duration keeps its value; the
      corrected codec refuses exactly those and the counts too large for
      nanoseconds, and agrees with the code as written on everything else. */
  lemma UnmarshalErrors(text: string, previous: int)
    ensures ParseInt64(text).ParseFailed? ==>
      && Unmarshal(text, previous) == Unmarshalled(previous, Some(ParseInt64(text).err))
      && UnmarshalAsWritten(text, previous) == Unmarshal(text, previous)
    ensures Unmarshal(text, previous).err.Some? <==>
      ParseInt64(text).ParseFailed? || !InInt64(ParseInt64(text).value * NS_PER_MS)
    ensures Unmarshal(text, previous).err.None? ==> UnmarshalAsWritten(text, previous) == Unmarshal(text, previous)
  {
  }

  /** The round trip fails as written: 9223372036855 milliseconds wraps to a
      negative duration, which is written back as -9223372036854 milliseconds; the
      corrected codec refuses the count and keeps the duration. */
  lemma UnmarshalAsWrittenWraps()
    ensures var text := FormatInt(9223372036855);
      && UnmarshalAsWritten(text, 0) == Unmarshalled(-9223372036854551616, None)
      && ParseInt64(Marshal(UnmarshalAsWritten(text, 0).d)) == Parsed(-9223372036854)
      && Marshal(UnmarshalAsWritten(text, 0).d) != text
      && Unmarshal(text, 0) == Unmarshalled(0, Some(ErrRange))
  {
    var text := FormatInt(9223372036855);
    ParseFormatInt64(9223372036855);
    MarshalWholeMilliseconds(-9223372036854551616);
    assert TruncDiv(-9223372036854551616, NS_PER_MS) == -9223372036854;
  }

  /** The value the database driver is given, and what it hands back. */
  datatype DriverValue = Int64Value(i: int) | OtherValue

  /** Value: the nanoseconds, as an int64. */
  function Value(d: int): DriverValue {
    Int64Value(d)
  }

  /** Scan: the duration a stored int64 stands for; any other stored value makes
      Go's type assertion panic, which is None here. */
  function Scan(v: DriverValue): Option<int> {
    if v.Int64Value? then Some(v.i) else None
  }

  /** What is stored is scanned back unchanged. */
  lemma ScanValue(d: int)
    ensures Scan(Value(d)) == Some(d)
  {
  }
}

=== FILE: laps.dfy ===
/** What the two timing engines share: the time domain, the best-lap bookkeeping and
    the lap lists read off an annotated crossing sequence. */
module Laps {
  import opened Common
  import opened Types

  /** Number.MAX_SAFE_INTEGER, the engine's "no lap yet" best-lap accumulator. */
  const MAX_SAFE_INTEGER: int := 9007199254740991

  /** Crossing times are epoch milliseconds: never negative, and below the safe
      integer bound the engine uses as "infinity". */
  predicate ValidTimes(cs: seq<Crossing>) {
    forall i :: 0 <= i < |cs| ==> 0 <= cs[i].time < MAX_SAFE_INTEGER
  }

  /** The shortest duration, or the sentinel when there is none. */
  function BestOf(durations: seq<int>): int {
    if |durations| == 0 then MAX_SAFE_INTEGER else Min(durations)
  }

  /** The id paired with the first shortest duration, or -1. */
  function BestIdOf(durations: seq<int>, ids: seq<int>): int
    requires |durations| == |ids|
  {
    if |durations| == 0 then -1
    else
      MinIsLeast(durations);
      FirstIndexOfFinds(durations, Min(durations));
      ids[FirstIndexOf(durations, Min(durations))]
  }

  /** The best-lap bookkeeping of one closed lap of duration `d`. */
  lemma BestLapStep(durations: seq<int>, ids: seq<int>, d: int, id: int)
    requires |durations| == |ids|
    requires d < MAX_SAFE_INTEGER
    ensures BestOf(durations + [d]) == if d < BestOf(durations) then d else BestOf(durations)
    ensures BestIdOf(durations + [d], ids + [id]) ==
      if d < BestOf(durations) then id else BestIdOf(durations, ids)
  {
    var l := durations + [d];
    if |durations| == 0 {
      assert l == [d];
    } else {
      MinAppend(durations, d);
      MinIsLeast(durations);
      var m := Min(durations);
      if d < m {
        assert d !in durations;
        FirstIndexOfNew(durations, d);
      } else {
        FirstIndexOfFinds(durations, m);
        FirstIndexOfAppend(durations, d, m);
        assert (ids + [id])[FirstIndexOf(durations, m)] == ids[FirstIndexOf(durations, m)];
      }
    }
  }

  /** The lap numbers written on the output, in order. */
  function LapNumbers(out: seq<Crossing>): seq<int> {
    if |out| == 0 then []
    else
      var c := out[|out| - 1];
      LapNumbers(out[..|out| - 1]) + (if c.lap.Some? then [c.lap.value.number] else [])
  }

  /** The lap times written on the output, in order. */
  function LapTimes(out: seq<Crossing>): seq<int> {
    if |out| == 0 then []
    else
      var c := out[|out| - 1];
      LapTimes(out[..|out| - 1]) + (if c.lap.Some? then [c.lap.value.time] else [])
  }

  /** The ids of the crossings that carry a lap, in order. */
  function LapIds(out: seq<Crossing>): seq<int> {
    if |out| == 0 then []
    else
      var c := out[|out| - 1];
      LapIds(out[..|out| - 1]) + (if c.lap.Some? then [c.id] else [])
  }

  /** Position `k` holds the first of the smallest times. */
  predicate FirstFastest(times: seq<int>, k: nat) {
    && k < |times|
    && (forall j :: 0 <= j < |times| ==> times[k] <= times[j])
    && (forall j :: 0 <= j < k ==> times[k] < times[j])
  }

  /** Reading the lap lists off one more crossing. */
  lemma LapListsAppend(p: seq<Crossing>, c: Crossing)
    ensures LapNumbers(p + [c]) == LapNumbers(p) + (if c.lap.Some? then [c.lap.value.number] else [])
    ensures LapTimes(p + [c]) == LapTimes(p) + (if c.lap.Some? then [c.lap.value.time] else [])
    ensures LapIds(p + [c]) == LapIds(p) + (if c.lap.Some? then [c.id] else [])
  {
    assert (p + [c])[..|p|] == p;
  }

  /** The best of a non-empty list of lap durations is its first fastest entry, and the
      best id is the one paired with it. */
  lemma BestIsFirstFastest(durations: seq<int>, ids: seq<int>)
    requires |durations| == |ids| > 0
    requires forall k :: 0 <= k < |durations| ==> durations[k] < MAX_SAFE_INTEGER
    ensures BestOf(durations) < MAX_SAFE_INTEGER
    ensures exists k: nat :: k < |ids| && FirstFastest(durations, k)
                             && BestOf(durations) == durations[k] && BestIdOf(durations, ids) == ids[k]
  {
    MinIsLeast(durations);
    var m := Min(durations);
    FirstIndexOfFinds(durations, m);
    var k := FirstIndexOf(durations, m);
    assert FirstFastest(durations, k);
  }
}

=== FILE: listeners.dfy ===
/** A registry of listener sets by key: a SmartMap whose missing entries are created
    as empty sets and whose entries may be deleted once empty. The WebSocketManager's
    trial listeners are built this way in frontend/app/ws/WebSocketManager.ts, and the
    Store's path listeners come from `createSmartMapOfSets` (imported by
    frontend/app/store/Store.ts from maps.ts, where it is not defined; it is taken to
    build the same registry). Listeners are identified by opaque numbers, standing for
    the identity of the JavaScript functions. */
module Listeners {
  import opened Common
  import opened SmartMap

  type Registry<!K(==)> = SmartMap<K, set<nat>>

  function NewRegistry<K(==,!new)>(): (r: Registry<K>)
    ensures Prunes(r) && r.store == map[]
  {
    Empty((k: K, s: set<nat>) => s == {}, Value({}))
  }

  /** The registry creates empty sets and may delete exactly the empty ones. */
  ghost predicate Prunes<K(!new)>(r: Registry<K>) {
    && r.fallback.Value? && r.fallback.v == {}
    && forall k, s :: r.canDelete(k, s) <==> s == {}
  }

  /** No key holds an empty set. */
  predicate NoEmptySets<K(==,!new)>(r: Registry<K>) {
    forall k :: k in r.store ==> r.store[k] != {}
  }

  /** The listeners registered under `key`. */
  function ListenersOf<K(==,!new)>(r: Registry<K>, key: K): set<nat> {
    if key in r.store then r.store[key] else {}
  }

  /** `registry.get(key).add(h)`. */
  function Subscribe<K(==,!new)>(r: Registry<K>, key: K, h: nat): (r': Registry<K>)
    ensures Prunes(r) ==> Prunes(r')
  {
    var g := Get(r, key, None);
    g.map'.(store := g.map'.store[key := g.value + {h}])
  }

  /** `registry.get(key).delete(h)` followed by `registry.safeDelete(key)`. */
  function Unsubscribe<K(==,!new)>(r: Registry<K>, key: K, h: nat): (r': Registry<K>)
    ensures Prunes(r) ==> Prunes(r')
  {
    var g := Get(r, key, None);
    var r1 := g.map'.(store := g.map'.store[key := g.value - {h}]);
    SafeDelete(r1, key).map'
  }

  /** Subscribing adds the listener under its key and nowhere else. */
  lemma SubscribeAdds<K(!new)>(r: Registry<K>, key: K, h: nat)
    requires Prunes(r)
    ensures ListenersOf(Subscribe(r, key, h), key) == ListenersOf(r, key) + {h}
    ensures forall k :: k != key ==> (k in Subscribe(r, key, h).store <==> k in r.store)
    ensures forall k :: k != key ==> ListenersOf(Subscribe(r, key, h), k) == ListenersOf(r, k)
    ensures NoEmptySets(r) ==> NoEmptySets(Subscribe(r, key, h))
  {
  }

  /** Unsubscribing removes the listener; the key's entry is dropped exactly when no
      listener is left under it, and no other key is touched. */
  lemma UnsubscribeRemoves<K(!new)>(r: Registry<K>, key: K, h: nat)
    requires Prunes(r)
    ensures ListenersOf(Unsubscribe(r, key, h), key) == ListenersOf(r, key) - {h}
    ensures key in Unsubscribe(r, key, h).store <==> ListenersOf(r, key) - {h} != {}
    ensures forall k :: k != key ==> (k in Unsubscribe(r, key, h).store <==> k in r.store)
    ensures forall k :: k != key ==> ListenersOf(Unsubscribe(r, key, h), k) == ListenersOf(r, k)
    ensures NoEmptySets(r) ==> NoEmptySets(Unsubscribe(r, key, h))
  {
  }

  /** Subscribing a new listener and then unsubscribing it gives the registry back,
      pruning an entry the subscription had created. */
  lemma SubscribeThenUnsubscribe<K(!new)>(r: Registry<K>, key: K, h: nat)
    requires Prunes(r) && NoEmptySets(r) && h !in ListenersOf(r, key)
    ensures Unsubscribe(Subscribe(r, key, h), key, h).store == r.store
  {
    var s := Subscribe(r, key, h);
    SubscribeAdds(r, key, h);
    UnsubscribeRemoves(s, key, h);
    var u := Unsubscribe(s, key, h);
    assert ListenersOf(r, key) + {h} - {h} == ListenersOf(r, key);
    assert u.store.Keys == r.store.Keys;
    forall k | k in r.store
      ensures u.store[k] == r.store[k]
    {
      assert ListenersOf(u, k) == ListenersOf(r, k);
    }
  }
}

=== FILE: new_race_form.dfy ===
/** The new-race form of frontend/app/views/NewRaceForm.tsx: its validation, what a
    submit does, and how an input change updates a field.

    The form's state is a value; a submit yields the next state and the race data
    handed to `onSubmit`, if any. Numbers typed into the form go through `parseInt`,
    so every number the form holds is an integer. */
module NewRaceForm {
  import opened Common
  import opened Decimal

  datatype Field<T> = Field(value: Option<T>, touched: bool)

  /** The race type is the select's text value ("time_trial" or "head_to_head"). */
  datatype FormState = FormState(raceType: Field<string>, round: Field<int>, teamAId: Field<int>, teamBId: Field<int>)

  const TIME_TRIAL := "time_trial"
  const HEAD_TO_HEAD := "head_to_head"
  const FIELD_REQUIRED := "forms.errors.fieldRequired"
  const INVALID_VALUE := "forms.errors.invalidValue"

  /** The form as first shown: a time trial, round 1, no teams, nothing touched. */
  const Initial := FormState(Field(Some(TIME_TRIAL), false), Field(Some(1), false), Field(None, false), Field(None, false))

  /** validateNewRaceForm: a message per field in error. */
  function Validate(s: FormState): (errors: map<string, string>)
    ensures errors.Keys <= {"type", "round", "teamAId", "teamBId"}
    ensures "type" in errors <==> s.raceType.value.None?
    ensures "round" in errors <==> s.round.value.None? || s.round.value.value <= 0
    ensures "teamAId" in errors <==> s.teamAId.value.None?
    ensures "teamBId" in errors <==> s.raceType.value == Some(HEAD_TO_HEAD) && s.teamBId.value.None?
    ensures forall k :: k in errors && k != "round" ==> errors[k] == FIELD_REQUIRED
    ensures "round" in errors ==> errors["round"] == if s.round.value.None? then FIELD_REQUIRED else INVALID_VALUE
  {
    var e0: map<string, string> := map[];
    var e1 := if s.raceType.value.None? then e0["type" := FIELD_REQUIRED] else e0;
    var e2 := if s.round.value.None? then e1["round" := FIELD_REQUIRED] else e1;
    var e3 := if s.round.value.Some? && s.round.value.value <= 0 then e2["round" := INVALID_VALUE] else e2;
    var e4 := if s.teamAId.value.None? then e3["teamAId" := FIELD_REQUIRED] else e3;
    if s.raceType.value == Some(HEAD_TO_HEAD) then
      if s.teamBId.value.None? then e4["teamBId" := FIELD_REQUIRED] else e4
    else e4
  }

  /** The first form shown lacks only team A. */
  lemma InitialNeedsTeamA()
    ensures Validate(Initial) == map["teamAId" := FIELD_REQUIRED]
  {
    var e := Validate(Initial);
    assert e.Keys == {"teamAId"};
  }

  /** CreateRaceData: a time trial carries no team B. */
  datatype CreateRaceData =
    | TimeTrialData(round: int, teamAId: int)
    | HeadToHeadData(round: int, teamAId: int, teamBId: int)

  datatype Submitted = Submitted(state: FormState, sent: Option<CreateRaceData>)

  function TouchAll(s: FormState): FormState {
    FormState(s.raceType.(touched := true), s.round.(touched := true), s.teamAId.(touched := true), s.teamBId.(touched := true))
  }

  predicate AllTouched(s: FormState) {
    s.raceType.touched && s.round.touched && s.teamAId.touched && s.teamBId.touched
  }

  /** handleSubmit: a form in error is not sent and has all its fields marked touched
      (left as it is when they already are); a valid one is sent as the race type
      asks. */
  function Submit(s: FormState): (r: Submitted)
    ensures |Validate(s)| > 0 ==> r.sent.None? && AllTouched(r.state)
  {
    var errors := Validate(s);
    if |errors| > 0 then
      Submitted(if !AllTouched(s) then TouchAll(s) else s, None)
    else if s.raceType.value == Some(TIME_TRIAL) then
      Submitted(s, Some(TimeTrialData(s.round.value.value, s.teamAId.value.value)))
    else if s.raceType.value == Some(HEAD_TO_HEAD) then
      Submitted(s, Some(HeadToHeadData(s.round.value.value, s.teamAId.value.value, s.teamBId.value.value)))
    else Submitted(s, None)
  }

  /** A form is sent exactly when it is valid and of a known race type, with the
      values it holds: a positive round, team A, and team B only for head-to-head
      races; submitting never changes the values. */
  lemma SubmitSends(s: FormState)
    ensures var r := Submit(s);
      && (r.sent.Some? <==> |Validate(s)| == 0 && s.raceType.value in {Some(TIME_TRIAL), Some(HEAD_TO_HEAD)})
      && (r.sent.Some? ==> r.state == s)
      && (r.sent.Some? && s.raceType.value == Some(TIME_TRIAL) ==>
            r.sent.value == TimeTrialData(s.round.value.value, s.teamAId.value.value) && r.sent.value.round > 0)
      && (r.sent.Some? && s.raceType.value == Some(HEAD_TO_HEAD) ==>
            r.sent.value == HeadToHeadData(s.round.value.value, s.teamAId.value.value, s.teamBId.value.value)
            && r.sent.value.round > 0)
      && r.state.raceType.value == s.raceType.value && r.state.round.value == s.round.value
      && r.state.teamAId.value == s.teamAId.value && r.state.teamBId.value == s.teamBId.value
  {
    if |Validate(s)| == 0 {
      assert "type" !in Validate(s) && "round" !in Validate(s);
    }
  }

  /** A second submit of a form in error changes nothing more. */
  lemma SubmitInErrorSettles(s: FormState)
    requires |Validate(s)| > 0
    ensures Submit(Submit(s).state) == Submitted(Submit(s).state, None)
  {
    var t := Submit(s).state;
    assert Validate(t) == Validate(s);
  }

  datatype FieldName = TypeField | RoundField | TeamAField | TeamBField

  /** handleInputChange: an empty input clears the field; a number field keeps only
      what parses as an integer (anything else is ignored); an unchanged value on a
      touched field leaves the state as it is; otherwise the field takes the value and
      is marked touched. */
  function InputChange(s: FormState, name: FieldName, text: string): (r: FormState)
    ensures name != TypeField && text != "" && JsParseInt(text).None? ==> r == s
  {
    var value: Option<string> := if text == "" then None else Some(text);
    if name == TypeField then
      if s.raceType.value == value && s.raceType.touched then s
      else s.(raceType := Field(value, true))
    else
      var number := if value.None? then None else JsParseInt(value.value);
      if value.Some? && number.None? then s
      else
        var f := FieldOf(s, name);
        if f.value == number && f.touched then s
        else WithField(s, name, Field(number, true))
  }

  function FieldOf(s: FormState, name: FieldName): Field<int>
    requires name != TypeField
  {
    match name
    case RoundField => s.round
    case TeamAField => s.teamAId
    case TeamBField => s.teamBId
  }

  function WithField(s: FormState, name: FieldName, f: Field<int>): FormState
    requires name != TypeField
  {
    match name
    case RoundField => s.(round := f)
    case TeamAField => s.(teamAId := f)
    case TeamBField => s.(teamBId := f)
  }

  /** After a change that is not ignored the field holds the entered value (cleared
      for an empty input, parsed for a number) and is touched, and the other fields are
      untouched by it; the change is idempotent. */
  lemma InputChangeSetsField(s: FormState, name: FieldName, text: string)
    requires name == TypeField || text == "" || JsParseInt(text).Some?
    ensures var r := InputChange(s, name, text);
      && (name == TypeField ==> r == s.(raceType := Field(if text == "" then None else Some(text), true)))
      && (name != TypeField ==>
            r == WithField(s, name, Field(if text == "" then None else JsParseInt(text), true)))
      && InputChange(r, name, text) == r
  {
  }

  /** Typing the decimal text of a number into a number field stores that number. */
  lemma TypedNumberStored(s: FormState, name: FieldName, n: int)
    requires name != TypeField
    ensures FieldOf(InputChange(s, name, FormatInt(n)), name) == Field(Some(n), true)
  {
    JsParseIntFormat(n);
    JsParseIntEmpty();
  }
}

=== FILE: optic_barrier.dfy ===
/** The lap counter of the optic barrier's firmware, optic_barrier_sw/main.c: the
    conversion of microseconds to minutes, seconds and milliseconds (`convert_time`)
    and its display text (`us2str`), the elapsed time between two clock readings
    (`usec_between`), and the reset and detection steps of the main loop.

    The board is a 32-bit Raspberry Pi: `int`, `long` and `unsigned long` are 32 bits
    wide. Unsigned arithmetic wraps modulo 2^32, the `(int)` cast takes the low 32
    bits as a two's complement number, and C's division truncates toward zero; all
    three are written out. The clock, the buttons and the interrupt flag are inputs
    of the loop step. */
module OpticBarrier {
  import opened Common
  import opened Decimal

  const TWO_TO_32 := 0x1_0000_0000
  const TWO_TO_31 := 0x8000_0000
  /** LONG_MAX for a 32-bit long: the best time before any lap. */
  const LONG_MAX := 0x7FFF_FFFF
  /** A detection sooner than this after the previous one is not a lap. */
  const MIN_TIME_US := 1_000_000

  const US_PER_MINUTE := 60_000_000
  const US_PER_SECOND := 1_000_000
  const US_PER_MS := 1_000

  /** An `unsigned long` value. */
  predicate IsULong(x: int) { 0 <= x < TWO_TO_32 }

  /** Conversion to `unsigned long`: the value modulo 2^32. */
  function ULong(x: int): (r: int)
    ensures IsULong(r)
    ensures IsULong(x) ==> r == x
  {
    x % TWO_TO_32
  }

  /** The `(int)` cast of an `unsigned long`: values from 2^31 up turn negative. */
  function IntCast(x: int): (r: int)
    requires IsULong(x)
    ensures -TWO_TO_31 <= r < TWO_TO_31
    ensures x < TWO_TO_31 ==> r == x
    ensures x >= TWO_TO_31 ==> r == x - TWO_TO_32
  {
    if x < TWO_TO_31 then x else x - TWO_TO_32
  }

  /** mytime_t. */
  datatype Clock = Clock(minutes: int, seconds: int, milliseconds: int)

  /** The minutes, seconds and milliseconds a count of microseconds is meant to
      show: each field the whole units left after the larger ones. */
  predicate Shows(c: Clock, t: int) {
    && c.minutes >= 0 && 0 <= c.seconds < 60 && 0 <= c.milliseconds < 1000
    && c.minutes * US_PER_MINUTE + c.seconds * US_PER_SECOND + c.milliseconds * US_PER_MS <= t
    && t < c.minutes * US_PER_MINUTE + c.seconds * US_PER_SECOND + c.milliseconds * US_PER_MS + US_PER_MS
  }

  /** convert_time as written: each field divides the `(int)` cast of what is left,
      and the field's worth is taken off in unsigned arithmetic. */
  function ConvertTimeAsWritten(t: int): Clock
    requires IsULong(t)
  {
    var minutes := TruncDiv(IntCast(t), US_PER_MINUTE);
    var t1 := ULong(t - minutes * US_PER_MINUTE);
    var seconds := TruncDiv(IntCast(t1), US_PER_SECOND);
    var t2 := ULong(t1 - seconds * US_PER_SECOND);
    var milliseconds := TruncDiv(IntCast(t2), US_PER_MS);
    Clock(minutes, seconds, milliseconds)
  }

  /** convert_time as intended: unsigned division, with no cast. */
  function ConvertTime(t: int): (c: Clock)
    requires IsULong(t)
    ensures Shows(c, t)
  {
    var minutes := t / US_PER_MINUTE;
    var t1 := t - minutes * US_PER_MINUTE;
    var seconds := t1 / US_PER_SECOND;
    var t2 := t1 - seconds * US_PER_SECOND;
    Clock(minutes, seconds, t2 / US_PER_MS)
  }

  /** Up to 2^31 - 1 microseconds (about 35 minutes 47 seconds) the code as written
      shows the intended fields. */
  lemma ConvertTimeInIntRange(t: int)
    requires 0 <= t < TWO_TO_31
    ensures ConvertTimeAsWritten(t) == ConvertTime(t)
    ensures Shows(ConvertTimeAsWritten(t), t)
  {
    var minutes := t / US_PER_MINUTE;
    assert TruncDiv(IntCast(t), US_PER_MINUTE) == minutes;
    var t1 := t - minutes * US_PER_MINUTE;
    assert 0 <= t1 < US_PER_MINUTE;
    assert ULong(t1) == t1;
    var seconds := t1 / US_PER_SECOND;
    assert TruncDiv(IntCast(t1), US_PER_SECOND) == seconds;
    var t2 := t1 - seconds * US_PER_SECOND;
    assert 0 <= t2 < US_PER_SECOND;
    assert ULong(t2) == t2;
    assert TruncDiv(IntCast(t2), US_PER_MS) == t2 / US_PER_MS;
  }

  /** From 2^31 microseconds on, the cast turns every field negative: 2^31 µs
      (35 min 47.483648 s) shows as -35:-47:-483. */
  lemma ConvertTimeAsWrittenNegative()
    ensures ConvertTimeAsWritten(TWO_TO_31) == Clock(-35, -47, -483)
    ensures ConvertTime(TWO_TO_31) == Clock(35, 47, 483)
    ensures !Shows(ConvertTimeAsWritten(TWO_TO_31), TWO_TO_31)
  {
    assert TruncDiv(-TWO_TO_31, US_PER_MINUTE) == -35;
    assert ULong(TWO_TO_31 + 35 * US_PER_MINUTE) == 4_247_483_648;
    assert IntCast(4_247_483_648) == -47_483_648;
    assert TruncDiv(-47_483_648, US_PER_SECOND) == -47;
    assert ULong(4_247_483_648 + 47 * US_PER_SECOND) == 4_294_483_648;
    assert IntCast(4_294_483_648) == -483_648;
    assert TruncDiv(-483_648, US_PER_MS) == -483;
  }

  /** The prefix, then `%02d:%02d:%02d` of the fields. */
  function ClockText(prefix: string, c: Clock): string {
    prefix + Pad2(c.minutes) + ":" + Pad2(c.seconds) + ":" + Pad2(c.milliseconds)
  }

  /** us2str as intended: the text of the corrected convert_time. */
  function Us2Str(prefix: string, t: int): string
    requires IsULong(t)
  {
    ClockText(prefix, ConvertTime(t))
  }

  /** us2str as written: the text of convert_time as written. */
  function Us2StrAsWritten(prefix: string, t: int): string
    requires IsULong(t)
  {
    ClockText(prefix, ConvertTimeAsWritten(t))
  }

  /** Below 2^31 microseconds the text as written is the intended one; at 2^31 it
      shows three negative fields. */
  lemma Us2StrAsWrittenAgrees(prefix: string, t: int)
    requires 0 <= t < TWO_TO_31
    ensures Us2StrAsWritten(prefix, t) == Us2Str(prefix, t)
    ensures Us2StrAsWritten(prefix, TWO_TO_31) == prefix + "-35:-47:-483"
    ensures Us2Str(prefix, TWO_TO_31) == prefix + "35:47:483"
  {
    ConvertTimeInIntRange(t);
    ConvertTimeAsWrittenNegative();
    assert DigitsOf(35) == "35" && DigitsOf(47) == "47" && DigitsOf(483) == "483";
  }

  /** The colon-separated fields of a text. */
  function Fields(s: string): (r: seq<string>)
    ensures |r| > 0
  {
    if |s| == 0 then [""]
    else
      var rest := Fields(s[1..]);
      if s[0] == ':' then [""] + rest else [[s[0]] + rest[0]] + rest[1..]
  }

  lemma {:induction false} FieldsOfField(x: string)
    requires ':' !in x
    ensures Fields(x) == [x]
  {
    if |x| > 0 {
      FieldsOfField(x[1..]);
      assert [x[0]] + x[1..] == x;
    }
  }

  lemma {:induction false} FieldsSplit(x: string, y: string)
    requires ':' !in x
    ensures Fields(x + ":" + y) == [x] + Fields(y)
  {
    if |x| == 0 {
      assert x + ":" + y == [':'] + y;
      assert (x + ":" + y)[1..] == y;
    } else {
      assert (x + ":" + y)[1..] == x[1..] + ":" + y;
      FieldsSplit(x[1..], y);
      assert [x[0]] + x[1..] == x;
    }
  }

  lemma NoColonInDigits(s: string)
    requires AllDigits(s)
    ensures ':' !in s
  {
  }

  /** Three colon-free fields joined by colons after a prefix split back apart. */
  lemma FieldsOfJoined(prefix: string, a: string, b: string, m: string)
    requires ':' !in a && ':' !in b && ':' !in m
    ensures var s := prefix + a + ":" + b + ":" + m;
      |prefix| <= |s| && s[..|prefix|] == prefix && Fields(s[|prefix|..]) == [a, b, m]
  {
    var s := prefix + a + ":" + b + ":" + m;
    assert s[|prefix|..] == a + ":" + (b + ":" + m);
    FieldsSplit(a, b + ":" + m);
    FieldsSplit(b, m);
    FieldsOfField(m);
  }

  /** The fields of the text after the prefix are the three padded numbers. */
  lemma Us2StrFields(prefix: string, t: int)
    requires IsULong(t)
    ensures var c := ConvertTime(t);
      && |prefix| <= |Us2Str(prefix, t)| && Us2Str(prefix, t)[..|prefix|] == prefix
      && Fields(Us2Str(prefix, t)[|prefix|..]) == [Pad2(c.minutes), Pad2(c.seconds), Pad2(c.milliseconds)]
  {
    var c := ConvertTime(t);
    Pad2Value(c.minutes);
    Pad2Value(c.seconds);
    Pad2Value(c.milliseconds);
    NoColonInDigits(Pad2(c.minutes));
    NoColonInDigits(Pad2(c.seconds));
    NoColonInDigits(Pad2(c.milliseconds));
    FieldsOfJoined(prefix, Pad2(c.minutes), Pad2(c.seconds), Pad2(c.milliseconds));
  }

  /** us2str as intended: after the prefix the text is three colon-separated fields
      of at least two digits each, which read back as the minutes, the seconds and
      the milliseconds of the time (the text as written agrees below 2^31 µs, see
      Us2StrAsWrittenAgrees). */
  lemma Us2StrReadsBack(prefix: string, t: int)
    requires IsULong(t)
    ensures |prefix| <= |Us2Str(prefix, t)| && Us2Str(prefix, t)[..|prefix|] == prefix
    ensures var f := Fields(Us2Str(prefix, t)[|prefix|..]);
      && |f| == 3
      && (forall i :: 0 <= i < 3 ==> |f[i]| >= 2 && AllDigits(f[i]))
      && Shows(Clock(ValueOf(f[0]), ValueOf(f[1]), ValueOf(f[2])), t)
  {
    var c := ConvertTime(t);
    Us2StrFields(prefix, t);
    Pad2Value(c.minutes);
    Pad2Value(c.seconds);
    Pad2Value(c.milliseconds);
    var f := Fields(Us2Str(prefix, t)[|prefix|..]);
    assert Clock(ValueOf(f[0]), ValueOf(f[1]), ValueOf(f[2])) == c;
  }

  /** struct timeval: seconds and microseconds (below 10^6). */
  datatype Timeval = Timeval(sec: int, usec: int)

  function Micros(tv: Timeval): int {
    tv.sec * US_PER_SECOND + tv.usec
  }

  /** usec_between: the difference, in microseconds, as an unsigned long. */
  function UsecBetween(start: Timeval, stop: Timeval): (r: int)
    ensures IsULong(r)
  {
    ULong((stop.sec - start.sec) * US_PER_SECOND + stop.usec - start.usec)
  }

  /** The result is the time from the first reading to the second, as long as that
      is under 2^32 microseconds (about 71 minutes); otherwise it wraps. */
  lemma UsecBetweenElapsed(start: Timeval, stop: Timeval)
    ensures UsecBetween(start, stop) == (Micros(stop) - Micros(start)) % TWO_TO_32
    ensures 0 <= Micros(stop) - Micros(start) < TWO_TO_32 ==> UsecBetween(start, stop) == Micros(stop) - Micros(start)
  {
    assert (stop.sec - start.sec) * US_PER_SECOND + stop.usec - start.usec == Micros(stop) - Micros(start);
  }

  /** The main loop's variables: `after_start`, `no_lap` (set once the first
      crossing was seen), the lap's start reading, and `state`. */
  datatype Barrier = Barrier(
    afterStart: bool,
    noLap: bool,
    start: Timeval,
    timeUs: int,
    lapTimeUs: int,
    bestTimeUs: int)

  /** The state on power-up; `start` is not yet set and is whatever it holds. */
  function PowerUp(start: Timeval): Barrier {
    Barrier(false, false, start, 0, 0, LONG_MAX)
  }

  /** The inputs of one pass of the loop: the reset button, the interrupt flag, and
      the three clock readings the pass takes (for the running time, at the
      detection, and as the new lap start). */
  datatype Input = Input(reset: bool, detect: bool, now: Timeval, detectedAt: Timeval, restartAt: Timeval)

  /** The reset button's effect. */
  function Reset(s: Barrier): (r: Barrier)
    ensures !r.afterStart && !r.noLap && r.timeUs == 0 && r.lapTimeUs == 0 && r.bestTimeUs == LONG_MAX
    ensures r.start == s.start
  {
    s.(afterStart := false, noLap := false, timeUs := 0, lapTimeUs := 0, bestTimeUs := LONG_MAX)
  }

  /** A detection: the first one after a reset starts the lap timer; a later one
      more than MIN_TIME_US after the lap's start ends the lap and restarts the
      timer; a sooner one is ignored apart from the displayed time. */
  function Detect(s: Barrier, detectedAt: Timeval, restartAt: Timeval): Barrier {
    var elapsed := UsecBetween(s.start, detectedAt);
    var s1 := s.(afterStart := true, timeUs := elapsed);
    if !s1.noLap || elapsed > MIN_TIME_US then
      var s2 := s1.(start := restartAt);
      var s3 := if s1.noLap
                then s2.(lapTimeUs := elapsed, bestTimeUs := if s2.bestTimeUs > elapsed then elapsed else s2.bestTimeUs)
                else s2;
      s3.(noLap := true)
    else s1
  }

  /** One pass of the loop after the display update (the shutdown button ends it). */
  function Step(s: Barrier, i: Input): Barrier {
    var s1 := if i.reset then Reset(s) else s;
    var s2 := if s1.afterStart then s1.(timeUs := UsecBetween(s1.start, i.now)) else s1;
    if i.detect then Detect(s2, i.detectedAt, i.restartAt) else s2
  }

  /** The first detection after a reset is always taken: it starts the lap timer
      and leaves the lap and best times alone. */
  lemma FirstDetectionStarts(s: Barrier, detectedAt: Timeval, restartAt: Timeval)
    requires !s.noLap
    ensures var r := Detect(s, detectedAt, restartAt);
      && r.noLap && r.afterStart && r.start == restartAt
      && r.lapTimeUs == s.lapTimeUs && r.bestTimeUs == s.bestTimeUs
  {
  }

  /** A later detection is a lap exactly when more than MIN_TIME_US passed since the
      lap's start: then the lap time is that interval and the best time the smaller
      of the two; otherwise the lap's start, lap and best times stay as they were. */
  lemma LaterDetection(s: Barrier, detectedAt: Timeval, restartAt: Timeval)
    requires s.noLap
    ensures var r := Detect(s, detectedAt, restartAt);
      var elapsed := UsecBetween(s.start, detectedAt);
      && r.timeUs == elapsed && r.noLap
      && (elapsed > MIN_TIME_US ==>
            r.start == restartAt && r.lapTimeUs == elapsed && r.bestTimeUs == Min([s.bestTimeUs, elapsed]))
      && (elapsed <= MIN_TIME_US ==>
            r.start == s.start && r.lapTimeUs == s.lapTimeUs && r.bestTimeUs == s.bestTimeUs)
  {
  }

  /** Whether a pass records a lap: it detects a crossing, not the first since the
      last reset, more than MIN_TIME_US after the lap's start. */
  predicate RecordsLap(s: Barrier, i: Input) {
    var s1 := if i.reset then Reset(s) else s;
    i.detect && s1.noLap && UsecBetween(s1.start, i.detectedAt) > MIN_TIME_US
  }

  /** The lap times a run of passes records, in order: the intervals of the
      detections that record a lap. */
  function LapsOf(s: Barrier, inputs: seq<Input>): seq<int>
    decreases |inputs|
  {
    if |inputs| == 0 then []
    else
      var before := Run(s, inputs[..|inputs| - 1]);
      var last := inputs[|inputs| - 1];
      var laps := LapsOf(s, inputs[..|inputs| - 1]);
      if RecordsLap(before, last) then laps + [UsecBetween(before.start, last.detectedAt)] else laps
  }

  function Run(s: Barrier, inputs: seq<Input>): Barrier
    decreases |inputs|
  {
    if |inputs| == 0 then s else Step(Run(s, inputs[..|inputs| - 1]), inputs[|inputs| - 1])
  }

  predicate NoReset(inputs: seq<Input>) {
    forall k :: 0 <= k < |inputs| ==> !inputs[k].reset
  }

  /** Without a reset, the best time is the least recorded lap time, LONG_MAX
      while there is none, and the last lap time is the last one recorded. */
  lemma {:induction false} BestIsLeastLap(s: Barrier, inputs: seq<Input>)
    requires s.bestTimeUs == LONG_MAX && NoReset(inputs)
    ensures Run(s, inputs).bestTimeUs == Min([LONG_MAX] + LapsOf(s, inputs))
    ensures |LapsOf(s, inputs)| > 0 ==> Run(s, inputs).lapTimeUs == LapsOf(s, inputs)[|LapsOf(s, inputs)| - 1]
    ensures |LapsOf(s, inputs)| == 0 ==> Run(s, inputs).lapTimeUs == s.lapTimeUs
    decreases |inputs|
  {
    if |inputs| > 0 {
      var p := inputs[..|inputs| - 1];
      var i := inputs[|inputs| - 1];
      assert NoReset(p) by { assert forall k :: 0 <= k < |p| ==> p[k] == inputs[k]; }
      BestIsLeastLap(s, p);
      var before := Run(s, p);
      var laps := LapsOf(s, p);
      assert !i.reset;
      var s2 := if before.afterStart then before.(timeUs := UsecBetween(before.start, i.now)) else before;
      assert s2.start == before.start && s2.noLap == before.noLap && s2.bestTimeUs == before.bestTimeUs && s2.lapTimeUs == before.lapTimeUs;
      if i.detect && before.noLap && UsecBetween(before.start, i.detectedAt) > MIN_TIME_US {
        var e := UsecBetween(before.start, i.detectedAt);
        assert LapsOf(s, inputs) == laps + [e];
        MinAppend([LONG_MAX] + laps, e);
        assert [LONG_MAX] + laps + [e] == [LONG_MAX] + (laps + [e]);
      } else {
        assert LapsOf(s, inputs) == laps;
      }
    }
  }

  /** From power-up, a run without a reset keeps the best time no greater than
      LONG_MAX and no greater than any lap it recorded. */
  lemma BestBoundsEveryLap(start: Timeval, inputs: seq<Input>)
    requires NoReset(inputs)
    ensures var r := Run(PowerUp(start), inputs);
      && r.bestTimeUs <= LONG_MAX
      && (forall k :: 0 <= k < |LapsOf(PowerUp(start), inputs)| ==> r.bestTimeUs <= LapsOf(PowerUp(start), inputs)[k])
  {
    BestIsLeastLap(PowerUp(start), inputs);
    var laps := LapsOf(PowerUp(start), inputs);
    MinIsLeast([LONG_MAX] + laps);
    assert forall k :: 0 <= k < |laps| ==> ([LONG_MAX] + laps)[k + 1] == laps[k];
  }

  /** The reset button restores the power-up values, whatever came before. */
  lemma ResetRestores(s: Barrier, i: Input)
    requires i.reset && !i.detect
    ensures Step(s, i) == PowerUp(s.start)
  {
  }
}

=== FILE: race_engine.dfy ===
/** The lap/checkpoint timing engine of frontend/app/helpers/races.ts.

    `computeTeamStatsAndMutateCrossings` makes one left-to-right pass over a race's
    crossings for one team and its lap (home) barrier. The source writes the derived
    fields onto the crossing objects in place; here the pass returns the annotated
    sequence instead.

    The pass is a fold over the first `n` crossings. The second half of the module
    defines, independently of the fold and by position in the sequence, what the
    crossings mean (which one started the race, which are excluded, where the last
    lap began, ...) and proves the fold computes exactly that. */
module RaceEngine {
  import opened Common
  import opened Types
  import opened Laps

  datatype TeamStats = TeamStats(
    startTime: int,
    stopTime: int,
    numLaps: int,
    bestLapTime: int,
    bestLapCrossingId: int,
    currentLapStartTime: int)

  /** The three inputs of one run: the race (its type, duration and state are read),
      the team whose crossings count and that team's lap barrier. */
  datatype TeamRun = TeamRun(race: Race, team: Team, lapBarrierId: int)

  /** The local variables of the pass. */
  datatype Acc = Acc(
    startTime: int,
    stopTime: int,
    numLaps: int,
    checkpointNumber: int,
    bestLapTime: int,
    currentLapStartTime: int,
    last: int,
    bestLapCrossingId: int)

  const Init: Acc := Acc(-1, -1, 0, 0, MAX_SAFE_INTEGER, -1, -1, -1)

  /** One crossing and the accumulator after visiting it. */
  datatype Visited = Visited(acc: Acc, crossing: Crossing)

  /** A crossing that takes part in the team's computation: not ignored, and of the
      team (a time trial runs with team UNSET, so it counts every unassigned crossing). */
  predicate Counted(run: TeamRun, c: Crossing) {
    !c.ignored && c.team == run.team
  }

  predicate AtHome(run: TeamRun, c: Crossing) {
    Counted(run, c) && c.barrierId == run.lapBarrierId
  }

  /** A time trial with a known positive duration has its stop time fixed at start. */
  predicate FixedTime(race: Race) {
    race.raceType == TimeTrial && race.timeDuration > 0
  }

  /** The body of the `forEach` callback, for one crossing. */
  function Visit(run: TeamRun, a: Acc, c: Crossing): Visited {
    if !Counted(run, c) then Visited(a, c)
    else
      var home := c.barrierId == run.lapBarrierId;
      var v := if home && a.startTime == -1 then MarkStart(run, a, c) else Visited(a, c);
      if v.acc.stopTime != -1 && v.crossing.time > v.acc.stopTime then
        // recorded after the clock ran out
        Visited(v.acc, v.crossing.(excluded := true))
      else
        var r := Record(v.acc, v.crossing, home);
        if home then Visited(r.acc.(last := c.time), r.crossing) else r
  }

  /** The first counted lap-barrier crossing starts the race, its first lap, and for
      a fixed-time trial the countdown to the stop time. */
  function MarkStart(run: TeamRun, a: Acc, c: Crossing): Visited {
    Visited(
      a.(startTime := c.time,
         currentLapStartTime := c.time,
         stopTime := if FixedTime(run.race) then c.time + run.race.timeDuration else a.stopTime),
      c.(start := true))
  }

  /** Lap and checkpoint timing for a crossing within the race time. */
  function Record(a: Acc, c: Crossing, home: bool): Visited {
    if home && a.last != -1 then CloseLap(a, c)
    else if a.last != -1 then
      var k := a.checkpointNumber + 1;
      Visited(
        a.(checkpointNumber := k),
        c.(checkpoint := Some(Checkpoint(a.numLaps + 1, k, c.time - a.last))))
    else Visited(a, c)
  }

  function CloseLap(a: Acc, c: Crossing): Visited {
    var diff := c.time - a.last;
    var n := a.numLaps + 1;
    var better := diff < a.bestLapTime;
    Visited(
      a.(numLaps := n,
         checkpointNumber := 0,
         currentLapStartTime := c.time,
         bestLapTime := if better then diff else a.bestLapTime,
         bestLapCrossingId := if better then c.id else a.bestLapCrossingId),
      c.(lap := Some(Lap(n, diff))))
  }

  /** The pass over the first `n` crossings: the accumulator and the annotated crossings. */
  datatype Passed = Passed(acc: Acc, crossings: seq<Crossing>)

  function Pass(run: TeamRun, cs: seq<Crossing>, n: nat): (r: Passed)
    requires n <= |cs|
    ensures |r.crossings| == n
  {
    if n == 0 then Passed(Init, [])
    else
      var p := Pass(run, cs, n - 1);
      var v := Visit(run, p.acc, cs[n - 1]);
      Passed(v.acc, p.crossings + [v.crossing])
  }

  /** What follows the `forEach`: the stop-time back-fill and the "no lap" sentinel. */
  function Finish(race: Race, a: Acc): TeamStats {
    TeamStats(
      a.startTime,
      if a.stopTime == -1 && a.last != -1 && IsTerminal(race.state) then a.last else a.stopTime,
      a.numLaps,
      if a.bestLapTime == MAX_SAFE_INTEGER then -1 else a.bestLapTime,
      a.bestLapCrossingId,
      a.currentLapStartTime)
  }

  /** The result of computeTeamStatsAndMutateCrossings: the team's statistics and the
      race's crossings with the team's annotations written on them. */
  datatype TeamResult = TeamResult(stats: TeamStats, crossings: seq<Crossing>)

  function ComputeTeamStats(run: TeamRun): TeamResult {
    var cs := run.race.crossings;
    var p := Pass(run, cs, |cs|);
    TeamResult(Finish(run.race, p.acc), p.crossings)
  }

  /** The race statistics by race type (RaceStats). */
  datatype RaceStats =
    | TimeTrialStats(stats: TeamStats)
    | HeadToHeadStats(teamA: TeamStats, teamB: TeamStats)

  datatype RaceResult = RaceResult(stats: RaceStats, crossings: seq<Crossing>)

  /** computeRaceStatsAndMutateCrossings: a time trial is one run for the unassigned
      crossings on team A's barrier; a head-to-head race runs team A on its barrier and
      then team B on its barrier, over the crossings team A's run has annotated. */
  function ComputeRaceStats(race: Race): (r: RaceResult)
    ensures r.stats.TimeTrialStats? <==> race.raceType == TimeTrial
    ensures |r.crossings| == |race.crossings|
  {
    if race.raceType == TimeTrial then
      var t := ComputeTeamStats(TeamRun(race, Unset, race.teamABarrierId));
      RaceResult(TimeTrialStats(t.stats), t.crossings)
    else
      var a := ComputeTeamStats(TeamRun(race, TeamA, race.teamABarrierId));
      var b := ComputeTeamStats(TeamRun(race.(crossings := a.crossings), TeamB, race.teamBBarrierId));
      RaceResult(HeadToHeadStats(a.stats, b.stats), b.crossings)
  }

  // ---------------------------------------------------------------------------
  // What the crossings mean, defined by position and without the accumulator
  // ---------------------------------------------------------------------------

  /** Index of the first counted lap-barrier crossing among the first `n`, or -1. */
  function StartIndex(run: TeamRun, cs: seq<Crossing>, n: nat): (s: int)
    requires n <= |cs|
    ensures -1 <= s < n
  {
    if n == 0 then -1
    else
      var p := StartIndex(run, cs, n - 1);
      if p != -1 then p else if AtHome(run, cs[n - 1]) then n - 1 else -1
  }

  /** The stop time in force after the first `n` crossings: start time plus the
      trial's duration for a fixed-time race that has started, otherwise -1. */
  function Deadline(run: TeamRun, cs: seq<Crossing>, n: nat): int
    requires n <= |cs|
  {
    var s := StartIndex(run, cs, n);
    if s != -1 && FixedTime(run.race) then cs[s].time + run.race.timeDuration else -1
  }

  /** Crossing `i` is counted but happened after the stop time. */
  predicate ExcludedAt(run: TeamRun, cs: seq<Crossing>, i: nat)
    requires i < |cs|
  {
    Counted(run, cs[i]) && Deadline(run, cs, i + 1) != -1 && cs[i].time > Deadline(run, cs, i + 1)
  }

  /** Crossing `i` takes part in lap and checkpoint timing. */
  predicate ActiveAt(run: TeamRun, cs: seq<Crossing>, i: nat)
    requires i < |cs|
  {
    Counted(run, cs[i]) && !ExcludedAt(run, cs, i)
  }

  predicate HomeAt(run: TeamRun, cs: seq<Crossing>, i: nat)
    requires i < |cs|
  {
    ActiveAt(run, cs, i) && cs[i].barrierId == run.lapBarrierId
  }

  /** Index of the last active lap-barrier crossing among the first `n`, or -1. */
  function LastHome(run: TeamRun, cs: seq<Crossing>, n: nat): (h: int)
    requires n <= |cs|
    ensures -1 <= h < n
  {
    if n == 0 then -1
    else if HomeAt(run, cs, n - 1) then n - 1
    else LastHome(run, cs, n - 1)
  }

  /** Time of the last active lap-barrier crossing among the first `n`, or -1. */
  function LastHomeTime(run: TeamRun, cs: seq<Crossing>, n: nat): int
    requires n <= |cs|
  {
    var h := LastHome(run, cs, n);
    if h == -1 then -1 else cs[h].time
  }

  /** Crossing `i` closes a lap: an active lap-barrier crossing with an earlier one. */
  predicate LapAt(run: TeamRun, cs: seq<Crossing>, i: nat)
    requires i < |cs|
  {
    HomeAt(run, cs, i) && LastHome(run, cs, i) != -1
  }

  /** Crossing `i` is a checkpoint: an active crossing elsewhere than the lap
      barrier, after some active lap-barrier crossing. */
  predicate CheckpointAt(run: TeamRun, cs: seq<Crossing>, i: nat)
    requires i < |cs|
  {
    ActiveAt(run, cs, i) && cs[i].barrierId != run.lapBarrierId && LastHome(run, cs, i) != -1
  }

  /** Time from the previous active lap-barrier crossing to crossing `i`. */
  function SinceLastHome(run: TeamRun, cs: seq<Crossing>, i: nat): int
    requires i < |cs|
  {
    cs[i].time - LastHomeTime(run, cs, i)
  }

  /** Number of laps closed among the first `n` crossings. */
  function LapCount(run: TeamRun, cs: seq<Crossing>, n: nat): nat
    requires n <= |cs|
  {
    if n == 0 then 0 else LapCount(run, cs, n - 1) + (if LapAt(run, cs, n - 1) then 1 else 0)
  }

  /** Number of checkpoints since the last active lap-barrier crossing. */
  function OpenCheckpoints(run: TeamRun, cs: seq<Crossing>, n: nat): nat
    requires n <= |cs|
  {
    if n == 0 then 0
    else if HomeAt(run, cs, n - 1) then 0
    else if CheckpointAt(run, cs, n - 1) then OpenCheckpoints(run, cs, n - 1) + 1
    else OpenCheckpoints(run, cs, n - 1)
  }

  /** Durations of the laps closed among the first `n` crossings, in order. */
  function LapDurations(run: TeamRun, cs: seq<Crossing>, n: nat): (d: seq<int>)
    requires n <= |cs|
    ensures |d| == LapCount(run, cs, n)
  {
    if n == 0 then []
    else LapDurations(run, cs, n - 1) + (if LapAt(run, cs, n - 1) then [SinceLastHome(run, cs, n - 1)] else [])
  }

  /** Ids of the crossings that closed those laps, in order. */
  function LapCrossingIds(run: TeamRun, cs: seq<Crossing>, n: nat): (d: seq<int>)
    requires n <= |cs|
    ensures |d| == LapCount(run, cs, n)
  {
    if n == 0 then []
    else LapCrossingIds(run, cs, n - 1) + (if LapAt(run, cs, n - 1) then [cs[n - 1].id] else [])
  }

  /** The accumulator the pass must hold after the first `n` crossings. */
  function Expected(run: TeamRun, cs: seq<Crossing>, n: nat): Acc
    requires n <= |cs|
  {
    var s := StartIndex(run, cs, n);
    Acc(
      if s == -1 then -1 else cs[s].time,
      Deadline(run, cs, n),
      LapCount(run, cs, n),
      OpenCheckpoints(run, cs, n),
      BestOf(LapDurations(run, cs, n)),
      LastHomeTime(run, cs, n),
      LastHomeTime(run, cs, n),
      BestIdOf(LapDurations(run, cs, n), LapCrossingIds(run, cs, n)))
  }

  /** The annotation the pass must give crossing `i`. */
  function ExpectedCrossing(run: TeamRun, cs: seq<Crossing>, i: nat): Crossing
    requires i < |cs|
  {
    var c := cs[i];
    c.(start := c.start || StartIndex(run, cs, i + 1) == i,
       excluded := c.excluded || ExcludedAt(run, cs, i),
       lap := if LapAt(run, cs, i) then Some(Lap(LapCount(run, cs, i + 1), SinceLastHome(run, cs, i))) else c.lap,
       checkpoint := if CheckpointAt(run, cs, i)
                     then Some(Checkpoint(LapCount(run, cs, i + 1) + 1, OpenCheckpoints(run, cs, i + 1), SinceLastHome(run, cs, i)))
                     else c.checkpoint)
  }

  // ---------------------------------------------------------------------------
  // The fold computes the meaning
  // ---------------------------------------------------------------------------

  /** The start crossing and the last home crossing appear together: before the
      start there is no active lap-barrier crossing, no lap and no open checkpoint. */
  lemma {:induction false} StartAndLastHome(run: TeamRun, cs: seq<Crossing>, n: nat)
    requires n <= |cs| && ValidTimes(cs)
    ensures (StartIndex(run, cs, n) == -1) == (LastHome(run, cs, n) == -1)
    ensures LastHome(run, cs, n) == -1 ==> OpenCheckpoints(run, cs, n) == 0 && LapCount(run, cs, n) == 0
  {
    if n > 0 {
      StartAndLastHome(run, cs, n - 1);
      if StartIndex(run, cs, n - 1) == -1 && AtHome(run, cs[n - 1]) {
        assert StartIndex(run, cs, n) == n - 1;
        assert !ExcludedAt(run, cs, n - 1);
        assert HomeAt(run, cs, n - 1);
      }
    }
  }

  /** The visit of crossing `i` takes the accumulator for the first `i` crossings to
      the accumulator for the first `i + 1`, annotating crossing `i` as expected. */
  predicate StepOk(run: TeamRun, cs: seq<Crossing>, i: nat)
    requires i < |cs|
  {
    Visit(run, Expected(run, cs, i), cs[i]) == Visited(Expected(run, cs, i + 1), ExpectedCrossing(run, cs, i))
  }

  /** A crossing that does not count changes nothing. */
  lemma VisitSkipped(run: TeamRun, cs: seq<Crossing>, i: nat)
    requires i < |cs| && !Counted(run, cs[i])
    ensures StepOk(run, cs, i)
  {
    var a := Expected(run, cs, i);
    assert StartIndex(run, cs, i + 1) == StartIndex(run, cs, i);
    assert !ActiveAt(run, cs, i) && !ExcludedAt(run, cs, i);
    assert LastHome(run, cs, i + 1) == LastHome(run, cs, i);
    assert LapDurations(run, cs, i + 1) == LapDurations(run, cs, i);
    assert LapCrossingIds(run, cs, i + 1) == LapCrossingIds(run, cs, i);
    assert Expected(run, cs, i + 1) == a;
    assert ExpectedCrossing(run, cs, i) == cs[i];
  }

  /** The first counted lap-barrier crossing starts the race and the first lap. */
  lemma VisitStart(run: TeamRun, cs: seq<Crossing>, i: nat)
    requires i < |cs| && ValidTimes(cs) && AtHome(run, cs[i]) && StartIndex(run, cs, i) == -1
    ensures StepOk(run, cs, i)
  {
    StartAndLastHome(run, cs, i);
    assert StartIndex(run, cs, i + 1) == i;
    assert !ExcludedAt(run, cs, i);
    assert HomeAt(run, cs, i) && !LapAt(run, cs, i) && !CheckpointAt(run, cs, i);
    assert LapDurations(run, cs, i + 1) == LapDurations(run, cs, i);
    assert LapCrossingIds(run, cs, i + 1) == LapCrossingIds(run, cs, i);
  }

  lemma VisitExcluded(run: TeamRun, cs: seq<Crossing>, i: nat)
    requires i < |cs| && ValidTimes(cs) && ExcludedAt(run, cs, i)
    requires StartIndex(run, cs, i + 1) == StartIndex(run, cs, i)
    ensures StepOk(run, cs, i)
  {
    var a := Expected(run, cs, i);
    assert AtHome(run, cs[i]) ==> a.startTime != -1;
    assert Deadline(run, cs, i + 1) == a.stopTime;
    assert !ActiveAt(run, cs, i);
    assert LastHome(run, cs, i + 1) == LastHome(run, cs, i);
    assert LapDurations(run, cs, i + 1) == LapDurations(run, cs, i);
    assert LapCrossingIds(run, cs, i + 1) == LapCrossingIds(run, cs, i);
    assert Expected(run, cs, i + 1) == a;
    assert ExpectedCrossing(run, cs, i) == cs[i].(excluded := true);
  }

  /** Crossing `i` is a counted lap-barrier crossing within the race time, after the start. */
  predicate LapCase(run: TeamRun, cs: seq<Crossing>, i: nat)
    requires i < |cs|
  {
    && !ExcludedAt(run, cs, i) && AtHome(run, cs[i])
    && StartIndex(run, cs, i) != -1
    && StartIndex(run, cs, i + 1) == StartIndex(run, cs, i)
  }

  lemma LapStartKnown(run: TeamRun, cs: seq<Crossing>, i: nat)
    requires i < |cs| && LapCase(run, cs, i) && ValidTimes(cs)
    ensures LastHome(run, cs, i) != -1 && LastHomeTime(run, cs, i) >= 0
  {
    StartAndLastHome(run, cs, i);
  }

  /** The position facts of a crossing that closes a lap. */
  lemma LapFacts(run: TeamRun, cs: seq<Crossing>, i: nat)
    requires i < |cs| && LapCase(run, cs, i) && LastHome(run, cs, i) != -1
    ensures Deadline(run, cs, i + 1) == Deadline(run, cs, i)
    ensures HomeAt(run, cs, i) && LapAt(run, cs, i) && !CheckpointAt(run, cs, i)
    ensures LastHomeTime(run, cs, i + 1) == cs[i].time
    ensures LapCount(run, cs, i + 1) == LapCount(run, cs, i) + 1
    ensures OpenCheckpoints(run, cs, i + 1) == 0
    ensures LapDurations(run, cs, i + 1) == LapDurations(run, cs, i) + [cs[i].time - LastHomeTime(run, cs, i)]
    ensures LapCrossingIds(run, cs, i + 1) == LapCrossingIds(run, cs, i) + [cs[i].id]
  {
    assert LastHome(run, cs, i + 1) == i;
  }

  /** The accumulator after a lap closed by `c`, when `durations` and `ids` are the
      laps closed before it. */
  function AfterLap(a: Acc, c: Crossing, durations: seq<int>, ids: seq<int>): Acc
    requires |durations| == |ids|
  {
    var d := c.time - a.last;
    a.(numLaps := a.numLaps + 1,
       checkpointNumber := 0,
       currentLapStartTime := c.time,
       last := c.time,
       bestLapTime := BestOf(durations + [d]),
       bestLapCrossingId := BestIdOf(durations + [d], ids + [c.id]))
  }

  /** The accumulator after a lap. */
  lemma LapExpected(run: TeamRun, cs: seq<Crossing>, i: nat)
    requires i < |cs| && LapCase(run, cs, i) && LastHome(run, cs, i) != -1
    ensures Expected(run, cs, i + 1)
         == AfterLap(Expected(run, cs, i), cs[i], LapDurations(run, cs, i), LapCrossingIds(run, cs, i))
  {
    LapFacts(run, cs, i);
    var a := Expected(run, cs, i);
    var e := Expected(run, cs, i + 1);
    var s := StartIndex(run, cs, i);
    assert e.startTime == a.startTime;
    assert e.stopTime == a.stopTime;
    var durations := LapDurations(run, cs, i) + [cs[i].time - a.last];
    var ids := LapCrossingIds(run, cs, i) + [cs[i].id];
    var want := Acc(a.startTime, a.stopTime, a.numLaps + 1, 0, BestOf(durations), cs[i].time, cs[i].time,
                    BestIdOf(durations, ids));
    assert e == want;
    AfterLapFields(a, cs[i], LapDurations(run, cs, i), LapCrossingIds(run, cs, i));
  }

  lemma AfterLapFields(a: Acc, c: Crossing, durations: seq<int>, ids: seq<int>)
    requires |durations| == |ids|
    ensures AfterLap(a, c, durations, ids)
         == Acc(a.startTime, a.stopTime, a.numLaps + 1, 0, BestOf(durations + [c.time - a.last]), c.time, c.time,
                BestIdOf(durations + [c.time - a.last], ids + [c.id]))
  {
  }

  /** The annotation of a crossing that closes a lap. */
  lemma LapExpectedCrossing(run: TeamRun, cs: seq<Crossing>, i: nat)
    requires i < |cs| && LapCase(run, cs, i) && LastHome(run, cs, i) != -1
    ensures ExpectedCrossing(run, cs, i) == CloseLap(Expected(run, cs, i), cs[i]).crossing
  {
    LapFacts(run, cs, i);
  }

  /** Visit of a counted lap-barrier crossing within the race time, once started. */
  lemma VisitHomeRunning(run: TeamRun, a: Acc, c: Crossing)
    requires AtHome(run, c) && a.startTime != -1 && a.last != -1
    requires !(a.stopTime != -1 && c.time > a.stopTime)
    ensures Visit(run, a, c) == Visited(CloseLap(a, c).acc.(last := c.time), CloseLap(a, c).crossing)
  {
  }

  /** CloseLap keeps the best lap of the durations seen so far. */
  lemma CloseLapKeepsBest(a: Acc, c: Crossing, durations: seq<int>, ids: seq<int>)
    requires 0 <= a.last && c.time < MAX_SAFE_INTEGER
    requires |durations| == |ids|
    requires a.bestLapTime == BestOf(durations) && a.bestLapCrossingId == BestIdOf(durations, ids)
    ensures CloseLap(a, c).acc.(last := c.time) == AfterLap(a, c, durations, ids)
  {
    BestLapStep(durations, ids, c.time - a.last, c.id);
  }

  lemma VisitLap(run: TeamRun, cs: seq<Crossing>, i: nat)
    requires i < |cs| && LapCase(run, cs, i) && ValidTimes(cs)
    ensures StepOk(run, cs, i)
  {
    LapStartKnown(run, cs, i);
    var a := Expected(run, cs, i);
    var s := StartIndex(run, cs, i);
    assert a.startTime == cs[s].time >= 0;
    assert a.stopTime == Deadline(run, cs, i + 1);
    VisitHomeRunning(run, a, cs[i]);
    CloseLapKeepsBest(a, cs[i], LapDurations(run, cs, i), LapCrossingIds(run, cs, i));
    LapExpected(run, cs, i);
    LapExpectedCrossing(run, cs, i);
  }

  /** Crossing `i` is counted, within the race time, and away from the lap barrier. */
  predicate AwayCase(run: TeamRun, cs: seq<Crossing>, i: nat)
    requires i < |cs|
  {
    && !ExcludedAt(run, cs, i) && Counted(run, cs[i])
    && cs[i].barrierId != run.lapBarrierId
    && StartIndex(run, cs, i + 1) == StartIndex(run, cs, i)
  }

  lemma AwayFacts(run: TeamRun, cs: seq<Crossing>, i: nat)
    requires i < |cs| && AwayCase(run, cs, i)
    ensures Deadline(run, cs, i + 1) == Deadline(run, cs, i)
    ensures !HomeAt(run, cs, i) && !LapAt(run, cs, i)
    ensures LastHome(run, cs, i + 1) == LastHome(run, cs, i)
    ensures CheckpointAt(run, cs, i) == (LastHome(run, cs, i) != -1)
    ensures LapDurations(run, cs, i + 1) == LapDurations(run, cs, i)
    ensures LapCrossingIds(run, cs, i + 1) == LapCrossingIds(run, cs, i)
  {
  }

  lemma VisitCheckpoint(run: TeamRun, cs: seq<Crossing>, i: nat)
    requires i < |cs| && AwayCase(run, cs, i) && ValidTimes(cs) && LastHome(run, cs, i) != -1
    ensures StepOk(run, cs, i)
  {
    var a := Expected(run, cs, i);
    var c := cs[i];
    AwayFacts(run, cs, i);
    assert a.last >= 0;
    var k := a.checkpointNumber + 1;
    assert Expected(run, cs, i + 1) == a.(checkpointNumber := k);
    assert ExpectedCrossing(run, cs, i) == c.(checkpoint := Some(Checkpoint(a.numLaps + 1, k, c.time - a.last)));
    assert Visit(run, a, c) == Record(a, c, false);
  }

  lemma VisitIdle(run: TeamRun, cs: seq<Crossing>, i: nat)
    requires i < |cs| && AwayCase(run, cs, i) && LastHome(run, cs, i) == -1
    ensures StepOk(run, cs, i)
  {
    var a := Expected(run, cs, i);
    AwayFacts(run, cs, i);
    assert Expected(run, cs, i + 1) == a;
    assert ExpectedCrossing(run, cs, i) == cs[i];
    assert Visit(run, a, cs[i]) == Record(a, cs[i], false);
  }

  /** Every crossing is visited as its position calls for. */
  lemma VisitStep(run: TeamRun, cs: seq<Crossing>, i: nat)
    requires i < |cs| && ValidTimes(cs)
    ensures StepOk(run, cs, i)
  {
    if !Counted(run, cs[i]) {
      VisitSkipped(run, cs, i);
    } else if AtHome(run, cs[i]) && StartIndex(run, cs, i) == -1 {
      VisitStart(run, cs, i);
    } else {
      assert StartIndex(run, cs, i + 1) == StartIndex(run, cs, i);
      if ExcludedAt(run, cs, i) {
        VisitExcluded(run, cs, i);
      } else if AtHome(run, cs[i]) {
        VisitLap(run, cs, i);
      } else if LastHome(run, cs, i) != -1 {
        VisitCheckpoint(run, cs, i);
      } else {
        VisitIdle(run, cs, i);
      }
    }
  }

  /** The pass computes, after every prefix, the accumulator and the annotations
      defined by position above. */
  lemma {:induction false} PassMatches(run: TeamRun, cs: seq<Crossing>, n: nat)
    requires n <= |cs| && ValidTimes(cs)
    ensures Pass(run, cs, n).acc == Expected(run, cs, n)
    ensures forall i :: 0 <= i < n ==> Pass(run, cs, n).crossings[i] == ExpectedCrossing(run, cs, i)
  {
    if n > 0 {
      PassMatches(run, cs, n - 1);
      VisitStep(run, cs, n - 1);
    }
  }
}

=== FILE: race_facts.dfy ===
/** What the race timing engine promises, stated on its inputs and its annotated output.

    The first group needs nothing of the crossings: the engine only writes derived
    fields, a crossing that does not count for the team is neither changed nor felt,
    and the two runs of a head-to-head race do not interfere. The second group holds
    for crossings with valid times as they arrive from the backend (no derived field
    yet), and follows from RaceEngine.PassMatches. */
module RaceFacts {
  import opened Common
  import opened Types
  import opened Laps
  import opened RaceEngine

  // ---------------------------------------------------------------------------
  // The pass only annotates
  // ---------------------------------------------------------------------------

  /** A visit keeps the recorded fields and leaves a crossing that does not count as it is. */
  lemma VisitAnnotatesOnly(run: TeamRun, a: Acc, c: Crossing)
    ensures SameRecorded(Visit(run, a, c).crossing, c)
    ensures !Counted(run, c) ==> Visit(run, a, c) == Visited(a, c)
  {
  }

  lemma {:induction false} PassAnnotatesOnly(run: TeamRun, cs: seq<Crossing>, n: nat)
    requires n <= |cs|
    ensures forall i :: 0 <= i < n ==> SameRecorded(Pass(run, cs, n).crossings[i], cs[i])
    ensures forall i :: 0 <= i < n && !Counted(run, cs[i]) ==> Pass(run, cs, n).crossings[i] == cs[i]
  {
    if n > 0 {
      PassAnnotatesOnly(run, cs, n - 1);
      VisitAnnotatesOnly(run, Pass(run, cs, n - 1).acc, cs[n - 1]);
    }
  }

  /** The output is the input, in the same order, with derived fields written only on
      the team's counted crossings. */
  lemma AnnotatesOnly(run: TeamRun)
    ensures |ComputeTeamStats(run).crossings| == |run.race.crossings|
    ensures forall i :: 0 <= i < |run.race.crossings| ==>
      SameRecorded(ComputeTeamStats(run).crossings[i], run.race.crossings[i])
    ensures forall i :: 0 <= i < |run.race.crossings| && !Counted(run, run.race.crossings[i]) ==>
      ComputeTeamStats(run).crossings[i] == run.race.crossings[i]
  {
    PassAnnotatesOnly(run, run.race.crossings, |run.race.crossings|);
  }

  /** The pass over a prefix is the prefix of the pass. */
  lemma {:induction false} PassPrefix(run: TeamRun, cs: seq<Crossing>, m: nat, n: nat)
    requires m <= n <= |cs|
    ensures Pass(run, cs, n).crossings[..m] == Pass(run, cs, m).crossings
  {
    if m < n {
      PassPrefix(run, cs, m, n - 1);
      var p := Pass(run, cs, n - 1).crossings;
      assert Pass(run, cs, n).crossings[..m] == p[..m];
    }
  }

  // ---------------------------------------------------------------------------
  // Crossings that do not count are not felt
  // ---------------------------------------------------------------------------

  /** Two runs that agree on what the visit reads: the team, the lap barrier and the
      fixed-time rule. */
  predicate SameRule(r1: TeamRun, r2: TeamRun) {
    && r1.team == r2.team && r1.lapBarrierId == r2.lapBarrierId
    && FixedTime(r1.race) == FixedTime(r2.race) && r1.race.timeDuration == r2.race.timeDuration
  }

  lemma VisitSameRule(r1: TeamRun, r2: TeamRun, a: Acc, c: Crossing)
    requires SameRule(r1, r2)
    ensures Visit(r1, a, c) == Visit(r2, a, c)
  {
  }

  /** Two crossing lists that agree on the team's counted crossings (and on which ones
      count) give the same statistics and the same annotations on those crossings. */
  lemma {:induction false} PassSeesOnlyCounted(r1: TeamRun, r2: TeamRun, cs: seq<Crossing>, ds: seq<Crossing>, n: nat)
    requires SameRule(r1, r2) && n <= |cs| == |ds|
    requires forall i :: 0 <= i < |cs| ==> Counted(r1, cs[i]) == Counted(r1, ds[i])
    requires forall i :: 0 <= i < |cs| && Counted(r1, cs[i]) ==> cs[i] == ds[i]
    ensures Pass(r1, cs, n).acc == Pass(r2, ds, n).acc
    ensures forall i :: 0 <= i < n && Counted(r1, cs[i]) ==> Pass(r1, cs, n).crossings[i] == Pass(r2, ds, n).crossings[i]
  {
    if n > 0 {
      PassSeesOnlyCounted(r1, r2, cs, ds, n - 1);
      var a := Pass(r1, cs, n - 1).acc;
      VisitSameRule(r1, r2, a, cs[n - 1]);
    }
  }

  /** Inserting one crossing that does not count, at any position, leaves the statistics
      as they were and the crossing itself untouched. */
  lemma {:induction false} PassSkipsInserted(run: TeamRun, a: seq<Crossing>, x: Crossing, b: seq<Crossing>, k: nat)
    requires !Counted(run, x) && k <= |b|
    ensures Pass(run, a + [x] + b, |a| + 1 + k).acc == Pass(run, a + b, |a| + k).acc
    ensures Pass(run, a + [x] + b, |a| + 1 + k).crossings
         == Pass(run, a + b, |a| + k).crossings[..|a|] + [x] + Pass(run, a + b, |a| + k).crossings[|a|..]
  {
    var cs := a + [x] + b;
    var ds := a + b;
    if k == 0 {
      PassSamePrefix(run, cs, ds, |a|);
      VisitAnnotatesOnly(run, Pass(run, cs, |a|).acc, x);
      assert cs[|a|] == x;
      var p := Pass(run, ds, |a|).crossings;
      assert p[..|a|] == p && p[|a|..] == [];
    } else {
      PassSkipsInserted(run, a, x, b, k - 1);
      assert cs[|a| + k] == b[k - 1] == ds[|a| + k - 1];
      var p := Pass(run, ds, |a| + k - 1).crossings;
      var v := Visit(run, Pass(run, ds, |a| + k - 1).acc, b[k - 1]);
      var q := p + [v.crossing];
      assert q[..|a|] == p[..|a|];
      assert q[|a|..] == p[|a|..] + [v.crossing];
    }
  }

  /** The pass reads only the first `n` crossings. */
  lemma {:induction false} PassSamePrefix(run: TeamRun, cs: seq<Crossing>, ds: seq<Crossing>, n: nat)
    requires n <= |cs| && n <= |ds| && cs[..n] == ds[..n]
    ensures Pass(run, cs, n) == Pass(run, ds, n)
  {
    if n > 0 {
      assert cs[..n - 1] == ds[..n - 1] by {
        assert cs[..n - 1] == cs[..n][..n - 1];
        assert ds[..n - 1] == ds[..n][..n - 1];
      }
      PassSamePrefix(run, cs, ds, n - 1);
      assert cs[n - 1] == cs[..n][n - 1] == ds[n - 1];
    }
  }

  /** Runs with the same rule make the same pass. */
  lemma {:induction false} PassSameRule(r1: TeamRun, r2: TeamRun, cs: seq<Crossing>, n: nat)
    requires SameRule(r1, r2) && n <= |cs|
    ensures Pass(r1, cs, n) == Pass(r2, cs, n)
  {
    if n > 0 {
      PassSameRule(r1, r2, cs, n - 1);
      VisitSameRule(r1, r2, Pass(r1, cs, n - 1).acc, cs[n - 1]);
    }
  }

  /** Whole-run form: an ignored crossing or another team's crossing, inserted anywhere,
      changes no statistic and receives no annotation. */
  lemma SkippedCrossingChangesNothing(race: Race, team: Team, lapBarrierId: int,
                                      a: seq<Crossing>, x: Crossing, b: seq<Crossing>)
    requires x.ignored || x.team != team
    ensures var with := ComputeTeamStats(TeamRun(race.(crossings := a + [x] + b), team, lapBarrierId));
            var without := ComputeTeamStats(TeamRun(race.(crossings := a + b), team, lapBarrierId));
            with.stats == without.stats
            && with.crossings == without.crossings[..|a|] + [x] + without.crossings[|a|..]
  {
    var r1 := TeamRun(race.(crossings := a + [x] + b), team, lapBarrierId);
    var r2 := TeamRun(race.(crossings := a + b), team, lapBarrierId);
    PassSkipsInserted(r1, a, x, b, |b|);
    PassSameRule(r1, r2, a + b, |a + b|);
    assert |a + [x] + b| == |a| + 1 + |b|;
  }

  // ---------------------------------------------------------------------------
  // The two runs of a head-to-head race
  // ---------------------------------------------------------------------------

  /** Team B's run over the crossings team A's run annotated gives the statistics and
      annotations it would give over the race as received, and each crossing of the
      result carries the annotations of its own team's run only. */
  lemma HeadToHeadRunsIndependent(race: Race)
    requires race.raceType == HeadToHead
    ensures var runA := TeamRun(race, TeamA, race.teamABarrierId);
            var runB := TeamRun(race, TeamB, race.teamBBarrierId);
            var r := ComputeRaceStats(race);
            && r.stats == HeadToHeadStats(ComputeTeamStats(runA).stats, ComputeTeamStats(runB).stats)
            && forall i :: 0 <= i < |race.crossings| ==>
                 r.crossings[i] == (if Counted(runA, race.crossings[i]) then ComputeTeamStats(runA).crossings[i]
                                    else if Counted(runB, race.crossings[i]) then ComputeTeamStats(runB).crossings[i]
                                    else race.crossings[i])
  {
    var cs := race.crossings;
    var runA := TeamRun(race, TeamA, race.teamABarrierId);
    var runB := TeamRun(race, TeamB, race.teamBBarrierId);
    var outA := ComputeTeamStats(runA).crossings;
    var runB' := TeamRun(race.(crossings := outA), TeamB, race.teamBBarrierId);
    AnnotatesOnly(runA);
    assert forall i :: 0 <= i < |cs| ==> Counted(runB, cs[i]) == Counted(runB, outA[i]);
    assert forall i :: 0 <= i < |cs| && Counted(runB, cs[i]) ==> cs[i] == outA[i];
    PassSeesOnlyCounted(runB, runB', cs, outA, |cs|);
    AnnotatesOnly(runB');
  }

  // ---------------------------------------------------------------------------
  // Reading the annotated output
  // ---------------------------------------------------------------------------

  /** Position `i` of the output is a lap-barrier crossing the team's timing used:
      counted, on the lap barrier and not excluded. */
  predicate TimedHome(run: TeamRun, out: seq<Crossing>, i: nat)
    requires i < |out|
  {
    AtHome(run, out[i]) && !out[i].excluded
  }

  /** `j` is the latest timed lap-barrier crossing before position `n`. */
  predicate LatestHome(run: TeamRun, out: seq<Crossing>, j: int, n: nat)
    requires n <= |out|
  {
    0 <= j < n && TimedHome(run, out, j) && forall k :: j < k < n ==> !TimedHome(run, out, k)
  }

  /** Position `i` holds the first counted lap-barrier crossing. */
  predicate FirstHome(run: TeamRun, cs: seq<Crossing>, i: nat)
    requires i < |cs|
  {
    AtHome(run, cs[i]) && forall j :: 0 <= j < i ==> !AtHome(run, cs[j])
  }

  /** Number of crossings carrying a checkpoint among positions lo .. hi - 1. */
  function CheckpointCount(out: seq<Crossing>, lo: nat, hi: nat): nat
    requires lo <= hi <= |out|
    decreases hi
  {
    if lo == hi then 0
    else CheckpointCount(out, lo, hi - 1) + (if out[hi - 1].checkpoint.Some? then 1 else 0)
  }

  // ---------------------------------------------------------------------------
  // The position definitions, characterised
  // ---------------------------------------------------------------------------

  lemma {:induction false} StartIndexIsFirst(run: TeamRun, cs: seq<Crossing>, n: nat)
    requires n <= |cs|
    ensures StartIndex(run, cs, n) == -1 <==> forall j :: 0 <= j < n ==> !AtHome(run, cs[j])
    ensures StartIndex(run, cs, n) != -1 ==> FirstHome(run, cs, StartIndex(run, cs, n))
  {
    if n > 0 {
      StartIndexIsFirst(run, cs, n - 1);
    }
  }

  /** With the first home crossing at `s`, the start is unknown before it and `s` after it. */
  lemma StartIndexAt(run: TeamRun, cs: seq<Crossing>, s: nat, n: nat)
    requires s < |cs| && n <= |cs| && FirstHome(run, cs, s)
    ensures StartIndex(run, cs, n) == if s < n then s else -1
  {
    StartIndexIsFirst(run, cs, n);
    var t := StartIndex(run, cs, n);
    if s < n {
      assert t != -1;
      assert !(t < s) && !(s < t);
    }
  }

  lemma {:induction false} LastHomeIsLatest(run: TeamRun, cs: seq<Crossing>, n: nat)
    requires n <= |cs|
    ensures LastHome(run, cs, n) == -1 <==> forall j :: 0 <= j < n ==> !HomeAt(run, cs, j)
    ensures LastHome(run, cs, n) != -1 ==>
      HomeAt(run, cs, LastHome(run, cs, n)) && forall k :: LastHome(run, cs, n) < k < n ==> !HomeAt(run, cs, k)
  {
    if n > 0 {
      LastHomeIsLatest(run, cs, n - 1);
    }
  }

  /** Every lap duration is below the "no lap" sentinel. */
  lemma {:induction false} LapDurationsBelow(run: TeamRun, cs: seq<Crossing>, n: nat)
    requires n <= |cs| && ValidTimes(cs)
    ensures forall k :: 0 <= k < |LapDurations(run, cs, n)| ==> LapDurations(run, cs, n)[k] < MAX_SAFE_INTEGER
  {
    if n > 0 {
      LapDurationsBelow(run, cs, n - 1);
      if LapAt(run, cs, n - 1) {
        var h := LastHome(run, cs, n - 1);
        assert LastHomeTime(run, cs, n - 1) == cs[h].time >= 0;
      }
    }
  }

  // ---------------------------------------------------------------------------
  // The output of a run over crossings as received
  // ---------------------------------------------------------------------------

  /** Crossings as received: valid times and no derived field yet. */
  predicate Received(run: TeamRun) {
    ValidTimes(run.race.crossings) && AllFresh(run.race.crossings)
  }

  /** Each output crossing carries the annotation its position calls for, and the timed
      lap-barrier crossings of the output are the active ones. */
  lemma OutputMatches(run: TeamRun)
    requires Received(run)
    ensures |ComputeTeamStats(run).crossings| == |run.race.crossings|
    ensures forall i :: 0 <= i < |run.race.crossings| ==>
      ComputeTeamStats(run).crossings[i] == ExpectedCrossing(run, run.race.crossings, i)
    ensures forall i :: 0 <= i < |run.race.crossings| ==>
      TimedHome(run, ComputeTeamStats(run).crossings, i) == HomeAt(run, run.race.crossings, i)
  {
    var cs := run.race.crossings;
    PassMatches(run, cs, |cs|);
    var out := ComputeTeamStats(run).crossings;
    forall i | 0 <= i < |cs|
      ensures TimedHome(run, out, i) == HomeAt(run, cs, i)
    {
      assert Fresh(cs[i]);
    }
  }

  /** The latest timed lap-barrier crossing before `n`, read on the output, is the one
      the position definitions name. */
  lemma LatestHomeOutput(run: TeamRun, n: nat)
    requires Received(run) && n <= |run.race.crossings|
    ensures var out := ComputeTeamStats(run).crossings;
            var h := LastHome(run, run.race.crossings, n);
            && (h == -1 <==> forall j :: 0 <= j < n ==> !TimedHome(run, out, j))
            && (h != -1 ==> LatestHome(run, out, h, n))
            && forall j :: LatestHome(run, out, j, n) ==> j == h
  {
    OutputMatches(run);
    LastHomeIsLatest(run, run.race.crossings, n);
  }

  /** The derived fields the position definitions give a crossing as received. */
  lemma ExpectedFreshFields(run: TeamRun, cs: seq<Crossing>, i: nat)
    requires i < |cs| && Fresh(cs[i])
    ensures ExpectedCrossing(run, cs, i).excluded == ExcludedAt(run, cs, i)
    ensures ExpectedCrossing(run, cs, i).lap
         == if LapAt(run, cs, i) then Some(Lap(LapCount(run, cs, i + 1), SinceLastHome(run, cs, i))) else None
    ensures ExpectedCrossing(run, cs, i).checkpoint
         == if CheckpointAt(run, cs, i)
            then Some(Checkpoint(LapCount(run, cs, i + 1) + 1, OpenCheckpoints(run, cs, i + 1), SinceLastHome(run, cs, i)))
            else None
  {
  }

  /** One more step of the pass appends the expected annotation of that crossing. */
  lemma PassStep(run: TeamRun, cs: seq<Crossing>, n: nat)
    requires 0 < n <= |cs| && ValidTimes(cs)
    ensures Pass(run, cs, n).crossings == Pass(run, cs, n - 1).crossings + [ExpectedCrossing(run, cs, n - 1)]
  {
    var p := Pass(run, cs, n - 1);
    PassMatches(run, cs, n - 1);
    assert p.acc == Expected(run, cs, n - 1);
    VisitStep(run, cs, n - 1);
    assert Visit(run, p.acc, cs[n - 1]).crossing == ExpectedCrossing(run, cs, n - 1);
  }

  /** The lap lists read on a prefix of the output are the position definitions. */
  lemma {:induction false} LapListsPrefix(run: TeamRun, n: nat)
    requires Received(run) && n <= |run.race.crossings|
    ensures var cs := run.race.crossings;
            var out := Pass(run, cs, n).crossings;
            && LapNumbers(out) == OneTo(LapCount(run, cs, n))
            && LapTimes(out) == LapDurations(run, cs, n)
            && LapIds(out) == LapCrossingIds(run, cs, n)
  {
    var cs := run.race.crossings;
    if n > 0 {
      LapListsPrefix(run, n - 1);
      PassStep(run, cs, n);
      var e := ExpectedCrossing(run, cs, n - 1);
      LapListsAppend(Pass(run, cs, n - 1).crossings, e);
      assert Fresh(cs[n - 1]);
      ExpectedFreshFields(run, cs, n - 1);
      var k := LapCount(run, cs, n - 1);
      OneToSnoc(k);
    }
  }

  /** The open-checkpoint counter is the number of checkpoints written since the latest
      timed lap-barrier crossing. */
  lemma {:induction false} OpenCheckpointsCount(run: TeamRun, n: nat)
    requires Received(run) && n <= |run.race.crossings|
    ensures var cs := run.race.crossings;
            OpenCheckpoints(run, cs, n) == CheckpointCount(ComputeTeamStats(run).crossings, LastHome(run, cs, n) + 1, n)
  {
    var cs := run.race.crossings;
    var out := ComputeTeamStats(run).crossings;
    OutputMatches(run);
    if n > 0 && !HomeAt(run, cs, n - 1) {
      OpenCheckpointsCount(run, n - 1);
      assert Fresh(cs[n - 1]);
      assert out[n - 1] == ExpectedCrossing(run, cs, n - 1);
    }
  }

  // ---------------------------------------------------------------------------
  // The promises
  // ---------------------------------------------------------------------------

  /** Only the first counted lap-barrier crossing is marked as the start; the start time
      is its time, or -1 when the team never crossed its lap barrier. */
  lemma StartIsFirstHomeCrossing(run: TeamRun)
    requires ValidTimes(run.race.crossings)
    ensures var cs := run.race.crossings;
            var r := ComputeTeamStats(run);
            && (forall i :: 0 <= i < |cs| ==> (r.crossings[i].start <==> cs[i].start || FirstHome(run, cs, i)))
            && (r.stats.startTime == -1 <==> forall j :: 0 <= j < |cs| ==> !AtHome(run, cs[j]))
            && (forall i :: 0 <= i < |cs| && FirstHome(run, cs, i) ==> r.stats.startTime == cs[i].time)
  {
    var cs := run.race.crossings;
    PassMatches(run, cs, |cs|);
    StartIndexIsFirst(run, cs, |cs|);
    forall n | 1 <= n <= |cs|
      ensures StartIndex(run, cs, n) == n - 1 <==> FirstHome(run, cs, n - 1)
    {
      StartIndexIsFirst(run, cs, n);
      if FirstHome(run, cs, n - 1) {
        StartIndexAt(run, cs, n - 1, n);
      }
    }
    forall i | 0 <= i < |cs| && FirstHome(run, cs, i)
      ensures StartIndex(run, cs, |cs|) == i
    {
      StartIndexAt(run, cs, i, |cs|);
    }
  }

  /** Without a fixed duration nothing is excluded. */
  lemma NothingExcludedWithoutDuration(run: TeamRun)
    requires ValidTimes(run.race.crossings) && !FixedTime(run.race)
    ensures var cs := run.race.crossings;
            var r := ComputeTeamStats(run);
            forall i :: 0 <= i < |cs| ==> r.crossings[i].excluded == cs[i].excluded
  {
    PassMatches(run, run.race.crossings, |run.race.crossings|);
  }

  /** In a fixed-time trial the stop time is the start time plus the duration, and a
      counted crossing is excluded exactly when it comes at or after the start crossing
      and later than the stop time; an excluded crossing gets neither lap nor checkpoint. */
  lemma ExcludedAfterStopTime(run: TeamRun, s: nat)
    requires ValidTimes(run.race.crossings) && FixedTime(run.race)
    requires s < |run.race.crossings| && FirstHome(run, run.race.crossings, s)
    ensures var cs := run.race.crossings;
            var r := ComputeTeamStats(run);
            var stop := cs[s].time + run.race.timeDuration;
            && r.stats.stopTime == stop
            && (forall i :: 0 <= i < |cs| ==>
                  (r.crossings[i].excluded <==> cs[i].excluded || (Counted(run, cs[i]) && s <= i && cs[i].time > stop)))
            && (forall i :: 0 <= i < |cs| && r.crossings[i].excluded && !cs[i].excluded ==>
                  r.crossings[i].lap == cs[i].lap && r.crossings[i].checkpoint == cs[i].checkpoint)
  {
    var cs := run.race.crossings;
    PassMatches(run, cs, |cs|);
    StartIndexAt(run, cs, s, |cs|);
    forall n | 1 <= n <= |cs|
      ensures StartIndex(run, cs, n) == if s < n then s else -1
    {
      StartIndexAt(run, cs, s, n);
    }
  }

  /** Before the team's first lap-barrier crossing no stop time is fixed, so a
      fixed-time trial that never started excludes nothing. */
  lemma NotStartedExcludesNothing(run: TeamRun)
    requires ValidTimes(run.race.crossings)
    requires forall j :: 0 <= j < |run.race.crossings| ==> !AtHome(run, run.race.crossings[j])
    ensures var cs := run.race.crossings;
            var r := ComputeTeamStats(run);
            forall i :: 0 <= i < |cs| ==> r.crossings[i].excluded == cs[i].excluded
  {
    var cs := run.race.crossings;
    PassMatches(run, cs, |cs|);
    forall n | 1 <= n <= |cs|
      ensures StartIndex(run, cs, n) == -1
    {
      StartIndexIsFirst(run, cs, n);
    }
  }

  /** Lap numbers on the output are 1, 2, ..., numLaps in order, without gaps. */
  lemma LapsNumberedFromOne(run: TeamRun)
    requires Received(run)
    ensures var r := ComputeTeamStats(run);
            r.stats.numLaps >= 0 && LapNumbers(r.crossings) == OneTo(r.stats.numLaps)
  {
    var cs := run.race.crossings;
    LapListsPrefix(run, |cs|);
    PassMatches(run, cs, |cs|);
  }

  /** A crossing carries a lap exactly when it is a timed lap-barrier crossing with an
      earlier one, and its lap time is the time since the latest earlier one. */
  lemma LapTimeSinceLatestHome(run: TeamRun, i: nat)
    requires Received(run) && i < |run.race.crossings|
    ensures var cs := run.race.crossings;
            var out := ComputeTeamStats(run).crossings;
            && (out[i].lap.Some? <==> TimedHome(run, out, i) && exists j :: 0 <= j < i && TimedHome(run, out, j))
            && forall j :: LatestHome(run, out, j, i) && out[i].lap.Some? ==> out[i].lap.value.time == cs[i].time - cs[j].time
  {
    var cs := run.race.crossings;
    var out := ComputeTeamStats(run).crossings;
    OutputMatches(run);
    LatestHomeOutput(run, i);
    assert Fresh(cs[i]);
    var h := LastHome(run, cs, i);
    if h != -1 {
      assert TimedHome(run, out, h);
    }
  }

  /** The current lap started at the latest timed lap-barrier crossing (-1 if none);
      without a fixed duration the stop time is that crossing's time once the race is
      finished or cancelled, and -1 otherwise. */
  lemma CurrentLapAndStopTime(run: TeamRun)
    requires Received(run)
    ensures var cs := run.race.crossings;
            var r := ComputeTeamStats(run);
            var none := forall j :: 0 <= j < |cs| ==> !TimedHome(run, r.crossings, j);
            && (none ==> r.stats.currentLapStartTime == -1)
            && (forall h :: LatestHome(run, r.crossings, h, |cs|) ==> r.stats.currentLapStartTime == cs[h].time)
            && (!FixedTime(run.race) && (none || !IsTerminal(run.race.state)) ==> r.stats.stopTime == -1)
            && (forall h :: !FixedTime(run.race) && IsTerminal(run.race.state) && LatestHome(run, r.crossings, h, |cs|)
                  ==> r.stats.stopTime == cs[h].time)
  {
    var cs := run.race.crossings;
    PassMatches(run, cs, |cs|);
    LatestHomeOutput(run, |cs|);
    var h := LastHome(run, cs, |cs|);
    if h != -1 {
      assert LastHomeTime(run, cs, |cs|) == cs[h].time >= 0;
    }
  }

  /** The best lap time is the smallest lap time, and the best-lap crossing the first
      crossing that ran it; both are -1 when no lap was closed. */
  lemma BestLapIsFirstFastest(run: TeamRun)
    requires Received(run)
    ensures var r := ComputeTeamStats(run);
            var times := LapTimes(r.crossings);
            var ids := LapIds(r.crossings);
            && |times| == |ids| == r.stats.numLaps
            && (r.stats.numLaps == 0 ==> r.stats.bestLapTime == -1 && r.stats.bestLapCrossingId == -1)
            && (r.stats.numLaps > 0 ==>
                  exists k: nat :: k < |ids| && FirstFastest(times, k)
                                   && r.stats.bestLapTime == times[k] && r.stats.bestLapCrossingId == ids[k])
  {
    var cs := run.race.crossings;
    PassMatches(run, cs, |cs|);
    LapListsPrefix(run, |cs|);
    var d := LapDurations(run, cs, |cs|);
    var ids := LapCrossingIds(run, cs, |cs|);
    if |d| > 0 {
      LapDurationsBelow(run, cs, |cs|);
      BestIsFirstFastest(d, ids);
    }
  }

  /** A crossing carries a checkpoint exactly when it is a counted, not excluded crossing
      away from the lap barrier after some timed lap-barrier crossing: none before the
      start, none on an excluded crossing. */
  lemma CheckpointOnlyWithinLap(run: TeamRun, i: nat)
    requires Received(run) && i < |run.race.crossings|
    ensures var cs := run.race.crossings;
            var out := ComputeTeamStats(run).crossings;
            out[i].checkpoint.Some? <==>
              Counted(run, cs[i]) && !out[i].excluded && cs[i].barrierId != run.lapBarrierId
              && exists j :: 0 <= j < i && TimedHome(run, out, j)
  {
    var cs := run.race.crossings;
    var out := ComputeTeamStats(run).crossings;
    OutputMatches(run);
    LatestHomeOutput(run, i);
    assert Fresh(cs[i]);
    ExpectedFreshFields(run, cs, i);
    var h := LastHome(run, cs, i);
    if h != -1 {
      assert TimedHome(run, out, h);
    }
  }

  /** The output crossing at `i` is the expected one. */
  lemma OutputAt(run: TeamRun, i: nat)
    requires Received(run) && i < |run.race.crossings|
    ensures |ComputeTeamStats(run).crossings| == |run.race.crossings|
    ensures ComputeTeamStats(run).crossings[i] == ExpectedCrossing(run, run.race.crossings, i)
  {
    OutputMatches(run);
  }

  /** A latest timed lap-barrier crossing read on the output is the one LastHome names. */
  lemma LatestHomeIsLastHome(run: TeamRun, j: nat, n: nat)
    requires Received(run) && n <= |run.race.crossings|
    requires LatestHome(run, ComputeTeamStats(run).crossings, j, n)
    ensures j == LastHome(run, run.race.crossings, n)
  {
    LatestHomeOutput(run, n);
  }

  /** The number of laps written before position `i` is the number of laps closed there. */
  lemma LapsBefore(run: TeamRun, i: nat)
    requires Received(run) && i <= |run.race.crossings|
    ensures |LapNumbers(ComputeTeamStats(run).crossings[..i])| == LapCount(run, run.race.crossings, i)
  {
    var cs := run.race.crossings;
    PassPrefix(run, cs, i, |cs|);
    LapListsPrefix(run, i);
  }

  /** The checkpoint annotation by position, for a checkpoint crossing as received. */
  lemma CheckpointExpected(run: TeamRun, cs: seq<Crossing>, i: nat)
    requires i < |cs| && Fresh(cs[i]) && CheckpointAt(run, cs, i)
    ensures LastHome(run, cs, i) != -1
    ensures ExpectedCrossing(run, cs, i).checkpoint
         == Some(Checkpoint(LapCount(run, cs, i) + 1, OpenCheckpoints(run, cs, i) + 1,
                            cs[i].time - cs[LastHome(run, cs, i)].time))
  {
    ExpectedFreshFields(run, cs, i);
  }

  /** A checkpoint belongs to the lap after those already closed; its ordinal counts the
      checkpoints since the latest timed lap-barrier crossing `j`, so it restarts at 1
      on every lap, and its time is measured from crossing `j`. */
  lemma CheckpointNumbering(run: TeamRun, i: nat, j: nat)
    requires Received(run) && i < |run.race.crossings|
    requires LatestHome(run, ComputeTeamStats(run).crossings, j, i)
    requires ComputeTeamStats(run).crossings[i].checkpoint.Some?
    ensures var cs := run.race.crossings;
            var out := ComputeTeamStats(run).crossings;
            out[i].checkpoint.value
            == Checkpoint(|LapNumbers(out[..i])| + 1, CheckpointCount(out, j + 1, i) + 1, cs[i].time - cs[j].time)
  {
    var cs := run.race.crossings;
    OutputAt(run, i);
    LatestHomeIsLastHome(run, j, i);
    assert Fresh(cs[i]);
    ExpectedFreshFields(run, cs, i);
    CheckpointExpected(run, cs, i);
    OpenCheckpointsCount(run, i);
    LapsBefore(run, i);
  }
}

=== FILE: race_lifecycle.dfy ===
/** The race rules of backend/main.go: starting, stopping and cancelling a race
    (`setRaceState`) with the server's current-race record and its broadcast message
    (`CurrentRace.MarshalJSON`), creating a race (`createRace`), and changing a crossing
    (`updateCrossing`).

    The database becomes maps from ids to rows; a handler becomes a function from the
    server state to either an error or the next state and the messages it broadcasts.
    Teams are known by their ids. Time (`time.Now()`) is a parameter. */
module RaceLifecycle {
  import opened Common
  import opened Decimal
  import opened Types

  /** A row of the races table. The race type is the client's text, which may be
      empty or unknown; durations are nanoseconds. */
  datatype RaceRow = RaceRow(
    raceType: string,
    state: RaceState,
    round: nat,
    teamAId: nat,
    timeDuration: Option<int>,
    lapsDuration: Option<nat>,
    teamBId: Option<int>,
    updatedAt: int)

  /** A row of the crossings table; `raceId` 0 means no race. `team` is the crossing
      team code, an unsigned number. */
  datatype CrossingRow = CrossingRow(ignored: bool, team: nat, barrierId: nat, raceId: nat)

  datatype Server = Server(
    teams: set<nat>,
    races: map<nat, RaceRow>,
    crossings: map<nat, CrossingRow>,
    current: Option<nat>,
    nextRaceId: nat)

  /** Ids are positive and below the next one handed out, and the current race is
      exactly the running one: there is at most one, and the current-race record names it. */
  ghost predicate Valid(s: Server) {
    && 0 < s.nextRaceId
    && (forall id :: id in s.races ==> 0 < id < s.nextRaceId)
    && (forall id :: id in s.races ==> (s.races[id].state == Running <==> s.current == Some(id)))
    && (s.current.Some? ==> s.current.value in s.races)
  }

  const BAD_REQUEST := 400
  const NOT_FOUND := 404
  const INTERNAL_ERROR := 500

  /** Why a request was refused; the HTTP status goes with it. */
  datatype Reason =
    | RecordNotFound
    | AnotherRaceRunning(currentId: nat)
    | UnsupportedState(state: RaceState)
    | WrongState(expected: RaceState, actual: RaceState)
    | TypeNotSpecified
    | TeamANotSpecified
    | NoTeam(teamId: int)
    | LapsDurationForTimeTrial
    | TimeDurationForHeadToHead
    | TeamBNotSpecified
    | BadTeamValue
    | CrossingNotFound(crossingId: nat)
    | DuplicateRaceId(raceId: nat)

  datatype Error = Error(status: int, reason: Reason)

  /** What the hub is asked to broadcast. */
  datatype Message = CurrentRaceMessage(json: string) | RaceMessage(raceId: nat)

  datatype Outcome = Ok(s: Server, broadcast: seq<Message>) | Err(error: Error)

  /** CurrentRace.MarshalJSON: `{"currentRace":null}` or `{"currentRace":{"id":ID}}`. */
  function CurrentRaceJson(current: Option<nat>): string {
    if current.None? then "{\"currentRace\":null}"
    else "{\"currentRace\":{\"id\":" + FormatInt(current.value) + "}}"
  }

  const CURRENT_PREFIX := "{\"currentRace\":{\"id\":"

  /** How a client reads the current-race message back. */
  function ReadCurrentRace(json: string): Option<Option<nat>> {
    if json == "{\"currentRace\":null}" then Some(None)
    else if |json| < |CURRENT_PREFIX| + 2 || json[..|CURRENT_PREFIX|] != CURRENT_PREFIX
         || json[|json| - 2..] != "}}" then None
    else match ParseInt64(json[|CURRENT_PREFIX|..|json| - 2])
      case Parsed(v) => if v >= 0 then Some(Some(v)) else None
      case ParseFailed(_) => None
  }

  /** The message names the current race, or none, so that a reader gets it back. */
  lemma CurrentRaceJsonRoundTrip(current: Option<nat>)
    requires current.Some? ==> current.value <= MAX_INT64
    ensures ReadCurrentRace(CurrentRaceJson(current)) == Some(current)
  {
    if current.Some? {
      var json := CurrentRaceJson(current);
      var digits := FormatInt(current.value);
      assert json == CURRENT_PREFIX + digits + "}}";
      assert json[..|CURRENT_PREFIX|] == CURRENT_PREFIX;
      assert json[|json| - 2..] == "}}";
      assert json[|CURRENT_PREFIX|..|json| - 2] == digits;
      assert json != "{\"currentRace\":null}" by { assert json[15] == '{' && "{\"currentRace\":null}"[15] == 'n'; }
      ParseFormatInt64(current.value);
    }
  }

  /** The state a target state must be reached from: a start needs a race before
      its start, a stop or a cancel a running one; there is none for other targets. */
  function ExpectedState(target: RaceState): Option<RaceState> {
    match target
    case Running => Some(BeforeStart)
    case Finished => Some(Running)
    case Unfinished => Some(Running)
    case BeforeStart => None
  }

  /** setRaceState: load the race, refuse a start while another race is current and
      any target other than running, finished or unfinished, check the race's state,
      store the new one (gorm's Updates also stamps the row's update time with
      `now`), move the current-race record, then broadcast that record and the race. */
  function SetRaceState(s: Server, id: nat, target: RaceState, now: int): (r: Outcome)
    ensures r.Ok? ==> id in s.races && r.s.races.Keys == s.races.Keys
  {
    if id !in s.races then Err(Error(INTERNAL_ERROR, RecordNotFound))
    else if target == Running && s.current.Some? then Err(Error(BAD_REQUEST, AnotherRaceRunning(s.current.value)))
    else if ExpectedState(target).None? then Err(Error(BAD_REQUEST, UnsupportedState(target)))
    else if s.races[id].state != ExpectedState(target).value then
      Err(Error(BAD_REQUEST, WrongState(ExpectedState(target).value, s.races[id].state)))
    else
      var current := if target == Running then Some(id) else None;
      var s1 := s.(races := s.races[id := s.races[id].(state := target, updatedAt := now)], current := current);
      Ok(s1, [CurrentRaceMessage(CurrentRaceJson(current)), RaceMessage(id)])
  }

  /** A race moves only along before-start -> running -> finished or unfinished: a
      start succeeds exactly when no race is current and the race has not started,
      a stop or a cancel exactly when the race is running, nothing else ever. On
      success only that race's state and update time change (the time becomes `now`,
      so clients see the changed race as newer), the current-race record names the
      started race or is cleared, and the new current-race record and then the race
      are broadcast. */
  lemma SetRaceStateRules(s: Server, id: nat, target: RaceState, now: int)
    ensures var r := SetRaceState(s, id, target, now);
      r.Ok? <==> (id in s.races &&
        ((target == Running && s.current.None? && s.races[id].state == BeforeStart)
         || (IsTerminal(target) && s.races[id].state == Running)))
    ensures var r := SetRaceState(s, id, target, now);
      r.Ok? ==>
        && r.s.races == s.races[id := s.races[id].(state := target, updatedAt := now)]
        && r.s.current == (if target == Running then Some(id) else None)
        && r.s.teams == s.teams && r.s.crossings == s.crossings && r.s.nextRaceId == s.nextRaceId
        && r.broadcast == [CurrentRaceMessage(CurrentRaceJson(r.s.current)), RaceMessage(id)]
    ensures var r := SetRaceState(s, id, target, now);
      r.Err? ==> r.error.status == (if id in s.races then BAD_REQUEST else INTERNAL_ERROR)
  {
  }

  /** Starting, stopping and cancelling keep exactly the running race current. */
  lemma SetRaceStateKeepsValid(s: Server, id: nat, target: RaceState, now: int)
    requires Valid(s)
    ensures SetRaceState(s, id, target, now).Ok? ==> Valid(SetRaceState(s, id, target, now).s)
  {
  }

  /** While a race runs no other can start, and only a running race can be stopped. */
  lemma OneRaceAtATime(s: Server, id: nat, other: nat, now: int)
    requires Valid(s) && id in s.races && s.races[id].state == Running
    ensures SetRaceState(s, other, Running, now).Err?
    ensures other != id && other in s.races ==> SetRaceState(s, other, Finished, now).Err? && SetRaceState(s, other, Unfinished, now).Err?
  {
  }

  /** At startup the current race is the first running race the database returns,
      when there is one with a non-zero id. */
  function LoadCurrent(running: seq<nat>): Option<nat> {
    if |running| > 0 && running[0] != 0 then Some(running[0]) else None
  }

  /** A database with at most one running race starts in a valid state. */
  lemma LoadCurrentValid(teams: set<nat>, races: map<nat, RaceRow>, crossings: map<nat, CrossingRow>, nextRaceId: nat, running: seq<nat>)
    requires 0 < nextRaceId && forall id :: id in races ==> 0 < id < nextRaceId
    requires forall id :: id in running <==> id in races && races[id].state == Running
    requires |running| <= 1
    ensures Valid(Server(teams, races, crossings, LoadCurrent(running), nextRaceId))
  {
  }

  /** The fields of a create-race request, as `c.Bind` fills a Race: `state` is
      whatever the client sent, `id` 0 means none was sent, and `updatedAt` None is
      the zero time. */
  datatype CreateRequest = CreateRequest(
    id: nat,
    updatedAt: Option<int>,
    raceType: string,
    state: RaceState,
    round: nat,
    teamAId: nat,
    timeDuration: Option<int>,
    lapsDuration: Option<nat>,
    teamBId: Option<int>)

  const TIME_TRIAL := "time_trial"
  const HEAD_TO_HEAD := "head_to_head"

  /** Five minutes, in nanoseconds. */
  const DEFAULT_TIME_DURATION := 300 * 1_000_000_000
  const DEFAULT_LAPS_DURATION := 10

  /** The validation of createRace, in its order, and the race it stores. */
  function CheckCreate(s: Server, q: CreateRequest): Result<RaceRow> {
    if q.raceType == "" then Failure(Error(BAD_REQUEST, TypeNotSpecified))
    else if q.teamAId == 0 then Failure(Error(BAD_REQUEST, TeamANotSpecified))
    else if q.teamAId !in s.teams then Failure(Error(BAD_REQUEST, NoTeam(q.teamAId)))
    else if q.raceType == TIME_TRIAL && q.lapsDuration.Some? then Failure(Error(BAD_REQUEST, LapsDurationForTimeTrial))
    else if q.raceType == HEAD_TO_HEAD && q.timeDuration.Some? then Failure(Error(BAD_REQUEST, TimeDurationForHeadToHead))
    else if q.raceType == HEAD_TO_HEAD && (q.teamBId.None? || q.teamBId.value == 0) then Failure(Error(BAD_REQUEST, TeamBNotSpecified))
    else if q.raceType == HEAD_TO_HEAD && (q.teamBId.value < 0 || q.teamBId.value !in s.teams) then Failure(Error(BAD_REQUEST, NoTeam(q.teamBId.value)))
    else
      var timeDuration := if q.raceType == TIME_TRIAL then Some(q.timeDuration.GetOr(DEFAULT_TIME_DURATION)) else q.timeDuration;
      var lapsDuration := if q.raceType == HEAD_TO_HEAD then Some(q.lapsDuration.GetOr(DEFAULT_LAPS_DURATION)) else q.lapsDuration;
      Success(RaceRow(q.raceType, BeforeStart, q.round, q.teamAId, timeDuration, lapsDuration, q.teamBId, 0))
  }

  datatype Result<T> = Success(value: T) | Failure(error: Error)

  /** The id gorm's Create inserts under: the one the client sent, else the next. */
  function CreatedId(s: Server, q: CreateRequest): nat {
    if q.id != 0 then q.id else s.nextRaceId
  }

  /** createRace: the checked race is inserted by gorm's Create. A non-zero id from the
      request is kept, and one already taken violates the primary key, which the
      handler returns as a server error; otherwise the id is the next one and the
      counter moves past the inserted id. A zero update time is stamped with `now`,
      a sent one is kept. */
  function CreateRace(s: Server, q: CreateRequest, now: int): (r: Outcome)
    ensures r.Ok? ==> r.s.current == s.current && r.broadcast == []
  {
    match CheckCreate(s, q)
    case Failure(e) => Err(e)
    case Success(row) =>
      var id := CreatedId(s, q);
      if q.id != 0 && q.id in s.races then Err(Error(INTERNAL_ERROR, DuplicateRaceId(q.id)))
      else
        var next := if id + 1 > s.nextRaceId then id + 1 else s.nextRaceId;
        Ok(s.(races := s.races[id := row.(updatedAt := q.updatedAt.GetOr(now))], nextRaceId := next), [])
  }

  /** The requests createRace's checks let through: a type and an existing team A;
      no lap count for a time trial; no time but an existing non-zero team B for a
      head-to-head race. */
  predicate Acceptable(s: Server, q: CreateRequest) {
    && q.raceType != "" && q.teamAId != 0 && q.teamAId in s.teams
    && (q.raceType == TIME_TRIAL ==> q.lapsDuration.None?)
    && (q.raceType == HEAD_TO_HEAD ==>
          q.timeDuration.None? && q.teamBId.Some? && q.teamBId.value > 0 && q.teamBId.value in s.teams)
  }

  /** A race is created exactly when the checks pass and the request names no id
      that is taken. The new race is stored under the sent id or else the next one,
      and always waits for its start whatever state was asked for; it carries the
      sent update time or else `now`; a time trial without a duration gets five
      minutes and a head-to-head race without a lap count ten laps; all else is
      stored as sent. A failed check is a bad request, a taken id a server error. */
  lemma CreateRaceRules(s: Server, q: CreateRequest, now: int)
    ensures var r := CreateRace(s, q, now);
      r.Ok? <==> Acceptable(s, q) && !(q.id != 0 && q.id in s.races)
    ensures var r := CreateRace(s, q, now);
      r.Ok? ==>
        var id := if q.id != 0 then q.id else s.nextRaceId;
        var row := r.s.races[id];
        && r.s.races == s.races[id := row]
        && r.s.nextRaceId > id && r.s.nextRaceId >= s.nextRaceId
        && row.state == BeforeStart && row.updatedAt == (if q.updatedAt.Some? then q.updatedAt.value else now)
        && row.raceType == q.raceType && row.round == q.round && row.teamAId == q.teamAId && row.teamBId == q.teamBId
        && (q.raceType == TIME_TRIAL ==> row.timeDuration == Some(q.timeDuration.GetOr(DEFAULT_TIME_DURATION)) && row.lapsDuration.None?)
        && (q.raceType == HEAD_TO_HEAD ==> row.lapsDuration == Some(q.lapsDuration.GetOr(DEFAULT_LAPS_DURATION)) && row.timeDuration.None?)
        && (q.raceType != TIME_TRIAL && q.raceType != HEAD_TO_HEAD ==> row.timeDuration == q.timeDuration && row.lapsDuration == q.lapsDuration)
    ensures var r := CreateRace(s, q, now);
      r.Err? ==> r.error.status == (if Acceptable(s, q) then INTERNAL_ERROR else BAD_REQUEST)
  {
  }

  /** Creating a race keeps the server valid: the new race has not started. */
  lemma CreateRaceKeepsValid(s: Server, q: CreateRequest, now: int)
    requires Valid(s)
    ensures CreateRace(s, q, now).Ok? ==> Valid(CreateRace(s, q, now).s)
  {
    if CreateRace(s, q, now).Ok? {
      var s1 := CreateRace(s, q, now).s;
      var id := CreatedId(s, q);
      assert id !in s.races && 0 < id < s1.nextRaceId;
      assert s1.races[id].state == BeforeStart;
    }
  }

  /** updateCrossing: a team code above 2 is refused before the crossing is looked
      up; a missing crossing is not found; otherwise the crossing's `ignored` and team
      are set and its race, if it has one, is marked updated now. */
  function UpdateCrossing(s: Server, id: nat, ignored: bool, team: nat, now: int): (r: Outcome)
    ensures r.Ok? ==> r.s.races.Keys == s.races.Keys && r.s.current == s.current
  {
    if team > 2 then Err(Error(BAD_REQUEST, BadTeamValue))
    else if id !in s.crossings then Err(Error(NOT_FOUND, CrossingNotFound(id)))
    else
      var c := s.crossings[id];
      var crossings := s.crossings[id := c.(ignored := ignored, team := team)];
      var races := if c.raceId != 0 && c.raceId in s.races
                   then s.races[c.raceId := s.races[c.raceId].(updatedAt := now)] else s.races;
      Ok(s.(crossings := crossings, races := races), [RaceMessage(c.raceId)])
  }

  /** A crossing change is refused for a bad team whether or not the crossing exists;
      otherwise it changes that crossing's two fields only, and of the races only the
      crossing's own race's update time; the race is then broadcast. */
  lemma UpdateCrossingRules(s: Server, id: nat, ignored: bool, team: nat, now: int)
    ensures team > 2 ==> UpdateCrossing(s, id, ignored, team, now) == Err(Error(BAD_REQUEST, BadTeamValue))
    ensures team <= 2 && id !in s.crossings ==> UpdateCrossing(s, id, ignored, team, now).Err?
    ensures var r := UpdateCrossing(s, id, ignored, team, now);
      r.Ok? ==>
        && id in s.crossings && team <= 2
        && r.s.crossings == s.crossings[id := s.crossings[id].(ignored := ignored, team := team)]
        && (forall rid :: rid in s.races && rid != s.crossings[id].raceId ==> r.s.races[rid] == s.races[rid])
        && (forall rid :: rid in s.races ==> r.s.races[rid].state == s.races[rid].state)
        && (s.crossings[id].raceId != 0 && s.crossings[id].raceId in s.races ==> r.s.races[s.crossings[id].raceId].updatedAt == now)
        && r.broadcast == [RaceMessage(s.crossings[id].raceId)]
  {
  }

  /** Changing a crossing never touches the race states, so keeps the server valid. */
  lemma UpdateCrossingKeepsValid(s: Server, id: nat, ignored: bool, team: nat, now: int)
    requires Valid(s)
    ensures UpdateCrossing(s, id, ignored, team, now).Ok? ==> Valid(UpdateCrossing(s, id, ignored, team, now).s)
  {
  }
}

=== FILE: retry_policy.dfy ===
/** The retry policies of frontend/app/helpers/retry-policy.ts.

    A policy maps the number of the retry about to happen (1 for the first retry) to
    the delay in milliseconds before it, or to "abort" (`undefined`, here None).
    `maxRetries` is -1 for unlimited retries, otherwise the number of retries allowed. */
module RetryPolicy {
  import opened Common

  datatype Policy =
    | NoRetry
    | ConstantRetry(maxRetries: int, delay: int)
    | LinearRetry(maxRetries: int, delay: int)

  /** The retry `attempt` is still within the policy's budget. */
  predicate Allowed(maxRetries: int, attempt: int) {
    maxRetries == -1 || attempt <= maxRetries
  }

  /** The delay before retry `attempt`, or None to abort. */
  function Delay(p: Policy, attempt: int): (r: Option<int>)
    ensures p.NoRetry? ==> r.None?
    ensures !p.NoRetry? ==> (r.Some? <==> Allowed(p.maxRetries, attempt))
  {
    match p
    case NoRetry => None
    case ConstantRetry(maxRetries, delay) => if Allowed(maxRetries, attempt) then Some(delay) else None
    case LinearRetry(maxRetries, delay) => if Allowed(maxRetries, attempt) then Some(attempt * delay) else None
  }

  /** A policy with no retries allowed behaves as noRetryPolicy on every retry. */
  lemma ZeroRetriesIsNoRetry(delay: int, attempt: int)
    requires attempt >= 1
    ensures Delay(ConstantRetry(0, delay), attempt) == Delay(NoRetry, attempt)
    ensures Delay(LinearRetry(0, delay), attempt) == Delay(NoRetry, attempt)
  {
  }

  /** With unlimited retries the constant policy always waits `delay`, and the linear one
      `attempt` times `delay`. */
  lemma UnlimitedNeverAborts(delay: int, attempt: int)
    ensures Delay(ConstantRetry(-1, delay), attempt) == Some(delay)
    ensures Delay(LinearRetry(-1, delay), attempt) == Some(attempt * delay)
  {
  }

  /** Once a policy aborts it aborts for every later retry. */
  lemma AbortIsFinal(p: Policy, n: int, m: int)
    requires n <= m && Delay(p, n).None?
    ensures Delay(p, m).None?
  {
  }

  /** With a non-negative delay every delay given for a real retry is non-negative. */
  lemma DelaysNonNegative(p: Policy, attempt: int)
    requires attempt >= 1 && (p.NoRetry? || p.delay >= 0)
    requires Delay(p, attempt).Some?
    ensures Delay(p, attempt).value >= 0
  {
  }

  /** Linear delays grow with the attempt number. */
  lemma LinearNonDecreasing(maxRetries: int, delay: int, a: int, b: int)
    requires 1 <= a <= b && delay >= 0
    requires Delay(LinearRetry(maxRetries, delay), b).Some?
    ensures Delay(LinearRetry(maxRetries, delay), a).Some?
    ensures Delay(LinearRetry(maxRetries, delay), a).value <= Delay(LinearRetry(maxRetries, delay), b).value
  {
    assert a * delay <= b * delay by {
      assert (b - a) * delay >= 0;
    }
  }

  /** Number of the retries 1 .. n the policy allows. */
  function RetriesAllowed(p: Policy, n: nat): nat {
    if n == 0 then 0 else RetriesAllowed(p, n - 1) + (if Delay(p, n).Some? then 1 else 0)
  }

  /** Out of the first `n` retries, a policy with `maxRetries` = k >= 0 allows exactly
      min(n, k), an unlimited one all of them, noRetryPolicy none. */
  lemma {:induction false} RetryBudget(p: Policy, n: nat)
    requires !p.NoRetry? ==> p.maxRetries >= -1
    ensures p.NoRetry? ==> RetriesAllowed(p, n) == 0
    ensures !p.NoRetry? && p.maxRetries == -1 ==> RetriesAllowed(p, n) == n
    ensures !p.NoRetry? && p.maxRetries >= 0 ==>
      RetriesAllowed(p, n) == if n <= p.maxRetries then n else p.maxRetries
  {
    if n > 0 {
      RetryBudget(p, n - 1);
    }
  }
}

=== FILE: settings.dfy ===
/** The server and token settings of frontend/app/views/SettingsPage.tsx: how the
    entered REST url, WebSocket url and auth token become stored values. A stored
    value of None is an unset (`undefined`) store entry. */
module Settings {
  import opened Common

  /** normalizeRestUrl: drop one trailing slash. */
  function NormalizeRestUrl(url: string): (r: string)
    ensures |url| > 0 && url[|url| - 1] == '/' ==> r + "/" == url
    ensures !(|url| > 0 && url[|url| - 1] == '/') ==> r == url
  {
    if |url| > 0 && url[|url| - 1] == '/' then url[..|url| - 1] else url
  }

  /** The result is the url or the url short of its last character, so it is always
      a prefix; it ends in a slash only when the url ended in two. */
  lemma NormalizeRestUrlPrefix(url: string)
    ensures NormalizeRestUrl(url) <= url
    ensures |url| - |NormalizeRestUrl(url)| in {0, 1}
    ensures var r := NormalizeRestUrl(url);
      (|r| > 0 && r[|r| - 1] == '/') <==> (|url| >= 2 && url[|url| - 1] == '/' && url[|url| - 2] == '/')
  {
  }

  const LOCAL_REST_URL := "http://localhost:4110"
  const LOCAL_WS_URL := "ws://localhost:4110/ws"
  const PRODUCTION_REST_URL := "https://f1tenth-scoreapp.iid.ciirc.cvut.cz"
  const PRODUCTION_WS_URL := "wss://f1tenth-scoreapp.iid.ciirc.cvut.cz/ws"

  /** The documented example, and the presets, which are already normalised. */
  lemma NormalizeExamples()
    ensures NormalizeRestUrl("http://localhost:4110/") == LOCAL_REST_URL
    ensures NormalizeRestUrl(LOCAL_REST_URL) == LOCAL_REST_URL
    ensures NormalizeRestUrl(PRODUCTION_REST_URL) == PRODUCTION_REST_URL
  {
    assert "http://localhost:4110/"[..|"http://localhost:4110/"| - 1] == LOCAL_REST_URL;
  }

  /** handleAuthTokenChange: an empty input unsets the token, anything else is stored
      as typed. */
  function AuthTokenInput(text: string): (r: Option<string>)
    ensures r.None? <==> text == ""
    ensures r.Some? ==> r.value == text
  {
    if text == "" then None else Some(text)
  }

  /** The token field's text: the stored token, or empty while none is stored. */
  function AuthTokenShown(stored: Option<string>): string {
    stored.GetOr("")
  }

  /** The field and the store agree: what is typed is shown back as typed, the
      store never holds an empty token, and a stored token survives being shown and
      entered again. */
  lemma AuthTokenRoundTrip(text: string, stored: Option<string>)
    ensures AuthTokenShown(AuthTokenInput(text)) == text
    ensures AuthTokenInput(text) != Some("")
    ensures stored != Some("") ==> AuthTokenInput(AuthTokenShown(stored)) == stored
  {
  }

  datatype ServerUrls = ServerUrls(restUrl: string, webSocketUrl: string)

  /** handleChangeServerUrls: the REST url is normalised, the WebSocket url is stored
      as entered. */
  function ChangeServerUrls(entered: ServerUrls): (r: ServerUrls)
    ensures r.webSocketUrl == entered.webSocketUrl
    ensures r.restUrl == NormalizeRestUrl(entered.restUrl)
  {
    ServerUrls(NormalizeRestUrl(entered.restUrl), entered.webSocketUrl)
  }

  /** Saving urls that have been saved before stores them unchanged, unless the REST
      url ends in two slashes. */
  lemma SavingAgainKeepsUrls(entered: ServerUrls)
    requires !(|entered.restUrl| >= 2 && entered.restUrl[|entered.restUrl| - 1] == '/' && entered.restUrl[|entered.restUrl| - 2] == '/')
    ensures ChangeServerUrls(ChangeServerUrls(entered)) == ChangeServerUrls(entered)
  {
    NormalizeRestUrlPrefix(entered.restUrl);
  }
}

=== FILE: smart_map.dfy ===
/** SmartMap of frontend/app/helpers/maps.ts: a map that creates a missing entry on
    `get` and removes an entry on `safeDelete` only when a given predicate allows it.
    The mutable class becomes a value; every operation returns the updated map. */
module SmartMap {
  import opened Common

  /** KeyValueCreator: a function of the key, or a plain value. */
  datatype Creator<!K, V> = FromKey(f: K -> V) | Value(v: V)

  /** SmartMap.resolveValue. */
  function ResolveValue<K, V>(c: Creator<K, V>, key: K): V {
    match c
    case FromKey(f) => f(key)
    case Value(v) => v
  }

  datatype SmartMap<!K(==), !V> = SmartMap(
    store: map<K, V>,
    canDelete: (K, V) -> bool,
    fallback: Creator<K, V>)

  function Empty<K(==), V>(canDelete: (K, V) -> bool, fallback: Creator<K, V>): (m: SmartMap<K, V>)
    ensures m.store == map[]
  {
    SmartMap(map[], canDelete, fallback)
  }

  predicate Has<K(==), V>(m: SmartMap<K, V>, key: K) {
    key in m.store
  }

  datatype Got<!K(==), !V> = Got(map': SmartMap<K, V>, value: V)

  /** SmartMap.get: the stored value, or a value made by the given creator (the map's
      fallback when none is given) and stored under the key. */
  function Get<K(==), V>(m: SmartMap<K, V>, key: K, creator: Option<Creator<K, V>>): (r: Got<K, V>)
    ensures Has(r.map', key) && r.map'.store[key] == r.value
    ensures r.map'.canDelete == m.canDelete && r.map'.fallback == m.fallback
  {
    if key in m.store then Got(m, m.store[key])
    else
      var v := ResolveValue(creator.GetOr(m.fallback), key);
      Got(m.(store := m.store[key := v]), v)
  }

  datatype Deleted<!K(==), !V> = Deleted(map': SmartMap<K, V>, removed: bool)

  /** SmartMap.safeDelete: removes a present key when the predicate holds on its entry,
      and says whether it did. */
  function SafeDelete<K(==), V>(m: SmartMap<K, V>, key: K): (r: Deleted<K, V>)
    ensures r.map'.canDelete == m.canDelete && r.map'.fallback == m.fallback
  {
    if key !in m.store then Deleted(m, false)
    else if m.canDelete(key, m.store[key]) then Deleted(m.(store := m.store - {key}), true)
    else Deleted(m, false)
  }

  /** `get` on a present key returns what is stored and changes nothing. */
  lemma GetPresent<K, V>(m: SmartMap<K, V>, key: K, creator: Option<Creator<K, V>>)
    requires Has(m, key)
    ensures Get(m, key, creator).value == m.store[key]
    ensures Get(m, key, creator).map'.store == m.store
  {
  }

  /** `get` on a missing key stores the created value, the per-call creator taking
      precedence over the fallback, and adds no other key. */
  lemma GetMissing<K, V>(m: SmartMap<K, V>, key: K, creator: Option<Creator<K, V>>)
    requires !Has(m, key)
    ensures Get(m, key, creator).value
         == if creator.Some? then ResolveValue(creator.value, key) else ResolveValue(m.fallback, key)
    ensures Get(m, key, creator).map'.store.Keys == m.store.Keys + {key}
    ensures forall k :: k in m.store ==> Get(m, key, creator).map'.store[k] == m.store[k]
  {
  }

  /** A second `get` of the same key returns the same value and changes nothing more. */
  lemma GetIdempotent<K, V>(m: SmartMap<K, V>, key: K, c1: Option<Creator<K, V>>, c2: Option<Creator<K, V>>)
    ensures var g := Get(m, key, c1);
            Get(g.map', key, c2) == Got(g.map', g.value)
  {
  }

  /** `safeDelete` removes the key exactly when it is present and the predicate allows
      it, says so, and leaves every other entry as it was. */
  lemma SafeDeleteSpec<K, V>(m: SmartMap<K, V>, key: K)
    ensures var r := SafeDelete(m, key);
            && (r.removed <==> Has(m, key) && m.canDelete(key, m.store[key]))
            && (r.removed ==> !Has(r.map', key))
            && (!r.removed ==> r.map'.store == m.store)
            && (forall k :: k != key ==> (k in r.map'.store <==> k in m.store))
            && (forall k :: k != key && k in m.store ==> r.map'.store[k] == m.store[k])
  {
  }

  /** Creating an entry with `get` and deleting it when the predicate allows gives the
      map back. */
  lemma GetThenSafeDelete<K, V>(m: SmartMap<K, V>, key: K, creator: Option<Creator<K, V>>)
    requires !Has(m, key)
    requires var g := Get(m, key, creator); m.canDelete(key, g.value)
    ensures SafeDelete(Get(m, key, creator).map', key).map'.store == m.store
  {
    var g := Get(m, key, creator);
    assert g.map'.store - {key} == m.store;
  }
}

=== FILE: store.dfy ===
/** The app-state Store of frontend/app/store/Store.ts: a map from paths to values,
    persisted to local storage under a key together with a version string, with
    change listeners per path.

    The class becomes a value; local storage is a map from storage keys to what is
    stored, and JSON text is abstracted to what it parses to (values are taken to
    survive the JSON round trip). JavaScript's `undefined` is None. Listeners are
    opaque numbers; calling them becomes a `Notified` effect. */
module Store {
  import opened Common
  import opened SmartMap
  import opened Listeners

  type Path = string

  /** What a storage entry holds: text that is not JSON, or a JSON value whose `v`
      and `d` members may be missing. */
  datatype Stored<V> = NotJson | Json(v: Option<string>, d: Option<map<Path, V>>)

  datatype Store<V> = Store(
    storageKey: string,
    version: string,
    data: map<Path, V>,
    listeners: Registry<Path>,
    storage: map<string, Stored<V>>)

  datatype Effect<V> = Notified(listeners: set<nat>, path: Path, value: Option<V>)

  datatype Step<V> = Step(s: Store<V>, effects: seq<Effect<V>>)

  const DEFAULT_STORAGE_KEY := "state"
  const DEFAULT_VERSION := "0.0.0"

  ghost predicate Valid<V>(s: Store<V>) {
    Prunes(s.listeners) && NoEmptySets(s.listeners)
  }

  /** `get`: the value at a path, None when absent. */
  function Lookup<V>(data: map<Path, V>, path: Path): Option<V> {
    if path in data then Some(data[path]) else None
  }

  /** loadData: the stored map when the entry exists, is JSON, has a `d` member and
      a `v` member equal to the version. */
  function LoadData<V>(storage: map<string, Stored<V>>, storageKey: string, version: string): (r: Option<map<Path, V>>)
    ensures r.Some? <==>
      && storageKey in storage
      && storage[storageKey].Json?
      && storage[storageKey].d.Some?
      && storage[storageKey].v == Some(version)
    ensures r.Some? ==> r.value == storage[storageKey].d.value
  {
    if storageKey !in storage then None
    else match storage[storageKey]
      case NotJson => None
      case Json(v, d) =>
        if d.None? then None
        else if v != Some(version) then None
        else Some(d.value)
  }

  /** saveData: writes `{v: version, d: data}` under the storage key. */
  function SaveData<V>(s: Store<V>): (r: Store<V>)
    ensures r.data == s.data && r.listeners == s.listeners
    ensures r.storage.Keys == s.storage.Keys + {s.storageKey}
    ensures forall k :: k in s.storage && k != s.storageKey ==> r.storage[k] == s.storage[k]
  {
    s.(storage := s.storage[s.storageKey := Json(Some(s.version), Some(s.data))])
  }

  /** The constructor, with the defaults for missing options: data loaded from storage
      when possible, otherwise the initial data, which is then saved. */
  function Create<V>(storageKey: Option<string>, version: Option<string>, onInitData: Option<map<Path, V>>,
                     storage: map<string, Stored<V>>): (r: Store<V>)
    ensures Valid(r) && r.listeners.store == map[]
    ensures r.storageKey == storageKey.GetOr(DEFAULT_STORAGE_KEY)
    ensures r.version == version.GetOr(DEFAULT_VERSION)
  {
    var key := storageKey.GetOr(DEFAULT_STORAGE_KEY);
    var ver := version.GetOr(DEFAULT_VERSION);
    var loaded := LoadData(storage, key, ver);
    var s := Store(key, ver, map[], NewRegistry(), storage);
    if loaded.None? then SaveData(s.(data := onInitData.GetOr(map[])))
    else s.(data := loaded.value)
  }

  /** notify: the path's listeners, when it has an entry; reading the entry never
      creates one. */
  function Notify<V>(s: Store<V>, path: Path, value: Option<V>): seq<Effect<V>> {
    if !Has(s.listeners, path) then []
    else [Notified(Get(s.listeners, path, None).value, path, value)]
  }

  /** update: `undefined` deletes a present path; any other value different from the
      current one is stored. Each change is saved and then announced. When the next
      value is `undefined` and the path is absent, `data.get(path) !== nextValue` is
      false, so the second branch only ever stores a defined value. */
  function Update<V(==)>(s: Store<V>, path: Path, next: Option<V>): (r: Step<V>)
    ensures r.s.storageKey == s.storageKey && r.s.version == s.version && r.s.listeners == s.listeners
  {
    if next.None? && path in s.data then
      var s1 := SaveData(s.(data := s.data - {path}));
      Step(s1, Notify(s1, path, None))
    else if Lookup(s.data, path) != next then
      var s1 := SaveData(s.(data := s.data[path := next.value]));
      Step(s1, Notify(s1, path, next))
    else Step(s, [])
  }

  function Listen<V>(s: Store<V>, path: Path, h: nat): Store<V> {
    s.(listeners := Subscribe(s.listeners, path, h))
  }

  function Unlisten<V>(s: Store<V>, path: Path, h: nat): Store<V> {
    s.(listeners := Unsubscribe(s.listeners, path, h))
  }

  /** What was saved loads back: the stored data under the same key and version. */
  lemma SaveLoadRoundTrip<V>(s: Store<V>)
    ensures LoadData(SaveData(s).storage, s.storageKey, s.version) == Some(s.data)
  {
  }

  /** A store is created from the saved state when one with its version is stored, and
      from the initial data (saved at once) otherwise. */
  lemma CreateLoadsOrInitialises<V>(storageKey: Option<string>, version: Option<string>,
                                    onInitData: Option<map<Path, V>>, storage: map<string, Stored<V>>)
    ensures var r := Create(storageKey, version, onInitData, storage);
      var loaded := LoadData(storage, r.storageKey, r.version);
      && (loaded.Some? ==> r.data == loaded.value && r.storage == storage)
      && (loaded.None? ==> r.data == onInitData.GetOr(map[]))
      && LoadData(r.storage, r.storageKey, r.version) == Some(r.data)
  {
  }

  /** After an update the path holds the next value and every other path is as it was;
      when the value changed it is saved and the path's listeners, if any, are told,
      and otherwise nothing happens at all. */
  lemma UpdateSpec<V>(s: Store<V>, path: Path, next: Option<V>)
    ensures var r := Update(s, path, next);
      && Lookup(r.s.data, path) == next
      && (forall p :: p != path ==> Lookup(r.s.data, p) == Lookup(s.data, p))
      && (Lookup(s.data, path) == next ==> r == Step(s, []))
      && (Lookup(s.data, path) != next ==>
            && LoadData(r.s.storage, s.storageKey, s.version) == Some(r.s.data)
            && r.effects == if path in s.listeners.store
                            then [Notified(s.listeners.store[path], path, next)] else [])
  {
  }

  /** Updating twice with the same value changes nothing the second time. */
  lemma UpdateIdempotent<V>(s: Store<V>, path: Path, next: Option<V>)
    ensures var r := Update(s, path, next);
            Update(r.s, path, next) == Step(r.s, [])
  {
    UpdateSpec(s, path, next);
    UpdateSpec(Update(s, path, next).s, path, next);
  }

  /** Listening and then unsubscribing gives the listener registry back. */
  lemma ListenRoundTrip<V>(s: Store<V>, path: Path, h: nat)
    requires Valid(s) && h !in ListenersOf(s.listeners, path)
    ensures Unlisten(Listen(s, path, h), path, h).listeners.store == s.listeners.store
    ensures Valid(Listen(s, path, h)) && Valid(Unlisten(s, path, h))
  {
    SubscribeThenUnsubscribe(s.listeners, path, h);
    SubscribeAdds(s.listeners, path, h);
    UnsubscribeRemoves(s.listeners, path, h);
  }
}

=== FILE: trial_engine.dfy ===
/** The single-barrier lap engine of frontend/app/helpers/trials.ts (`computeStats`).

    Every crossing that is not ignored counts: the first one starts the trial, and each
    later one closes a lap measured from the previous one. As for races, the in-place
    annotation becomes a returned sequence, and the pass is proved to compute position
    definitions stated without the accumulator. */
module TrialEngine {
  import opened Common
  import opened Types
  import opened Laps

  /** TrialStats, with `enhancedCrossings` the annotated crossings. */
  datatype TrialStats = TrialStats(
    startTime: int,
    stopTime: int,
    numLaps: int,
    bestLapTime: int,
    bestLapCrossingId: int,
    currentLapStartTime: int,
    enhancedCrossings: seq<Crossing>)

  /** The local variables of the pass. */
  datatype Acc = Acc(
    startTime: int,
    numLaps: int,
    bestLapTime: int,
    currentLapStartTime: int,
    last: int,
    bestLapCrossingId: int)

  const Init: Acc := Acc(-1, 0, MAX_SAFE_INTEGER, -1, -1, -1)

  datatype Visited = Visited(acc: Acc, crossing: Crossing)

  /** The body of the `forEach` callback. */
  function Visit(a: Acc, c: Crossing): Visited {
    if c.ignored then Visited(a, c)
    else
      var s := if a.startTime == -1 then Visited(a.(startTime := c.time), c.(start := true)) else Visited(a, c);
      var l := if s.acc.last != -1 then CloseLap(s.acc, s.crossing) else s;
      Visited(l.acc.(last := c.time), l.crossing)
  }

  function CloseLap(a: Acc, c: Crossing): Visited {
    var diff := c.time - a.last;
    var n := a.numLaps + 1;
    var better := diff < a.bestLapTime;
    Visited(
      a.(numLaps := n,
         currentLapStartTime := c.time,
         bestLapTime := if better then diff else a.bestLapTime,
         bestLapCrossingId := if better then c.id else a.bestLapCrossingId),
      c.(lap := Some(Lap(n, diff))))
  }

  datatype Passed = Passed(acc: Acc, crossings: seq<Crossing>)

  function Pass(cs: seq<Crossing>, n: nat): (r: Passed)
    requires n <= |cs|
    ensures |r.crossings| == n
  {
    if n == 0 then Passed(Init, [])
    else
      var p := Pass(cs, n - 1);
      var v := Visit(p.acc, cs[n - 1]);
      Passed(v.acc, p.crossings + [v.crossing])
  }

  /** computeStats: the pass, then the stop time of a stopped trial and the "no lap"
      sentinel. */
  function ComputeStats(trial: Trial): TrialStats {
    var p := Pass(trial.crossings, |trial.crossings|);
    var a := p.acc;
    TrialStats(
      a.startTime,
      if a.last != -1 && IsTerminal(trial.state) then a.last else -1,
      a.numLaps,
      if a.bestLapTime == MAX_SAFE_INTEGER then -1 else a.bestLapTime,
      a.bestLapCrossingId,
      a.currentLapStartTime,
      p.crossings)
  }

  // ---------------------------------------------------------------------------
  // What the crossings mean, by position
  // ---------------------------------------------------------------------------

  /** Index of the first crossing among the first `n` that is not ignored, or -1. */
  function FirstIndex(cs: seq<Crossing>, n: nat): (s: int)
    requires n <= |cs|
    ensures -1 <= s < n
  {
    if n == 0 then -1
    else
      var p := FirstIndex(cs, n - 1);
      if p != -1 then p else if !cs[n - 1].ignored then n - 1 else -1
  }

  /** Index of the last crossing among the first `n` that is not ignored, or -1. */
  function PrevIndex(cs: seq<Crossing>, n: nat): (h: int)
    requires n <= |cs|
    ensures -1 <= h < n
  {
    if n == 0 then -1
    else if !cs[n - 1].ignored then n - 1
    else PrevIndex(cs, n - 1)
  }

  function PrevTime(cs: seq<Crossing>, n: nat): int
    requires n <= |cs|
  {
    var h := PrevIndex(cs, n);
    if h == -1 then -1 else cs[h].time
  }

  /** Crossing `i` closes a lap: it is not ignored and some earlier one is not either. */
  predicate LapAt(cs: seq<Crossing>, i: nat)
    requires i < |cs|
  {
    !cs[i].ignored && PrevIndex(cs, i) != -1
  }

  function LapCount(cs: seq<Crossing>, n: nat): nat
    requires n <= |cs|
  {
    if n == 0 then 0 else LapCount(cs, n - 1) + (if LapAt(cs, n - 1) then 1 else 0)
  }

  function LapDurations(cs: seq<Crossing>, n: nat): (d: seq<int>)
    requires n <= |cs|
    ensures |d| == LapCount(cs, n)
  {
    if n == 0 then []
    else LapDurations(cs, n - 1) + (if LapAt(cs, n - 1) then [cs[n - 1].time - PrevTime(cs, n - 1)] else [])
  }

  function LapCrossingIds(cs: seq<Crossing>, n: nat): (d: seq<int>)
    requires n <= |cs|
    ensures |d| == LapCount(cs, n)
  {
    if n == 0 then []
    else LapCrossingIds(cs, n - 1) + (if LapAt(cs, n - 1) then [cs[n - 1].id] else [])
  }

  /** The accumulator the pass must hold after the first `n` crossings. */
  function Expected(cs: seq<Crossing>, n: nat): Acc
    requires n <= |cs|
  {
    var s := FirstIndex(cs, n);
    Acc(
      if s == -1 then -1 else cs[s].time,
      LapCount(cs, n),
      BestOf(LapDurations(cs, n)),
      if LapCount(cs, n) == 0 then -1 else PrevTime(cs, n),
      PrevTime(cs, n),
      BestIdOf(LapDurations(cs, n), LapCrossingIds(cs, n)))
  }

  function ExpectedCrossing(cs: seq<Crossing>, i: nat): Crossing
    requires i < |cs|
  {
    var c := cs[i];
    c.(start := c.start || FirstIndex(cs, i + 1) == i,
       lap := if LapAt(cs, i) then Some(Lap(LapCount(cs, i + 1), cs[i].time - PrevTime(cs, i))) else c.lap)
  }

  // ---------------------------------------------------------------------------
  // The fold computes the meaning
  // ---------------------------------------------------------------------------

  /** Before the first counted crossing there is no previous one and no lap. */
  lemma {:induction false} FirstAndPrev(cs: seq<Crossing>, n: nat)
    requires n <= |cs|
    ensures (FirstIndex(cs, n) == -1) == (PrevIndex(cs, n) == -1)
    ensures PrevIndex(cs, n) == -1 ==> LapCount(cs, n) == 0
  {
    if n > 0 {
      FirstAndPrev(cs, n - 1);
    }
  }

  predicate StepOk(cs: seq<Crossing>, i: nat)
    requires i < |cs|
  {
    Visit(Expected(cs, i), cs[i]) == Visited(Expected(cs, i + 1), ExpectedCrossing(cs, i))
  }

  lemma VisitFirst(cs: seq<Crossing>, i: nat)
    requires i < |cs| && !cs[i].ignored && PrevIndex(cs, i) == -1
    ensures StepOk(cs, i)
  {
    FirstAndPrev(cs, i);
    assert FirstIndex(cs, i + 1) == i && PrevIndex(cs, i + 1) == i;
    assert LapDurations(cs, i + 1) == LapDurations(cs, i) == [];
    assert LapCrossingIds(cs, i + 1) == LapCrossingIds(cs, i) == [];
  }

  /** The accumulator after a lap closed by `c`, when `durations` and `ids` are the laps
      closed before it. */
  function AfterLap(a: Acc, c: Crossing, durations: seq<int>, ids: seq<int>): Acc
    requires |durations| == |ids|
  {
    var d := c.time - a.last;
    a.(numLaps := a.numLaps + 1,
       currentLapStartTime := c.time,
       last := c.time,
       bestLapTime := BestOf(durations + [d]),
       bestLapCrossingId := BestIdOf(durations + [d], ids + [c.id]))
  }

  lemma LapExpected(cs: seq<Crossing>, i: nat)
    requires i < |cs| && LapAt(cs, i)
    ensures Expected(cs, i + 1) == AfterLap(Expected(cs, i), cs[i], LapDurations(cs, i), LapCrossingIds(cs, i))
  {
    FirstAndPrev(cs, i);
    assert PrevIndex(cs, i + 1) == i;
    assert FirstIndex(cs, i + 1) == FirstIndex(cs, i);
  }

  lemma VisitLapAbstract(a: Acc, c: Crossing, durations: seq<int>, ids: seq<int>)
    requires !c.ignored && a.startTime != -1 && 0 <= a.last && c.time < MAX_SAFE_INTEGER
    requires |durations| == |ids|
    requires a.bestLapTime == BestOf(durations) && a.bestLapCrossingId == BestIdOf(durations, ids)
    ensures Visit(a, c).acc == AfterLap(a, c, durations, ids)
    ensures Visit(a, c).crossing == c.(lap := Some(Lap(a.numLaps + 1, c.time - a.last)))
  {
    BestLapStep(durations, ids, c.time - a.last, c.id);
  }

  lemma VisitLap(cs: seq<Crossing>, i: nat)
    requires i < |cs| && ValidTimes(cs) && LapAt(cs, i)
    ensures StepOk(cs, i)
  {
    FirstAndPrev(cs, i);
    var a := Expected(cs, i);
    var s := FirstIndex(cs, i);
    assert a.startTime == cs[s].time >= 0;
    assert a.last == cs[PrevIndex(cs, i)].time >= 0;
    VisitLapAbstract(a, cs[i], LapDurations(cs, i), LapCrossingIds(cs, i));
    LapExpected(cs, i);
    assert FirstIndex(cs, i + 1) == s;
  }

  lemma VisitStep(cs: seq<Crossing>, i: nat)
    requires i < |cs| && ValidTimes(cs)
    ensures StepOk(cs, i)
  {
    if cs[i].ignored {
      assert LapDurations(cs, i + 1) == LapDurations(cs, i);
      assert LapCrossingIds(cs, i + 1) == LapCrossingIds(cs, i);
    } else if PrevIndex(cs, i) == -1 {
      VisitFirst(cs, i);
    } else {
      VisitLap(cs, i);
    }
  }

  /** The pass computes, after every prefix, the accumulator and annotations defined by
      position. */
  lemma {:induction false} PassMatches(cs: seq<Crossing>, n: nat)
    requires n <= |cs| && ValidTimes(cs)
    ensures Pass(cs, n).acc == Expected(cs, n)
    ensures forall i :: 0 <= i < n ==> Pass(cs, n).crossings[i] == ExpectedCrossing(cs, i)
  {
    if n > 0 {
      PassMatches(cs, n - 1);
      VisitStep(cs, n - 1);
    }
  }

  // ---------------------------------------------------------------------------
  // The promises, on the output
  // ---------------------------------------------------------------------------

  /** Position `i` holds the first crossing that is not ignored. */
  predicate FirstCounted(cs: seq<Crossing>, i: nat)
    requires i < |cs|
  {
    !cs[i].ignored && forall j :: 0 <= j < i ==> cs[j].ignored
  }

  /** `j` is the latest crossing before position `n` that is not ignored. */
  predicate LatestCounted(cs: seq<Crossing>, j: int, n: nat)
    requires n <= |cs|
  {
    0 <= j < n && !cs[j].ignored && forall k :: j < k < n ==> cs[k].ignored
  }

  /** Number of crossings among the first `n` that are not ignored. */
  function CountedNumber(cs: seq<Crossing>, n: nat): nat
    requires n <= |cs|
  {
    if n == 0 then 0 else CountedNumber(cs, n - 1) + (if cs[n - 1].ignored then 0 else 1)
  }

  lemma {:induction false} FirstIndexIsFirst(cs: seq<Crossing>, n: nat)
    requires n <= |cs|
    ensures FirstIndex(cs, n) == -1 <==> forall j :: 0 <= j < n ==> cs[j].ignored
    ensures FirstIndex(cs, n) != -1 ==> FirstCounted(cs, FirstIndex(cs, n))
  {
    if n > 0 {
      FirstIndexIsFirst(cs, n - 1);
    }
  }

  lemma FirstIndexAt(cs: seq<Crossing>, s: nat, n: nat)
    requires s < |cs| && n <= |cs| && FirstCounted(cs, s)
    ensures FirstIndex(cs, n) == if s < n then s else -1
  {
    FirstIndexIsFirst(cs, n);
    var t := FirstIndex(cs, n);
    if s < n {
      assert t != -1;
      assert !(t < s) && !(s < t);
    }
  }

  lemma {:induction false} PrevIndexIsLatest(cs: seq<Crossing>, n: nat)
    requires n <= |cs|
    ensures PrevIndex(cs, n) == -1 <==> forall j :: 0 <= j < n ==> cs[j].ignored
    ensures PrevIndex(cs, n) != -1 ==> LatestCounted(cs, PrevIndex(cs, n), n)
    ensures forall j :: LatestCounted(cs, j, n) ==> j == PrevIndex(cs, n)
  {
    if n > 0 {
      PrevIndexIsLatest(cs, n - 1);
    }
  }

  /** Every counted crossing after the first closes a lap. */
  lemma {:induction false} LapCountIsCountedLessOne(cs: seq<Crossing>, n: nat)
    requires n <= |cs|
    ensures LapCount(cs, n) == if CountedNumber(cs, n) == 0 then 0 else CountedNumber(cs, n) - 1
    ensures (CountedNumber(cs, n) == 0) == (PrevIndex(cs, n) == -1)
  {
    if n > 0 {
      LapCountIsCountedLessOne(cs, n - 1);
    }
  }

  /** The output is the input, in the same order, with derived fields written only on
      crossings that are not ignored. */
  lemma {:induction false} PassAnnotatesOnly(cs: seq<Crossing>, n: nat)
    requires n <= |cs|
    ensures forall i :: 0 <= i < n ==> SameRecorded(Pass(cs, n).crossings[i], cs[i])
    ensures forall i :: 0 <= i < n && cs[i].ignored ==> Pass(cs, n).crossings[i] == cs[i]
  {
    if n > 0 {
      PassAnnotatesOnly(cs, n - 1);
    }
  }

  lemma AnnotatesOnly(trial: Trial)
    ensures var out := ComputeStats(trial).enhancedCrossings;
            && |out| == |trial.crossings|
            && (forall i :: 0 <= i < |out| ==> SameRecorded(out[i], trial.crossings[i]))
            && (forall i :: 0 <= i < |out| && trial.crossings[i].ignored ==> out[i] == trial.crossings[i])
  {
    PassAnnotatesOnly(trial.crossings, |trial.crossings|);
  }

  /** Only the first crossing that is not ignored is marked as the start; the start time
      is its time, or -1 when every crossing is ignored. */
  lemma StartIsFirstCounted(trial: Trial)
    requires ValidTimes(trial.crossings)
    ensures var cs := trial.crossings;
            var r := ComputeStats(trial);
            && (forall i :: 0 <= i < |cs| ==> (r.enhancedCrossings[i].start <==> cs[i].start || FirstCounted(cs, i)))
            && (r.startTime == -1 <==> forall j :: 0 <= j < |cs| ==> cs[j].ignored)
            && (forall i :: 0 <= i < |cs| && FirstCounted(cs, i) ==> r.startTime == cs[i].time)
  {
    var cs := trial.crossings;
    PassMatches(cs, |cs|);
    FirstIndexIsFirst(cs, |cs|);
    forall n | 1 <= n <= |cs|
      ensures FirstIndex(cs, n) == n - 1 <==> FirstCounted(cs, n - 1)
    {
      FirstIndexIsFirst(cs, n);
      if FirstCounted(cs, n - 1) {
        FirstIndexAt(cs, n - 1, n);
      }
    }
    forall i | 0 <= i < |cs| && FirstCounted(cs, i)
      ensures FirstIndex(cs, |cs|) == i
    {
      FirstIndexAt(cs, i, |cs|);
    }
  }

  /** Crossings as received: valid times and no derived field yet. */
  predicate Received(trial: Trial) {
    ValidTimes(trial.crossings) && AllFresh(trial.crossings)
  }

  lemma PassStep(cs: seq<Crossing>, n: nat)
    requires 0 < n <= |cs| && ValidTimes(cs)
    ensures Pass(cs, n).crossings == Pass(cs, n - 1).crossings + [ExpectedCrossing(cs, n - 1)]
  {
    PassMatches(cs, n - 1);
    VisitStep(cs, n - 1);
  }

  lemma ExpectedLap(cs: seq<Crossing>, i: nat)
    requires i < |cs| && Fresh(cs[i])
    ensures ExpectedCrossing(cs, i).lap
         == if LapAt(cs, i) then Some(Lap(LapCount(cs, i + 1), cs[i].time - PrevTime(cs, i))) else None
  {
  }

  /** The pass's last crossing and the lap it carries, if any. */
  lemma LapStep(cs: seq<Crossing>, n: nat)
    requires 0 < n <= |cs| && ValidTimes(cs) && AllFresh(cs)
    ensures var p := Pass(cs, n - 1).crossings;
      var e := ExpectedCrossing(cs, n - 1);
      && Pass(cs, n).crossings == p + [e]
      && (LapAt(cs, n - 1) ==> e.lap == Some(Lap(LapCount(cs, n - 1) + 1, cs[n - 1].time - PrevTime(cs, n - 1))))
      && (!LapAt(cs, n - 1) ==> e.lap.None?)
  {
    PassStep(cs, n);
    assert Fresh(cs[n - 1]);
    ExpectedLap(cs, n - 1);
  }

  lemma {:induction false} LapNumbersPrefix(cs: seq<Crossing>, n: nat)
    requires n <= |cs| && ValidTimes(cs) && AllFresh(cs)
    ensures LapNumbers(Pass(cs, n).crossings) == OneTo(LapCount(cs, n))
  {
    if n > 0 {
      LapNumbersPrefix(cs, n - 1);
      LapStep(cs, n);
      LapListsAppend(Pass(cs, n - 1).crossings, ExpectedCrossing(cs, n - 1));
      if LapAt(cs, n - 1) {
        OneToSnoc(LapCount(cs, n - 1));
      }
    }
  }

  lemma {:induction false} LapTimesPrefix(cs: seq<Crossing>, n: nat)
    requires n <= |cs| && ValidTimes(cs) && AllFresh(cs)
    ensures LapTimes(Pass(cs, n).crossings) == LapDurations(cs, n)
  {
    if n > 0 {
      LapTimesPrefix(cs, n - 1);
      LapStep(cs, n);
      LapListsAppend(Pass(cs, n - 1).crossings, ExpectedCrossing(cs, n - 1));
    }
  }

  lemma {:induction false} LapIdsPrefix(cs: seq<Crossing>, n: nat)
    requires n <= |cs| && ValidTimes(cs) && AllFresh(cs)
    ensures LapIds(Pass(cs, n).crossings) == LapCrossingIds(cs, n)
  {
    if n > 0 {
      LapIdsPrefix(cs, n - 1);
      LapStep(cs, n);
      assert ExpectedCrossing(cs, n - 1).id == cs[n - 1].id;
      LapListsAppend(Pass(cs, n - 1).crossings, ExpectedCrossing(cs, n - 1));
    }
  }

  lemma LapListsPrefix(cs: seq<Crossing>, n: nat)
    requires n <= |cs| && ValidTimes(cs) && AllFresh(cs)
    ensures LapNumbers(Pass(cs, n).crossings) == OneTo(LapCount(cs, n))
    ensures LapTimes(Pass(cs, n).crossings) == LapDurations(cs, n)
    ensures LapIds(Pass(cs, n).crossings) == LapCrossingIds(cs, n)
  {
    LapNumbersPrefix(cs, n);
    LapTimesPrefix(cs, n);
    LapIdsPrefix(cs, n);
  }

  /** Laps are numbered 1, 2, ..., numLaps in order, and there is one lap per counted
      crossing after the first. */
  lemma LapsNumberedFromOne(trial: Trial)
    requires Received(trial)
    ensures var r := ComputeStats(trial);
            var k := CountedNumber(trial.crossings, |trial.crossings|);
            && r.numLaps == (if k == 0 then 0 else k - 1)
            && LapNumbers(r.enhancedCrossings) == OneTo(r.numLaps)
  {
    var cs := trial.crossings;
    PassMatches(cs, |cs|);
    LapListsPrefix(cs, |cs|);
    LapCountIsCountedLessOne(cs, |cs|);
  }

  /** A crossing carries a lap exactly when it and some earlier crossing are not ignored;
      the lap time is the time since the latest earlier counted crossing. */
  lemma LapTimeSincePrevious(trial: Trial, i: nat)
    requires Received(trial) && i < |trial.crossings|
    ensures var cs := trial.crossings;
            var out := ComputeStats(trial).enhancedCrossings;
            && (out[i].lap.Some? <==> !cs[i].ignored && exists j :: 0 <= j < i && !cs[j].ignored)
            && forall j :: LatestCounted(cs, j, i) && out[i].lap.Some? ==> out[i].lap.value.time == cs[i].time - cs[j].time
  {
    var cs := trial.crossings;
    PassMatches(cs, |cs|);
    PrevIndexIsLatest(cs, i);
    assert Fresh(cs[i]);
  }

  /** The best lap time is the smallest lap time and the best-lap crossing the first one
      that ran it; both are -1 without laps. */
  lemma BestLapIsFirstFastest(trial: Trial)
    requires Received(trial)
    ensures var r := ComputeStats(trial);
            var times := LapTimes(r.enhancedCrossings);
            var ids := LapIds(r.enhancedCrossings);
            && |times| == |ids| == r.numLaps
            && (r.numLaps == 0 ==> r.bestLapTime == -1 && r.bestLapCrossingId == -1)
            && (r.numLaps > 0 ==>
                  exists k: nat :: k < |ids| && FirstFastest(times, k)
                                   && r.bestLapTime == times[k] && r.bestLapCrossingId == ids[k])
  {
    var cs := trial.crossings;
    PassMatches(cs, |cs|);
    LapListsPrefix(cs, |cs|);
    var d := LapDurations(cs, |cs|);
    if |d| > 0 {
      LapDurationsBelow(cs, |cs|);
      BestIsFirstFastest(d, LapCrossingIds(cs, |cs|));
    }
  }

  lemma {:induction false} LapDurationsBelow(cs: seq<Crossing>, n: nat)
    requires n <= |cs| && ValidTimes(cs)
    ensures forall k :: 0 <= k < |LapDurations(cs, n)| ==> LapDurations(cs, n)[k] < MAX_SAFE_INTEGER
  {
    if n > 0 {
      LapDurationsBelow(cs, n - 1);
      if LapAt(cs, n - 1) {
        assert PrevTime(cs, n - 1) == cs[PrevIndex(cs, n - 1)].time >= 0;
      }
    }
  }

  /** The current lap start stays -1 until the first lap, then is the latest counted
      crossing's time; the stop time is that time once the trial is finished or
      cancelled, and -1 otherwise. */
  lemma CurrentLapAndStopTime(trial: Trial)
    requires ValidTimes(trial.crossings)
    ensures var cs := trial.crossings;
            var r := ComputeStats(trial);
            var none := forall j :: 0 <= j < |cs| ==> cs[j].ignored;
            && (r.numLaps == 0 ==> r.currentLapStartTime == -1)
            && (forall h :: r.numLaps > 0 && LatestCounted(cs, h, |cs|) ==> r.currentLapStartTime == cs[h].time)
            && (none || !IsTerminal(trial.state) ==> r.stopTime == -1)
            && (forall h :: IsTerminal(trial.state) && LatestCounted(cs, h, |cs|) ==> r.stopTime == cs[h].time)
  {
    var cs := trial.crossings;
    PassMatches(cs, |cs|);
    PrevIndexIsLatest(cs, |cs|);
    var h := PrevIndex(cs, |cs|);
    if h != -1 {
      assert PrevTime(cs, |cs|) == cs[h].time >= 0;
    }
  }
}

=== FILE: types.dfy ===
/** The entities the timing engines, reducers and backend rules work on: crossings with
    their derived (computed) annotations, races and trials, mirroring the frontend's
    types.ts and the backend's enumerations. */
module Types {
  import opened Common

  /** CROSSING_TEAM_UNSET = 0, CROSSING_TEAM_A = 1, CROSSING_TEAM_B = 2. */
  datatype Team = Unset | TeamA | TeamB

  function TeamCode(t: Team): (code: nat)
    ensures code <= 2
  {
    match t
    case Unset => 0
    case TeamA => 1
    case TeamB => 2
  }

  datatype RaceType = TimeTrial | HeadToHead

  datatype RaceState = BeforeStart | Running | Finished | Unfinished

  /** Wire names of the race states ("before_start", "running", ...). */
  function RaceStateName(s: RaceState): string {
    match s
    case BeforeStart => "before_start"
    case Running => "running"
    case Finished => "finished"
    case Unfinished => "unfinished"
  }

  /** A race that has been stopped, whether completed or cancelled. */
  predicate IsTerminal(s: RaceState) {
    s == Finished || s == Unfinished
  }

  /** Derived lap annotation: the lap's ordinal and its duration in milliseconds. */
  datatype Lap = Lap(number: int, time: int)

  /** Derived checkpoint annotation: the lap it belongs to, its ordinal within that
      lap and the time since the lap started. */
  datatype Checkpoint = Checkpoint(lapNumber: int, number: int, time: int)

  /** One barrier crossing. `start`, `excluded`, `checkpoint` and `lap` are derived
      fields written by the timing engines; a crossing as sent by the backend has
      `start` and `excluded` false and no checkpoint or lap. */
  datatype Crossing = Crossing(
    id: int,
    updatedAt: int,
    time: int,
    ignored: bool,
    barrierId: int,
    team: Team,
    interrupted: bool,
    start: bool,
    excluded: bool,
    checkpoint: Option<Checkpoint>,
    lap: Option<Lap>)

  /** A crossing that carries no derived field yet. */
  predicate Fresh(c: Crossing) {
    !c.start && !c.excluded && c.checkpoint.None? && c.lap.None?
  }

  predicate AllFresh(cs: seq<Crossing>) {
    forall i :: 0 <= i < |cs| ==> Fresh(cs[i])
  }

  /** The fields the backend owns; the engines never change them. */
  predicate SameRecorded(a: Crossing, b: Crossing) {
    a.id == b.id && a.updatedAt == b.updatedAt && a.time == b.time && a.ignored == b.ignored
    && a.barrierId == b.barrierId && a.team == b.team && a.interrupted == b.interrupted
  }

  /** A race with its crossings (FullRace). `timeDuration` (milliseconds) is meaningful
      for time trials, `lapsDuration`, `teamBId` and `teamBBarrierId` for head-to-head
      races. */
  datatype Race = Race(
    id: int,
    updatedAt: int,
    raceType: RaceType,
    state: RaceState,
    round: int,
    teamAId: int,
    teamABarrierId: int,
    timeDuration: int,
    lapsDuration: int,
    teamBId: int,
    teamBBarrierId: int,
    crossings: seq<Crossing>)

  /** A single-barrier trial with its crossings (FullTrial); its states share the race
      states' names. */
  datatype Trial = Trial(
    id: int,
    updatedAt: int,
    state: RaceState,
    crossings: seq<Crossing>)
}

=== FILE: ws_manager.dfy ===
/** The WebSocketManager of frontend/app/ws/WebSocketManager.ts: one WebSocket client
    at a time to the backend, connection-state listeners, and trial-data listeners by
    trial id.

    The mutable class becomes a value `Manager`; every operation returns the next
    manager and the effects it had, in order. A WebSocket object is identified by the
    number it was created with (JavaScript compares clients by identity). The browser's
    `readyState` of the current client is an input of the operations that read it.
    Parsing a message is abstracted to its outcome. */
module WebSocketManager {
  import opened Common
  import opened Types
  import opened SmartMap
  import opened Listeners

  /** WebSocket.CONNECTING and WebSocket.CLOSED. */
  const CONNECTING := 0
  const CLOSED := 3
  /** The close code "normal closure". */
  const NORMAL_CLOSURE := 1000

  datatype ConnectionState = ConnectionState(url: Option<string>, state: int)

  datatype Manager = Manager(
    url: Option<string>,
    client: Option<nat>,
    nextClient: nat,
    stateListeners: set<nat>,
    trialListeners: Registry<int>)

  datatype Effect =
    | NotifyState(listeners: set<nat>, state: ConnectionState)
    | OpenClient(client: nat, url: string)
    | CloseClient(client: nat, code: int)
    | DeliverTrial(listeners: set<nat>, trial: Trial)

  datatype Step = Step(m: Manager, effects: seq<Effect>)

  /** What arrives in a message: text that is not JSON, or a JSON value with or
      without a `trial` member. */
  datatype Message = NotJson | Json(trial: Option<Trial>)

  /** The manager's invariant: the current client is one already created, the trial
      listener registry prunes empty sets and holds none. */
  ghost predicate Valid(m: Manager) {
    && (m.client.Some? ==> m.client.value < m.nextClient)
    && Prunes(m.trialListeners)
    && NoEmptySets(m.trialListeners)
  }

  /** getConnectionState: the url and the current client's ready state, -1 without a
      client. */
  function GetConnectionState(m: Manager, readyState: int): (r: ConnectionState)
    ensures r.url == m.url
    ensures readyState >= 0 ==> (r.state == -1 <==> m.client.None?)
  {
    ConnectionState(m.url, if m.client.Some? then readyState else -1)
  }

  function NotifyConnectionState(m: Manager, readyState: int): Effect {
    NotifyState(m.stateListeners, GetConnectionState(m, readyState))
  }

  /** disconnect: close the current client unless it is already closed, forget it and
      tell the listeners. Without a client nothing happens. */
  function Disconnect(m: Manager, readyState: int): (r: Step)
    ensures r.m.client.None?
    ensures m.client.None? ==> r == Step(m, [])
    ensures m.client.Some? ==>
      && r.m == m.(client := None)
      && r.effects ==
        (if readyState != CLOSED then [CloseClient(m.client.value, NORMAL_CLOSURE)] else [])
        + [NotifyState(m.stateListeners, ConnectionState(m.url, -1))]
  {
    if m.client.None? then Step(m, [])
    else
      var closing := if readyState != CLOSED then [CloseClient(m.client.value, NORMAL_CLOSURE)] else [];
      var m1 := m.(client := None);
      Step(m1, closing + [NotifyConnectionState(m1, readyState)])
  }

  /** connect: drop the current client, then, when a url is set, open a new client and
      tell the listeners it is connecting. */
  function Connect(m: Manager, readyState: int): (r: Step)
  {
    var d := if m.client.Some? then Disconnect(m, readyState) else Step(m, []);
    if d.m.url.None? then d
    else
      var c := d.m.nextClient;
      var m1 := d.m.(client := Some(c), nextClient := c + 1);
      Step(m1, d.effects + [OpenClient(c, d.m.url.value), NotifyConnectionState(m1, CONNECTING)])
  }

  /** The constructor: no client, no listeners; connects at once when a url is given
      and auto-connect is on. */
  function Create(url: Option<string>, autoConnect: bool): (r: Step)
    ensures Valid(r.m)
    ensures r.m.url == url && r.m.stateListeners == {} && r.m.trialListeners.store == map[]
    ensures r.m.client.Some? <==> url.Some? && autoConnect
  {
    var m := Manager(url, None, 0, {}, NewRegistry());
    if url.Some? && autoConnect then Connect(m, CLOSED) else Step(m, [])
  }

  /** The url setter: a connected manager reconnects to the new url. */
  function SetUrl(m: Manager, url: Option<string>, readyState: int): (r: Step)
    ensures r.m.url == url
  {
    var m1 := m.(url := url);
    if m1.client.Some? then
      var d := Disconnect(m1, readyState);
      var c := Connect(d.m, CLOSED);
      Step(c.m, d.effects + c.effects)
    else Step(m1, [])
  }

  /** The callbacks installed on client `from` act only while it is the current
      client. */
  predicate Stale(m: Manager, from: nat) {
    m.client != Some(from)
  }

  function OnOpen(m: Manager, from: nat, readyState: int): Step {
    if Stale(m, from) then Step(m, []) else Step(m, [NotifyConnectionState(m, readyState)])
  }

  function OnClose(m: Manager, from: nat, readyState: int): Step {
    if Stale(m, from) then Step(m, []) else Step(m, [NotifyConnectionState(m, readyState)])
  }

  /** onerror only logs. */
  function OnError(m: Manager, from: nat): Step {
    Step(m, [])
  }

  function OnMessage(m: Manager, from: nat, msg: Message): Step {
    if Stale(m, from) then Step(m, []) else Step(m, ProcessMessage(m, msg))
  }

  /** processMessage: a message that is not JSON is dropped; one carrying a trial goes
      to that trial's listeners. */
  function ProcessMessage(m: Manager, msg: Message): seq<Effect> {
    match msg
    case NotJson => []
    case Json(trial) => if trial.Some? then NotifyTrialData(m, trial.value) else []
  }

  /** notifyTrialDataListeners: only when the trial has an entry; reading the entry
      therefore never creates one. */
  function NotifyTrialData(m: Manager, trial: Trial): seq<Effect> {
    if !Has(m.trialListeners, trial.id) then []
    else [DeliverTrial(Get(m.trialListeners, trial.id, None).value, trial)]
  }

  function ListenForConnectionState(m: Manager, h: nat): Manager {
    m.(stateListeners := m.stateListeners + {h})
  }

  function UnlistenConnectionState(m: Manager, h: nat): Manager {
    m.(stateListeners := m.stateListeners - {h})
  }

  function ListenForTrialData(m: Manager, trialId: int, h: nat): Manager {
    m.(trialListeners := Subscribe(m.trialListeners, trialId, h))
  }

  function UnlistenTrialData(m: Manager, trialId: int, h: nat): Manager {
    m.(trialListeners := Unsubscribe(m.trialListeners, trialId, h))
  }

  /** Every operation keeps the manager valid. */
  lemma OperationsKeepValid(m: Manager, readyState: int, url: Option<string>, from: nat, msg: Message, id: int, h: nat)
    requires Valid(m)
    ensures Valid(Disconnect(m, readyState).m)
    ensures Valid(Connect(m, readyState).m)
    ensures Valid(SetUrl(m, url, readyState).m)
    ensures Valid(OnOpen(m, from, readyState).m) && Valid(OnClose(m, from, readyState).m)
    ensures Valid(OnError(m, from).m) && Valid(OnMessage(m, from, msg).m)
    ensures Valid(ListenForConnectionState(m, h)) && Valid(UnlistenConnectionState(m, h))
    ensures Valid(ListenForTrialData(m, id, h)) && Valid(UnlistenTrialData(m, id, h))
  {
    SubscribeAdds(m.trialListeners, id, h);
    UnsubscribeRemoves(m.trialListeners, id, h);
  }

  /** Connecting with a url leaves a brand-new client current, so every callback of an
      earlier client is stale from then on; without a url no client is left. */
  lemma ConnectReplacesClient(m: Manager, readyState: int, earlier: nat)
    requires Valid(m)
    requires earlier < m.nextClient
    ensures m.url.Some? ==> Connect(m, readyState).m.client == Some(m.nextClient)
    ensures m.url.None? ==> Connect(m, readyState).m.client.None?
    ensures Stale(Connect(m, readyState).m, earlier)
  {
  }

  /** Connecting first disconnects: the old client is closed (unless already closed)
      and the listeners see -1, then CONNECTING for the new client. */
  lemma ConnectEffects(m: Manager, readyState: int)
    requires m.client.Some? && m.url.Some? && readyState != CLOSED
    ensures Connect(m, readyState).effects == [
      CloseClient(m.client.value, NORMAL_CLOSURE),
      NotifyState(m.stateListeners, ConnectionState(m.url, -1)),
      OpenClient(m.nextClient, m.url.value),
      NotifyState(m.stateListeners, ConnectionState(m.url, CONNECTING))]
  {
  }

  /** A stale client's callbacks change nothing and notify nobody. */
  lemma StaleCallbacksIgnored(m: Manager, from: nat, readyState: int, msg: Message)
    requires Stale(m, from)
    ensures OnOpen(m, from, readyState) == Step(m, [])
    ensures OnClose(m, from, readyState) == Step(m, [])
    ensures OnMessage(m, from, msg) == Step(m, [])
    ensures OnError(m, from) == Step(m, [])
  {
  }

  /** A message from the current client reaches exactly the listeners of the trial it
      carries, and nobody when it is not JSON, carries no trial, or nobody listens. */
  lemma MessageRouting(m: Manager, msg: Message)
    requires m.client.Some?
    ensures var e := OnMessage(m, m.client.value, msg);
      && e.m == m
      && (|e.effects| > 0 <==> msg.Json? && msg.trial.Some? && msg.trial.value.id in m.trialListeners.store)
      && (|e.effects| > 0 ==>
            e.effects == [DeliverTrial(ListenersOf(m.trialListeners, msg.trial.value.id), msg.trial.value)])
  {
  }

  /** Listening for a trial and then unsubscribing gives the registry back. */
  lemma TrialListenRoundTrip(m: Manager, trialId: int, h: nat)
    requires Valid(m) && h !in ListenersOf(m.trialListeners, trialId)
    ensures UnlistenTrialData(ListenForTrialData(m, trialId, h), trialId, h).trialListeners.store
         == m.trialListeners.store
  {
    SubscribeThenUnsubscribe(m.trialListeners, trialId, h);
  }

  /** Changing the url of a connected manager reconnects to the new url; a manager
      without a client only records it. */
  lemma SetUrlReconnects(m: Manager, url: Option<string>, readyState: int)
    requires Valid(m)
    ensures m.client.Some? && url.Some? ==> SetUrl(m, url, readyState).m.client == Some(m.nextClient)
    ensures m.client.Some? && url.None? ==> SetUrl(m, url, readyState).m.client.None?
    ensures m.client.None? ==> SetUrl(m, url, readyState) == Step(m.(url := url), [])
  {
  }
}
